=== FILE: README.md ===
# Bungeons and Dangeons: the equipment catalogue

A Dafny model of the data core of a small tabletop-game catalogue of
weapons and armour. The catalogue keeps weapons, weapon properties (tags
such as `finesse` or `thrown`) and armours in SQLite tables. It seeds those
tables from fixed fixture lists and answers queries for a web front end.
The model covers the following:

- **The value types.** Weapons, ranges, damage and weapon types, armours
  and armour types (`WeaponModel`, `ArmourModel`).
- **The fixtures.** The 37 weapons, the 12 weapon properties and the 13
  armours (`WeaponEntities`, `ArmourModel`). Facts about them are proved
  once: names are distinct, descriptions are given, and every tag a fixture
  weapon uses is described.
- **The table-row transform.** `convertWeaponToWeaponTableRow` builds the
  damage column and folds range and versatile damage into the property
  tags (`WeaponModel`).
- **Two generations of store**, each a `class` whose fields are its tables:
  - the current ones under `src/data/repositories`: `WeaponStore`,
    `ArmourStore`;
  - the older ones under `src/database`: `LegacyWeaponStore`,
    `LegacyArmourStore`.

  Every writing method is proved against a specification function on
  table values (`WeaponTables`, `ArmourTables`). Everything proved about
  those functions therefore holds of the stores. This covers seeding being
  idempotent, ids being positions, the unique and foreign keys holding,
  tags being linked exactly, and a failed create changing nothing.
- **The services.** `WeaponServices`, `ArmourServices` and
  `SharedDataServices` filter, look up and group what the stores return.
  Each query is specified by a filter, or a group-by over the rows, in row
  order.
- **The two formatting services** (`Formatting`, `LegacyFormatting`). They
  provide title case and a URI-safe slug for property names.

Shared pieces:

- `Text` models the JavaScript string operations used:
  - `toLowerCase`/`toUpperCase` on ASCII letters;
  - `includes`, `split`, `join`;
  - the default `sort`, in code-point order; equal to JavaScript's
    code-unit order when no character lies outside the Basic Multilingual
    Plane.
- `Sequences` models `filter`, `map`, `find` and the grouping `reduce`.

SQL is modelled by what each statement does to the tables:

- `INSERT OR IGNORE` is modelled as a lookup by the unique key.
- `LIKE '%q%'` is modelled as `Contains`.
- Reads return rows in id order.

The ids SQLite assigns are modelled as 1-based positions, since nothing
ever deletes a row.

JavaScript truthiness is modelled where the code relies on it:

- `x || null` is `WeaponModel.OrNull`, which treats `""` like a missing
  value.
- `range?.normal || null` drops a zero range.

## Model

| member | source | states |
|---|---|---|
| WeaponModel.OrNull | src/model/weapon.ts:113 | `x \|\| null` keeps a value exactly when it is present and non-empty, and then keeps it unchanged |
| WeaponModel.ConvertWeaponToWeaponTableRow | src/model/weapon.ts:78-117 | the row built step by step is the table row specified for the weapon |
| WeaponModel.DamageColumn | src/model/weapon.ts:81-84 | the damage column is present iff the weapon has a non-empty damage die and a damage type, and then reads "die type damage" |
| WeaponModel.PlainColumns | src/model/weapon.ts:109-116 | name, type and cost are copied; the weight is kept when truthy and absent when missing |
| WeaponModel.NoRuleFires | src/model/weapon.ts:85 | without a range rule or versatile rule to apply, the properties are the input sorted: sorted and a permutation of the input |
| WeaponModel.NoRuleFiresSorted | src/model/weapon.ts:85 | when no rule applies, tags already sorted come out unchanged |
| WeaponModel.AmmunitionStep | src/model/weapon.ts:87-94 | with a range, `ammunition` and `range` are replaced by one "ammunition (range n/m)" tag at the front; every other tag is kept and nothing else is added |
| WeaponModel.ThrownStep | src/model/weapon.ts:96-102 | with a range, `range` and `thrown` are replaced by one "thrown (range n/m)" tag and the result is re-sorted; its members are exactly that tag and the other input tags |
| WeaponModel.VersatileStep | src/model/weapon.ts:104-107 | with a truthy versatile die, `versatile` is replaced by "versatile (die)" at the end; otherwise nothing but the rejected words changes |
| WeaponModel.AmmunitionRule | src/model/weapon.ts:87-94 | for a ranged ammunition weapon that is not thrown, the first table tag is the ammunition-with-range tag, and neither bare tag remains |
| WeaponModel.ThrownRule | src/model/weapon.ts:96-102 | for a thrown weapon with a range, the thrown-with-range tag is present and the bare `thrown` and `range` are gone |
| WeaponModel.ThrownRuleSorted | src/model/weapon.ts:85-102 | without a versatile rule, the thrown result is the sorted list of the other tags plus the thrown-with-range tag |
| WeaponModel.ThrownSortedFromInput | src/model/weapon.ts:85-102 | sorting before the thrown rule does not change its outcome |
| WeaponModel.VersatileRule | src/model/weapon.ts:104-107 | for a versatile weapon with a truthy versatile die, the last table tag is "versatile (die)" and the bare tag is gone |
| WeaponModel.RangeAloneStaysBare | src/model/weapon.ts:87-102 | a `range` tag without `ammunition` or `thrown` stays in the row |
| WeaponModel.AmmunitionAloneStaysBare | src/model/weapon.ts:87-94 | `ammunition` without a range stays bare |
| WeaponModel.VersatileAloneStaysBare | src/model/weapon.ts:104-107 | `versatile` without a truthy versatile die stays bare |
| WeaponModel.AmmunitionTokenLostToThrown | src/model/weapon.ts:87-102 | a weapon tagged both `ammunition` and `thrown` loses the ammunition-with-range tag to the thrown rule, which runs second |
| WeaponModel.VersatileTokenIsNoBareTag | src/model/weapon.ts:104-107 | the combined versatile tag is none of the four bare rule words |
| WeaponEntities.WeaponNamesDistinct | src/data/entities/weapon.entity.ts:32-384 | the 37 fixture weapons have pairwise distinct names |
| WeaponEntities.WeaponFixtureWellFormed | src/data/entities/weapon.entity.ts:32-384 | every fixture weapon uses only tags of the property vocabulary |
| WeaponEntities.RangeWithoutRangeTag | src/data/entities/weapon.entity.ts:32-384 | the light crossbow has a range of 80/320 but no `range` tag |
| WeaponEntities.OnlyNetLacksDamage | src/data/entities/weapon.entity.ts:32-384 | the net, the last fixture weapon, is the only one without a damage die |
| WeaponEntities.VocabularyDistinct | src/model/weapon.ts:27-40 | the 12 property names are distinct |
| WeaponEntities.PropertyFixtureIsVocabulary | src/data/entities/weapon.entity.ts:389-449 | the property fixture lists the 12 vocabulary names in order, distinct, each with a non-empty description |
| WeaponTables.RowRoundTrip | src/data/repositories/weapon.repository.ts:244-268 | storing a weapon as a row and combining it with its tags gives the weapon back iff its optional fields survive `\|\| null` |
| WeaponTables.RangeSurvivesIffNonZero | src/data/repositories/weapon.repository.ts:116-117 | the range read back is the stored one iff both its bounds are non-zero; otherwise it is absent |
| WeaponTables.Description | src/data/repositories/weapon.repository.ts:137-162 | the fixture description is that of an entry of that name, or none exists |
| WeaponTables.EnsurePropertyFails | src/data/repositories/weapon.repository.ts:151-153 | looking up a tag throws iff it is neither stored nor described in the fixture, with the error naming the tag |
| WeaponTables.EnsurePropertyFinds | src/data/repositories/weapon.repository.ts:137-162 | a successful lookup returns an id whose row has that name, extends the property table by at most that row, and writes nothing when the name is stored |
| WeaponTables.AddRelationValid | src/data/repositories/weapon.repository.ts:167-176 | inserting a link keeps the foreign keys and the pair key, and the links are the old ones plus the new one |
| WeaponTables.LinkedNamesMembers | src/data/repositories/weapon.repository.ts:227-239 | a name is among a weapon's tags iff a link joins that weapon to a property of that name |
| WeaponTables.LinkTagsFails | src/data/repositories/weapon.repository.ts:122-130 | linking the tags fails iff some tag is unknown |
| WeaponTables.LinkTagsFirstError | src/data/repositories/weapon.repository.ts:122-130 | the error raised is that of the first unknown tag |
| WeaponTables.LinkTagsNames | src/data/repositories/weapon.repository.ts:122-130 | after linking, the weapon's tags are its old tags plus the linked ones |
| WeaponTables.InsertWeaponValid | src/data/repositories/weapon.repository.ts:99-132 | a successful insert of a fresh name keeps the keys valid, appends the row under the next id, and only appends links for that id |
| WeaponTables.InsertWeaponFails | src/data/repositories/weapon.repository.ts:99-132 | an insert fails iff some tag is unknown, and reports the first unknown tag |
| WeaponTables.InsertWeaponTags | src/data/repositories/weapon.repository.ts:99-132 | the inserted weapon's tags are exactly its properties |
| WeaponTables.InsertWeaponKeepsOthers | src/data/repositories/weapon.repository.ts:99-132 | every other weapon's tags are unchanged |
| WeaponTables.ReadWeaponsByName | src/data/repositories/weapon.repository.ts:210-222 | the weapons found are those stored whose name contains the query |
| WeaponTables.ReadWeaponProperty | src/data/repositories/weapon.repository.ts:273-278 | a property is found iff its id is between 1 and the table size |
| WeaponTables.ReadWeaponPropertiesByName | src/data/repositories/weapon.repository.ts:292-299 | the properties found are those stored whose name contains the query |
| WeaponTables.ReadWeaponById | src/data/repositories/weapon.repository.ts:181-191 | a weapon is found iff its id is between 1 and the row count, and it is that row with its tags |
| WeaponTables.ReadAllIsReadById | src/data/repositories/weapon.repository.ts:196-205 | the i-th weapon of `readAll` is what `read(i + 1)` returns |
| WeaponTables.CreateFresh | src/data/repositories/weapon.repository.ts:99-132 | creating a fresh name with known tags returns the next id, keeps the tables valid, and reads back the weapon with the same tags |
| WeaponTables.CreateUnknownTag | src/data/repositories/weapon.repository.ts:99-132 | with an unknown tag, create throws the first one's error and the tables are as before (the transaction rolls back) |
| WeaponTables.SeedPropertiesStores | src/data/repositories/weapon.repository.ts:65-81 | seeding the properties keeps the stored rows and stores every fixture name |
| WeaponTables.SeedPropertiesNoop | src/data/repositories/weapon.repository.ts:65-81 | seeding properties that are all stored writes nothing |
| WeaponTables.SeedPropertiesIdempotent | src/data/repositories/weapon.repository.ts:65-81 | seeding the properties twice is seeding them once |
| WeaponTables.SeedPropertiesFresh | src/data/repositories/weapon.repository.ts:65-81 | seeding distinct fresh names appends them in order |
| WeaponTables.SeedPropertiesUnique | src/data/repositories/weapon.repository.ts:39 | seeding keeps property names unique |
| WeaponTables.SeedWeaponsStores | src/data/repositories/weapon.repository.ts:84-93 | successful weapon seeding stores every fixture name |
| WeaponTables.SeedWeaponsAppends | src/data/repositories/weapon.repository.ts:84-93 | weapon seeding keeps the stored rows as a prefix |
| WeaponTables.SeedWeaponsNoop | src/data/repositories/weapon.repository.ts:84-93 | seeding weapons that are all stored writes nothing |
| WeaponTables.SeedWeaponsIdempotent | src/data/repositories/weapon.repository.ts:84-93 | seeding the weapons again after a success changes nothing |
| WeaponTables.SeedWeaponsFresh | src/data/repositories/weapon.repository.ts:84-93 | seeding distinct fresh weapons with known tags succeeds, storing each under the next id with exactly its tags |
| WeaponTables.SeedWeaponsValid | src/data/repositories/weapon.repository.ts:84-93 | successful seeding keeps the tables valid and the property rows as a prefix |
| WeaponTables.SeedWeaponsKeepsProperties | src/data/repositories/weapon.repository.ts:84-93 | when every tag is already stored, weapon seeding adds no property |
| WeaponTables.SeedAllIdempotent | src/data/repositories/weapon.repository.ts:63-94 | seeding again after a successful seed changes nothing |
| WeaponTables.SeedAllWeaponsOnly | src/database/weapon-repository/weapon-repository.ts:55-65 | seeding with no properties is seeding the weapons alone |
| WeaponTables.FirstAppearancesStep | src/database/weapon-repository/weapon-repository.ts:55-65 | the tags the first k + 1 weapons use, in first-use order, are those of the first k followed by the new tags of weapon k |
| WeaponTables.EnsurePropertyEntries | src/database/weapon-repository/weapon-repository.ts:97-125 | on a property table of fixture entries, a successful lookup leaves the table with an entry appended for the name iff it was not there |
| WeaponTables.LinkTagsEntries | src/database/weapon-repository/weapon-repository.ts:88-91 | linking a weapon's tags on a property table of fixture entries appends an entry for each tag not yet present, in tag order |
| WeaponTables.SeedWeaponsEntries | src/database/weapon-repository/weapon-repository.ts:55-91 | seeding fresh weapons with described tags succeeds and extends a property table of fixture entries by the weapons' new tags in first-use order |
| WeaponSeed.VocabularyTagDescribed | src/data/repositories/weapon.repository.ts:137-162 | every vocabulary tag has a truthy fixture description |
| WeaponSeed.SeedWithVocabulary | src/data/repositories/weapon.repository.ts:63-94 | seeding empty tables with the property fixture and distinct well-formed weapons succeeds and stores each weapon with its tags |
| WeaponSeed.DataSeedFromEmpty | src/data/repositories/weapon.repository.ts:21-24 | the store's own seeding of empty tables succeeds, with the property table equal to the fixture and every fixture weapon stored under its position with its tags |
| WeaponSeed.LazySeedFromEmpty | src/database/weapon-repository/weapon-repository.ts:55-125 | weapon-only seeding of empty tables succeeds and creates one property row per used tag, in first-use order, each with its fixture description |
| WeaponSeed.LegacySeedProperties | src/database/weapon-repository/weapon-repository.ts:55-125 | the older store's seeding of empty tables gives the fixture entries of the tags in first-use order, which is the listed twelve-tag order |
| WeaponSeed.FirstUseOrder | src/data/entities/weapon.entity.ts:32-384 | the fixture weapons first use the tags in the order light, finesse, range, thrown, two-handed, versatile, ammunition, loading, heavy, reach, lance, net |
| WeaponSeed.FirstUseEntries | src/database/weapon-repository/weapon-repository.test.ts:220-266 | the entries for that order are twelve, name for name, with `two-handed` fifth and `lance` eleventh |
| WeaponSeed.LegacySeeded | src/database/weapon-repository/weapon-repository.test.ts:220-266 | tables the older seeding produces hold 12 property rows, `two-handed` under id 5 and `lance` under id 11 |
| WeaponSeed.LegacySeedFromEmpty | src/database/weapon-repository/weapon-repository.ts:55-65 | the older store's seeding of empty tables, which has no property rows, succeeds and stores every fixture weapon under its position with exactly its tags |
| WeaponStore.WeaponRepository.constructor | src/data/repositories/weapon.repository.ts:17-24 | construction leaves valid tables seeded from the fixtures |
| WeaponStore.WeaponRepository.InsertInitialData | src/data/repositories/weapon.repository.ts:63-94 | the loops compute the seeding function, stopping at the first throw |
| WeaponStore.WeaponRepository.InsertFixtureWeapons | src/data/repositories/weapon.repository.ts:84-93 | the weapon loop computes weapon seeding, stopping at the first throw |
| WeaponStore.WeaponRepository.Create | src/data/repositories/weapon.repository.ts:99-132 | the method's result and new tables are those of the create function: 0 for a stored name, a rollback on a throw; valid tables stay valid |
| WeaponStore.WeaponRepository.EnsurePropertyExists | src/data/repositories/weapon.repository.ts:137-162 | the method computes the lookup function and writes only the property table |
| WeaponStore.WeaponRepository.CreateWeaponPropertyRelation | src/data/repositories/weapon.repository.ts:167-176 | the method inserts the link unless it is present, touching only the link table |
| WeaponStore.WeaponRepository.Read | src/data/repositories/weapon.repository.ts:181-191 | found iff 1 <= id <= row count, and then the row under that id with its tags |
| WeaponStore.WeaponRepository.ReadAll | src/data/repositories/weapon.repository.ts:196-205 | one entity per row, the i-th equal to `read(i + 1)` |
| WeaponStore.WeaponRepository.ReadByName | src/data/repositories/weapon.repository.ts:210-222 | the entities whose name contains the query |
| WeaponStore.WeaponRepository.ReadWeaponProperty | src/data/repositories/weapon.repository.ts:273-278 | found iff 1 <= id <= table size, and then the row at that position |
| WeaponStore.WeaponRepository.ReadAllWeaponProperties | src/data/repositories/weapon.repository.ts:283-287 | every property, the i-th equal to `readWeaponProperty(i + 1)` |
| WeaponStore.WeaponRepository.ReadWeaponPropertyByName | src/data/repositories/weapon.repository.ts:292-299 | the properties whose name contains the query |
| WeaponStore.WeaponRepository.Update | src/data/repositories/weapon.repository.ts:304-309 | reports failure with the "not implemented" message and no id or row count |
| WeaponStore.WeaponRepository.Delete | src/data/repositories/weapon.repository.ts:314-319 | reports failure with the "not implemented" message and no id or row count |
| LegacyWeaponStore.WeaponRepository.constructor | src/database/weapon-repository/weapon-repository.ts:13-16 | construction leaves valid tables seeded from the weapon fixture alone; the property table is one fixture entry per tag in the order the weapons first use the tags: 12 rows, `two-handed` under id 5 and `lance` under id 11 |
| LegacyWeaponStore.WeaponRepository.InsertInitialData | src/database/weapon-repository/weapon-repository.ts:55-65 | the loop computes weapon-only seeding, stopping at the first throw |
| LegacyWeaponStore.WeaponRepository.Create | src/database/weapon-repository/weapon-repository.ts:67-95 | a stored name makes create throw with the tables unchanged; otherwise it inserts under the next id or rolls back on an unknown tag; valid tables stay valid |
| LegacyWeaponStore.WeaponRepository.EnsurePropertyExists | src/database/weapon-repository/weapon-repository.ts:97-125 | the method computes the lookup function, throwing for a tag not described in the fixture |
| LegacyWeaponStore.WeaponRepository.CreateWeaponPropertyRelation | src/database/weapon-repository/weapon-repository.ts:127-139 | the method inserts the link unless it is present |
| LegacyWeaponStore.WeaponRepository.Read | src/database/weapon-repository/weapon-repository.ts:141-152 | found iff 1 <= id <= row count, and then that row with its tags |
| LegacyWeaponStore.WeaponRepository.ReadAll | src/database/weapon-repository/weapon-repository.ts:154-164 | the i-th entity is `read(i + 1)` |
| LegacyWeaponStore.WeaponRepository.ReadByName | src/database/weapon-repository/weapon-repository.ts:166-178 | the entities whose name contains the query |
| LegacyWeaponStore.WeaponRepository.ReadWeaponProperty | src/database/weapon-repository/weapon-repository.ts:220-225 | found iff 1 <= id <= table size |
| LegacyWeaponStore.WeaponRepository.ReadAllWeaponProperties | src/database/weapon-repository/weapon-repository.ts:227-231 | the i-th property is `readWeaponProperty(i + 1)` |
| LegacyWeaponStore.WeaponRepository.ReadWeaponPropertyByName | src/database/weapon-repository/weapon-repository.ts:233-240 | the properties whose name contains the query |
| LegacyWeaponStore.WeaponRepository.Update | src/database/weapon-repository/weapon-repository.ts:242-244 | writes nothing |
| LegacyWeaponStore.WeaponRepository.Delete | src/database/weapon-repository/weapon-repository.ts:246-248 | writes nothing |
| ArmourModel.ArmourNamesDistinct | src/database/armour-repositroy/armour-repository.model.ts:10-138 | the 13 fixture armours have distinct names |
| ArmourModel.DescriptionsNotEmpty | src/database/armour-repositroy/armour-repository.model.ts:10-138 | every fixture armour has a non-empty description |
| ArmourModel.ArmourStrengthsNonEmpty | src/database/armour-repositroy/armour-repository.model.ts:10-138 | no fixture strength is the empty string |
| ArmourModel.LeatherAndPaddedNames | src/database/armour-repositroy/armour-repository.model.ts:10-138 | exactly armours 2 and 3 contain "leather", only the first contains "padded", none contains "vibranium" |
| ArmourModel.ShieldIsLast | src/database/armour-repositroy/armour-repository.model.ts:10-138 | the last armour is the shield, with no strength or stealth entry |
| ArmourModel.EveryArmourTypeOccurs | src/model/armour.ts:3-8 | every armour type occurs in the fixture |
| ArmourTables.StoredRoundTrip | src/data/repositories/armour.repository.ts:54-76 | an armour reads back as written iff its strength is not the empty string |
| ArmourTables.InsertAdds | src/data/repositories/armour.repository.ts:54-76 | inserting keeps the old rows and ids as positions, and appends the stored armour |
| ArmourTables.ReadByName | src/data/repositories/armour.repository.ts:98-105 | the rows found are those whose name contains the query |
| ArmourTables.ReadByNameInIdOrder | src/data/repositories/armour.repository.ts:98-105 | they come in increasing id order |
| ArmourTables.DescriptionByName | src/data/repositories/armour.repository.ts:110-117 | a description is found iff some row has that exact name, and it is the first such row's |
| ArmourTables.ReadArmourById | src/data/repositories/armour.repository.ts:81-86 | found iff 1 <= id <= row count, and then that row |
| ArmourTables.ReadAfterInsert | src/data/repositories/armour.repository.ts:54-86 | after an insert the new id reads the stored armour and every other id reads as before |
| ArmourTables.DescriptionOfStoredName | src/data/repositories/armour.repository.ts:110-117 | with unique names, a stored armour's name finds its own description |
| ArmourTables.SeedArmoursStores | src/data/repositories/armour.repository.ts:38-49 | seeding keeps the stored rows and stores every fixture name |
| ArmourTables.SeedArmoursNoop | src/data/repositories/armour.repository.ts:38-49 | seeding an already seeded table writes nothing |
| ArmourTables.SeedArmoursIdempotent | src/data/repositories/armour.repository.ts:38-49 | seeding twice is seeding once |
| ArmourTables.SeedArmoursFresh | src/data/repositories/armour.repository.ts:38-49 | seeding distinct fresh names appends them under the next ids |
| ArmourTables.SeedFromEmpty | src/data/repositories/armour.repository.ts:38-49 | seeding an empty table stores each armour under its 1-based position |
| ArmourTables.SeedFixture | src/data/repositories/armour.repository.ts:17-49 | the seeded fixture has 13 rows, the k-th armour under id k + 1, with unique names |
| ArmourTables.FixtureReadShield | src/data/repositories/armour.repository.ts:81-86 | id 13 reads the shield and id 14 reads nothing |
| ArmourTables.SearchNone | src/data/repositories/armour.repository.ts:98-105 | no name containing the query gives an empty result |
| ArmourTables.LeatherSearch | src/data/repositories/armour.repository.ts:98-105 | "leather" finds armours 2 and 3 in that order |
| ArmourTables.PaddedSearch | src/data/repositories/armour.repository.ts:98-105 | "padded" finds armour 1 alone |
| ArmourTables.VibraniumSearch | src/data/repositories/armour.repository.ts:98-105 | "vibranium" finds nothing |
| ArmourTables.FixtureDescriptions | src/data/repositories/armour.repository.ts:110-117 | each fixture name finds its own description and any other name finds none |
| ArmourStore.ArmourRepository.constructor | src/data/repositories/armour.repository.ts:13-20 | construction stores the 13 fixture armours under ids 1 to 13, with unique names |
| ArmourStore.ArmourRepository.InsertInitialData | src/data/repositories/armour.repository.ts:38-49 | the loop computes the seeding function and keeps ids as positions |
| ArmourStore.ArmourRepository.Create | src/data/repositories/armour.repository.ts:54-76 | appends the stored armour and returns its id, the new row count, which reads it back |
| ArmourStore.ArmourRepository.Read | src/data/repositories/armour.repository.ts:81-86 | found iff 1 <= id <= row count |
| ArmourStore.ArmourRepository.ReadAll | src/data/repositories/armour.repository.ts:91-93 | the i-th row is `read(i + 1)` |
| ArmourStore.ArmourRepository.ReadByName | src/data/repositories/armour.repository.ts:98-105 | the rows whose name contains the query, in id order |
| ArmourStore.ArmourRepository.ReadDescriptionByArmourName | src/data/repositories/armour.repository.ts:110-117 | the description of the first row named exactly so, found iff one exists |
| ArmourStore.ArmourRepository.Update | src/data/repositories/armour.repository.ts:122-127 | reports failure with the "not implemented" message |
| ArmourStore.ArmourRepository.Delete | src/data/repositories/armour.repository.ts:132-137 | reports failure with the "not implemented" message |
| LegacyArmourStore.ArmourRepository.constructor | src/database/armour-repositroy/armour-repository.ts:9-12 | construction stores the fixture under ids 1 to 13 |
| LegacyArmourStore.ArmourRepository.InsertInitialData | src/database/armour-repositroy/armour-repository.ts:30-40 | the loop computes the seeding function |
| LegacyArmourStore.ArmourRepository.Create | src/database/armour-repositroy/armour-repository.ts:42-64 | appends the stored armour under the next id and returns it |
| LegacyArmourStore.ArmourRepository.Read | src/database/armour-repositroy/armour-repository.ts:66-70 | found iff 1 <= id <= row count |
| LegacyArmourStore.ArmourRepository.ReadAll | src/database/armour-repositroy/armour-repository.ts:72-74 | the i-th row is `read(i + 1)` |
| LegacyArmourStore.ArmourRepository.ReadByName | src/database/armour-repositroy/armour-repository.ts:76-83 | the rows whose name contains the query, in id order |
| LegacyArmourStore.ArmourRepository.ReadDescriptionByArmourName | src/database/armour-repositroy/armour-repository.ts:85-92 | the description of the first row named exactly so |
| LegacyArmourStore.ArmourRepository.Update | src/database/armour-repositroy/armour-repository.ts:94-96 | writes nothing |
| LegacyArmourStore.ArmourRepository.Delete | src/database/armour-repositroy/armour-repository.ts:98-100 | writes nothing |
| WeaponServices.TypeNameParts | src/data/services/weapon.service.ts:94-125 | a type name contains "Simple", "Martial", "Melee" or "Ranged" exactly for the two types so named |
| WeaponServices.WeaponService.constructor | src/data/services/weapon.service.ts:11-16 | the service holds a fresh, valid store seeded from the fixtures: the property table is the property fixture and every fixture weapon is stored under its position with exactly its tags |
| WeaponServices.WeaponService.GetAllWeapons | src/data/services/weapon.service.ts:18-22 | one weapon per row, the i-th being weapon i + 1 |
| WeaponServices.WeaponService.GetAllWeaponsForTable | src/data/services/weapon.service.ts:27-31 | the i-th row is the table row of weapon i + 1 |
| WeaponServices.WeaponService.GetWeaponById | src/data/services/weapon.service.ts:36-43 | found iff the id is between 1 and the weapon count, and then it is that weapon |
| WeaponServices.WeaponService.SearchWeaponsByName | src/data/services/weapon.service.ts:48-52 | the weapons in order whose name contains the query |
| WeaponServices.WeaponService.GetAllWeaponProperties | src/data/services/weapon.service.ts:57-61 | the property table, the i-th being property i + 1 |
| WeaponServices.WeaponService.GetWeaponPropertyByName | src/data/services/weapon.service.ts:66-72 | none iff no property name contains the query, otherwise the first that does |
| WeaponServices.WeaponService.GetSimpleWeapons | src/data/services/weapon.service.ts:94-98 | the weapons of `getAllWeapons` whose type contains "Simple", in that order: exactly the Simple Melee and Simple Ranged weapons |
| WeaponServices.WeaponService.GetMartialWeapons | src/data/services/weapon.service.ts:103-107 | the weapons of `getAllWeapons` whose type contains "Martial", in that order: exactly the Martial Melee and Martial Ranged weapons |
| WeaponServices.WeaponService.GetMeleeWeapons | src/data/services/weapon.service.ts:112-116 | the weapons of `getAllWeapons` whose type contains "Melee", in that order: exactly the Simple Melee and Martial Melee weapons |
| WeaponServices.WeaponService.GetRangedWeapons | src/data/services/weapon.service.ts:121-125 | the weapons of `getAllWeapons` whose type contains "Ranged", in that order: exactly the Simple Ranged and Martial Ranged weapons |
| WeaponServices.WeaponService.GetWeaponsByProperty | src/data/services/weapon.service.ts:130-134 | the weapons of `getAllWeapons` carrying the tag, in that order: exactly the weapons carrying it; empty iff none does |
| WeaponServices.WeaponService.GetWeaponsByType | src/data/services/weapon.service.ts:77-89 | the loop builds the grouping of all weapons by type name: one key per occurring type, each group the weapons of that type in order |
| WeaponServices.KindsSplitWeapons | src/data/services/weapon.service.ts:94-125 | simple and martial weapons together are as many as all weapons, and so are melee and ranged |
| ArmourServices.FirstNamedUnique | src/data/repositories/armour.repository.ts:110-117 | the first row with a name is unique |
| ArmourServices.ArmourService.constructor | src/data/services/armour.service.ts:11-16 | the service holds a freshly seeded armour store, the fixture under ids 1 to 13 |
| ArmourServices.ArmourService.GetAllArmour | src/data/services/armour.service.ts:18-22 | one armour per row, the i-th being armour i + 1 |
| ArmourServices.ArmourService.GetArmourById | src/data/services/armour.service.ts:27-33 | found iff the id is between 1 and the armour count, and then that armour |
| ArmourServices.ArmourService.SearchArmourByName | src/data/services/armour.service.ts:38-42 | the armours in order whose name contains the query |
| ArmourServices.ArmourService.GetArmourDescription | src/data/services/armour.service.ts:47-50 | some non-empty text iff the first armour of that exact name has a non-empty description, and then that description |
| ArmourServices.ArmourService.GetArmourByType | src/data/services/armour.service.ts:55-70 | the loop builds the grouping of all armours by type name |
| ArmourServices.DescriptionLookup | src/data/services/armour.service.ts:47-50 | the service's answer is the store's description with an empty one turned into null |
| ArmourServices.SeededDescriptions | src/data/services/armour.service.ts:47-50 | on the seeded store every fixture name gives its description and any other name gives null |
| SharedDataServices.SharedDataService.constructor | src/data/services/shared-data.service.ts:13-16 | the service holds a fresh armour service and weapon service, each over a valid seeded store: the fixture armour under ids 1 to 13, and the property fixture with every fixture weapon under its position with its tags |
| SharedDataServices.SharedDataService.SearchEquipmentByName | src/data/services/shared-data.service.ts:21-29 | both lists are the name searches of the two services |
| SharedDataServices.SharedDataService.GetTabData | src/data/services/shared-data.service.ts:34-50 | armour data iff the lower-cased tab is "armour", weapon table rows iff it is "weapons", never both |
| SharedDataServices.TabDataIgnoresCase | src/data/services/shared-data.service.ts:34-50 | the tab name's case does not matter |
| SharedDataServices.SharedDataService.GetAllEquipmentByType | src/data/services/shared-data.service.ts:55-66 | both maps are the groupings by type name of all armour and all weapons |
| SharedDataServices.SharedDataService.GetEquipmentCosts | src/data/services/shared-data.service.ts:71-85 | one name and cost per armour and per weapon, the i-th from entity i + 1 |
| Sequences.FirstIndex | src/data/services/weapon.service.ts:66-72 | the index found is the first satisfying the test, or none does |
| Sequences.Filter | src/data/services/weapon.service.ts:94-134 | the elements kept are exactly those satisfying the test |
| Sequences.FilterHead | src/data/services/weapon.service.ts:66-72 | a filter is empty iff nothing satisfies the test, and otherwise starts with the first element that does |
| Sequences.FilterOrdered | src/data/services/weapon.service.ts:48-52 | filtering keeps the relative order |
| Sequences.GroupByIsFilter | src/data/services/weapon.service.ts:77-89 | grouping has exactly the occurring keys, each group being the list filtered by its key, in order |
| Sequences.GroupByPartition | src/data/services/armour.service.ts:55-70 | every element is in its key's group, groups hold only their key and none is empty |
| Sequences.MapFilter | src/data/services/weapon.service.ts:48-52 | mapping after filtering by a property of the image is filtering the image |
| Sequences.AddNewFacts | src/database/weapon-repository/weapon-repository.ts:88-91 | appending the not-yet-present elements of a list, in order, keeps the old list as a prefix, has exactly the members of both, and adds no duplicate |
| Sequences.AddNewAppend | src/database/weapon-repository/weapon-repository.ts:88-91 | appending the new elements of a concatenation is appending those of each part in turn |
| Sequences.DistinctFacts | src/database/weapon-repository/weapon-repository.ts:55-65 | the first appearances of a list have exactly its members, no duplicates, and only grow when the list is extended |
| Text.IndexFromDecides | src/data/repositories/weapon.repository.ts:210-222 | `includes` holds iff a search from 0 finds an occurrence |
| Text.LowerIdempotent | src/data/services/shared-data.service.ts:34-50 | lower-casing twice is lower-casing once |
| Text.Sort | src/model/weapon.ts:85 | the default sort gives a permutation of its input sorted in code-point order |
| Text.SortedUnique | src/model/weapon.ts:85 | two sorted permutations of each other are equal |
| Text.SortPermutationInvariant | src/model/weapon.ts:85 | sorting depends only on the multiset of tags |
| Text.JoinSplit | src/services/formatting.service.ts:6-12 | joining the pieces of a split with the separator gives the string back |
| Text.Reject | src/model/weapon.ts:87-107 | the filter removing rule words keeps exactly the other tags |
| Formatting.CapitaliseWordFacts | src/services/formatting.service.ts:2-4 | only the first letter is upper-cased; capitalising is idempotent |
| Formatting.CapitaliseAll | src/services/formatting.service.ts:6-12 | each word is capitalised in place |
| Formatting.TitleCaseChars | src/services/formatting.service.ts:6-12 | each character is upper-cased when it starts the string or follows a space, and lower-cased otherwise |
| Formatting.TitleCaseIsMarked | src/services/formatting.service.ts:6-12 | split, capitalise and join on the lower-cased string gives the character-wise title case |
| Formatting.TitleCaseIdempotent | src/services/formatting.service.ts:6-12 | title-casing twice is title-casing once |
| Formatting.TitleCaseAroundSpace | src/services/formatting.service.ts:6-12 | title case distributes over a space |
| Formatting.TitleCaseWord | src/services/formatting.service.ts:6-12 | a single word becomes its upper-cased first letter and the lower-cased rest |
| Formatting.SkipWhitespace | src/services/formatting.service.ts:24 | skips exactly a leading whitespace run |
| Formatting.HyphenateWhitespace | src/services/formatting.service.ts:24 | the slug contains no whitespace |
| Formatting.HyphenateSingles | src/services/formatting.service.ts:24 | when whitespace runs are single characters, each becomes one hyphen |
| Formatting.HyphenatePlain | src/services/formatting.service.ts:24 | a string without whitespace is unchanged |
| Formatting.HyphenateIdempotent | src/services/formatting.service.ts:24 | slugging a slug changes nothing |
| Formatting.RangedWord | src/services/formatting.service.ts:15-18 | a ranged word is found iff the lower-cased name contains "ammunition" or "thrown", and then it is the first such word as written |
| Formatting.ConvertToUriSafeString | src/services/formatting.service.ts:14-25 | a ranged word gives "word-range", else "versatile" gives "versatile", else the lower-cased name with whitespace runs hyphenated |
| Formatting.UriSafeReplacesEverySpace | src/services/formatting.service.ts:24 | on a plain name with single spaces every space becomes a hyphen, and a name without whitespace is just lower-cased |
| LegacyFormatting.ToTitleCase | src/services/formatting-service.ts:2-10 | the older title case agrees character by character with the current one |
| LegacyFormatting.ReplaceFirstSpace | src/services/formatting-service.ts:22 | only the first space becomes a hyphen |
| LegacyFormatting.ConvertToUriSafeString | src/services/formatting-service.ts:12-23 | the same ranged and versatile cases, then the lower-cased name with its first space hyphenated |
| LegacyFormatting.LaterSpacesKept | src/services/formatting-service.ts:22 | a second space survives, so the older slug differs from the current one |
| LegacyFormatting.ChainMailArmour | src/services/formatting-service.ts:22 | the two slugs of "Chain mail armour" differ |
| LegacyFormatting.AgreesOnOneSpace | src/services/formatting-service.ts:12-23 | with at most one space the two slugs agree |

## Left out

- SQLite itself is not modelled: the connection, prepared statements, the
  shared context that opens the database file, and `close` on the stores
  and services. Each statement is modelled by its effect on the tables.
- `src/data/repositories/base.repository.ts` only declares the abstract
  store interface and `close`. The base class of the older stores is not
  part of this model. Its `prepareAndExecuteOne` is taken to give no row
  for an ignored insert.
- `LIKE` is modelled as plain substring search. SQLite's `%` and `_`
  wildcards inside the query, and its ASCII case-insensitive matching,
  are not modelled. `Text.Lower` folds ASCII letters only.
- Ids are `nat`. A negative or fractional id passed to `read` is not
  modelled. SQLite would find no row for it, as it does for any id
  outside 1 to n.
- The `Record<string, T[]>` built by the grouping services is a Dafny
  `map`, so the order of its keys is not modelled. The order within each
  group is.
- The stores' state after a failed seed is left unspecified. The failure
  escapes the constructor, so no store exists.
- `ArmourDescriptionDto` and `ArmourDescription` are modelled as
  `Option<string>` holding the description.
- The concrete expectations of the test files for single fixture weapons
  are not proved: searches such as "bow" or "hand", and a weapon at a
  given id. The concrete expectations of the formatting tests are not
  proved either, except "Chain mail armour". Evaluating the recursive
  string functions on those literals is too costly for the verifier. The
  general properties above cover the same behaviour.
- `src/data/entities/armour.entity.ts` is not part of this model. Its
  `ARMOURS` fixture and `ArmourDescriptionDto` are taken to be those of
  `src/database/armour-repositroy/armour-repository.model.ts`.
- The `console.warn` of the older stores' `update` and `delete` is not
  modelled. Those methods write nothing.
- The rendering components, routes, server and `src/data/index.ts` are
  not part of this model.
- `src/database/weapon-repository/weapon-repository.model.ts` is not part
  of this model. Its `WEAPONS` and `WEAPON_PROPERTIES` are taken to be
  those of `src/data/entities/weapon.entity.ts`. The older store's
  first-use order of tags, and the ids of `two-handed` and `lance`, are
  proved for that fixture.
- The order of a weapon's tags as read back is not fixed by the source:
  the join that reads them has no `ORDER BY`. The model takes the order
  the links were inserted in, and the contracts state which tags a weapon
  has, not their order.
- Text.Sort / Text.Below: strings are compared by code point, while
  JavaScript's default sort compares UTF-16 code units. The two orders
  differ only when a character lies outside the Basic Multilingual Plane
  (an emoji sorts before U+FF21 in JavaScript, after it here). Every tag
  of the property vocabulary is ASCII.
- Ranges are `nat`: `normal` and `long` are TypeScript `number`s, which
  may be negative or fractional. The fixture and the table design use
  non-negative integers only; `|| null` is modelled on zero alone.
- LegacyWeaponStore.WeaponRepository.Create: the TypeError thrown on a
  duplicate name is represented by a fixed message (`NO_ROW_ERROR`),
  since its wording comes from the JavaScript engine.

## Findings

| source | as written | input that shows it | evidently intended | confidence | as-written member | corrected member |
|---|---|---|---|---|---|---|
| src/services/formatting-service.ts:22 | `replace(' ', '-')` with a string pattern replaces only the first space | "Chain mail armour" gives "chain-mail armour" | every space replaced, as the newer `convertToUriSafeString` does with `/\s+/g` | high, not executed | LegacyFormatting.ChainMailArmour | Formatting.UriSafeReplacesEverySpace |

=== FILE: armour_model.dfy ===
/** The armour shape (src/model/armour.ts) and the armour catalogue the
    stores are seeded with
    (src/database/armour-repositroy/armour-repository.model.ts). */
module ArmourModel {
  import opened Wrappers
  import opened Text

  datatype ArmourType = Light | Medium | Heavy | Shield
  {
    function Name(): string
    {
      match this
      case Light => "Light"
      case Medium => "Medium"
      case Heavy => "Heavy"
      case Shield => "Shield"
    }
  }

  /** The only stealth note an armour can carry. */
  datatype Stealth = Disadvantage

  /** An armour. `strength` and `stealth` are optional. */
  datatype Armour = Armour(
    name: string,
    description: string,
    armourType: ArmourType,
    cost: string,
    armourClass: string,
    strength: Option<string>,
    stealth: Option<Stealth>,
    weight: string)

  /** The armour every store is seeded with, in seeding order. */
  const ARMOURS: seq<Armour> := [
    Armour("padded", PADDED_DESCRIPTION,
      Light, "5 gp", "11 + Dex modifier", None, Some(Disadvantage), "8 lb."),
    Armour("leather", LEATHER_DESCRIPTION,
      Light, "10 gp", "11 + Dex modifier", None, None, "10 lb."),
    Armour("studded leather", STUDDED_LEATHER_DESCRIPTION,
      Light, "45 gp", "12 + Dex modifier", None, None, "13 lb."),
    Armour("hide", HIDE_DESCRIPTION,
      Medium, "10 gp", "12 + Dex modifier (max 2)", None, None, "12 lb."),
    Armour("chain shirt", CHAIN_SHIRT_DESCRIPTION,
      Medium, "50 gp", "13 + Dex modifier (max 2)", None, None, "20 lb."),
    Armour("scale mail", SCALE_MAIL_DESCRIPTION,
      Medium, "50 gp", "14 + Dex modifier (max 2)", None, Some(Disadvantage), "45 lb."),
    Armour("breastplate", BREASTPLATE_DESCRIPTION,
      Medium, "400 gp", "14 + Dex modifier (max 2)", None, None, "20 lb."),
    Armour("half plate", HALF_PLATE_DESCRIPTION,
      Medium, "750 gp", "15 + Dex modifier (max 2)", None, Some(Disadvantage), "45 lb."),
    Armour("ring mail", RING_MAIL_DESCRIPTION,
      Heavy, "30 gp", "14", None, Some(Disadvantage), "40 lb."),
    Armour("chain mail", CHAIN_MAIL_DESCRIPTION,
      Heavy, "75 gp", "16", Some("Str 13"), Some(Disadvantage), "55 lb."),
    Armour("splint", SPLINT_DESCRIPTION,
      Heavy, "200 gp", "17", Some("Str 15"), Some(Disadvantage), "60 lb."),
    Armour("plate", PLATE_DESCRIPTION,
      Heavy, "1500 gp", "17", Some("Str 15"), Some(Disadvantage), "65 lb."),
    Armour("shield", SHIELD_DESCRIPTION,
      Shield, "10 gp", "+2", None, None, "6 lb.")
  ]

  // The descriptions of the fixture armour, written as concatenations of
  // short literals: the verifier reasons about a short literal far more
  // cheaply than a long one.

  const PADDED_DESCRIPTION: string :=
    "Padded armour " + "consists of " + "quilted layers of " + "cloth and batting."

  const LEATHER_DESCRIPTION: string :=
    "The breastplate " + "and shoulder " + "protectors of " + "this armour are " + "made of leather " +
    "that has been " + "stiffened by " + "being boiled in " + "oil. The rest of " + "the armour is " +
    "made of softer " + "and more flexible " + "materials."

  const STUDDED_LEATHER_DESCRIPTION: string :=
    "Made from tough " + "but flexible " + "leather, studded " + "leather is " + "reinforced with " +
    "close-set rivets " + "or spikes."

  const HIDE_DESCRIPTION: string :=
    "This crude armour " + "consists of thick " + "furs and pelts. " + "It is commonly " + "worn by barbarian " +
    "tribes, evil " + "humanoids, and " + "other folk who " + "lack access to " + "the tools and " +
    "materials needed " + "to create better " + "armour."

  const CHAIN_SHIRT_DESCRIPTION: string :=
    "Made of " + "interlocking " + "metal rings, a " + "chain shirt is " + "worn between " +
    "layers of " + "clothing or " + "leather. This " + "armour offers " + "modest protection " +
    "to the wearer's " + "upper body and " + "allows the sound " + "of the rings " + "rubbing against " +
    "one another to be " + "muffled by outer " + "layers"

  const SCALE_MAIL_DESCRIPTION: string :=
    "be muffled by " + "outer layers. " + "Scale Mail. This " + "armour consists " + "of a coat and " +
    "leggings (and " + "perhaps a " + "separate skirt) " + "of leather " + "covered with " +
    "overlapping " + "pieces of metal, " + "much like the " + "scales of a fish. " + "The suit includes " +
    "gauntlets."

  const BREASTPLATE_DESCRIPTION: string :=
    "This armour " + "consists of a " + "fitted metal " + "chest piece worn " + "with supple " +
    "leather. Although " + "it leaves the " + "legs and arms " + "relatively " + "unprotected, this " +
    "armour provides " + "good protection " + "for the wearer's " + "vital organs " + "while leaving the " +
    "wearer relatively " + "unencumbered."

  const HALF_PLATE_DESCRIPTION: string :=
    "Half plate " + "consists of " + "shaped metal " + "plates that cover " + "most of the " +
    "wearer's body. It " + "does not include " + "leg protection " + "beyond simple " + "greaves that are " +
    "attached with " + "leather straps."

  const RING_MAIL_DESCRIPTION: string :=
    "This armour is " + "leather armour " + "with heavy rings " + "sewn into it. The " + "rings help " +
    "reinforce the " + "armour against " + "blows from swords " + "and axes. Ring " + "mail is inferior " +
    "to chain mail, " + "and it's usually " + "worn only by " + "those who can't " + "afford better " +
    "armour."

  const CHAIN_MAIL_DESCRIPTION: string :=
    "Made of " + "interlocking " + "metal rings, " + "chain mail " + "includes a layer " +
    "of quilted fabric " + "worn underneath " + "the mail to " + "prevent chafing " + "and to cushion " +
    "the impact of " + "blows. The suit " + "includes " + "gauntlets."

  const SPLINT_DESCRIPTION: string :=
    "This armour is " + "made of narrow " + "vertical strips " + "of metal riveted " + "to a backing of " +
    "leather that is " + "worn over cloth " + "padding. Flexible " + "chain mail " + "protects the " +
    "joints."

  const PLATE_DESCRIPTION: string :=
    "Plate consists of " + "shaped, " + "interlocking " + "metal plates to " + "cover the entire " +
    "body. A suit of " + "plate includes " + "gauntlets, heavy " + "leather boots, a " + "visored helmet, " +
    "and thick layers " + "of padding " + "underneath the " + "armour. Buckles " + "and straps " +
    "distribute the " + "weight over the " + "body."

  const SHIELD_DESCRIPTION: string :=
    "A shield is made " + "from wood or " + "metal and is " + "carried in one " + "hand. Wielding a " +
    "shield increases " + "your Armour Class " + "by 2. You can " + "benefit from only " + "one shield at a " +
    "time."

  /** Sends the name of the fixture armour at index `k` to `k`. */
  function ArmourSlot(s: string): int
  {
    if |s| == 4 then 3
    else if |s| == 5 then 11
    else if |s| == 6 then (if s[1] == 'a' then 0
      else if s[1] == 'h' then 12
      else if s[1] == 'p' then 10 else -1)
    else if |s| == 7 then 1
    else if |s| == 9 then 8
    else if |s| == 10 then (if s[0] == 'c' then 9
      else if s[0] == 'h' then 7
      else if s[0] == 's' then 5 else -1)
    else if |s| == 11 then (if s[0] == 'b' then 6
      else if s[0] == 'c' then 4 else -1)
    else if |s| == 15 then 2 else -1
  }

  /** The fixture's names, in list order. */
  const ARMOUR_NAMES: seq<string> := ["padded", "leather", "studded leather", "hide",
    "chain shirt", "scale mail", "breastplate", "half plate", "ring mail", "chain mail",
    "splint", "plate", "shield"]

  /** The fixture's descriptions, in list order. */
  const ARMOUR_DESCRIPTIONS: seq<string> := [PADDED_DESCRIPTION, LEATHER_DESCRIPTION, STUDDED_LEATHER_DESCRIPTION,
    HIDE_DESCRIPTION, CHAIN_SHIRT_DESCRIPTION, SCALE_MAIL_DESCRIPTION,
    BREASTPLATE_DESCRIPTION, HALF_PLATE_DESCRIPTION, RING_MAIL_DESCRIPTION, CHAIN_MAIL_DESCRIPTION,
    SPLINT_DESCRIPTION, PLATE_DESCRIPTION, SHIELD_DESCRIPTION]

  /** The fixture lists its armour with these descriptions. */
  lemma ArmourDescriptionsListed()
    ensures |ARMOUR_DESCRIPTIONS| == 13
    ensures forall k :: 0 <= k < 13 ==> ARMOURS[k].description == ARMOUR_DESCRIPTIONS[k]
  {
  }

  /** No fixture description is empty, so `|| null` never turns one into
      null. */
  lemma DescriptionsNotEmpty()
    ensures forall k :: 0 <= k < |ARMOURS| ==> ARMOURS[k].description != ""
  {
    ArmourDescriptionsListed();
    DescriptionsNotEmpty0To3();
    DescriptionsNotEmpty4To7();
    DescriptionsNotEmpty8To12();
  }

  // Four or five descriptions at a time, to keep each proof small.

  lemma DescriptionsNotEmpty0To3()
    ensures forall k :: 0 <= k < 4 ==> ARMOUR_DESCRIPTIONS[k] != ""
  {
  }

  lemma DescriptionsNotEmpty4To7()
    ensures forall k :: 4 <= k < 8 ==> ARMOUR_DESCRIPTIONS[k] != ""
  {
  }

  lemma DescriptionsNotEmpty8To12()
    ensures forall k :: 8 <= k < 13 ==> ARMOUR_DESCRIPTIONS[k] != ""
  {
  }

  /** The fixture lists its armour under these names. */
  lemma ArmourNamesListed()
    ensures |ARMOURS| == |ARMOUR_NAMES| == 13
    ensures forall k :: 0 <= k < 13 ==> ARMOURS[k].name == ARMOUR_NAMES[k]
  {
  }

  lemma FixtureArmoursFrom0()
    ensures forall k :: 0 <= k < 3 ==> ArmourSlot(ARMOUR_NAMES[k]) == k
    ensures forall k :: 0 <= k < 3 ==> (Contains(ARMOUR_NAMES[k], "leather") <==> k == 1 || k == 2)
    ensures forall k :: 0 <= k < 3 ==> (Contains(ARMOUR_NAMES[k], "padded") <==> k == 0)
    ensures forall k :: 0 <= k < 3 ==> !Contains(ARMOUR_NAMES[k], "vibranium")
  {
    forall k | 0 <= k < 3
      ensures ArmourSlot(ARMOUR_NAMES[k]) == k
      ensures Contains(ARMOUR_NAMES[k], "leather") <==> k == 1 || k == 2
      ensures Contains(ARMOUR_NAMES[k], "padded") <==> k == 0
      ensures !Contains(ARMOUR_NAMES[k], "vibranium")
    {
      if k == 0 {
        NoCharNoMatch(ARMOUR_NAMES[0], "vibranium", 0);
        NoCharNoMatch(ARMOUR_NAMES[0], "leather", 0);
        ContainsAt(ARMOUR_NAMES[0], "padded", 0);
      }
      else if k == 1 {
        NoCharNoMatch(ARMOUR_NAMES[1], "vibranium", 0);
        ContainsAt(ARMOUR_NAMES[1], "leather", 0);
        NoCharNoMatch(ARMOUR_NAMES[1], "padded", 0);
      }
      else if k == 2 {
        NoCharNoMatch(ARMOUR_NAMES[2], "vibranium", 0);
        ContainsAt(ARMOUR_NAMES[2], "leather", 8);
        NoCharNoMatch(ARMOUR_NAMES[2], "padded", 0);
      }
    }
  }

  lemma FixtureArmoursFrom3()
    ensures forall k :: 3 <= k < 6 ==> ArmourSlot(ARMOUR_NAMES[k]) == k
    ensures forall k :: 3 <= k < 6 ==> (Contains(ARMOUR_NAMES[k], "leather") <==> k == 1 || k == 2)
    ensures forall k :: 3 <= k < 6 ==> (Contains(ARMOUR_NAMES[k], "padded") <==> k == 0)
    ensures forall k :: 3 <= k < 6 ==> !Contains(ARMOUR_NAMES[k], "vibranium")
  {
    forall k | 3 <= k < 6
      ensures ArmourSlot(ARMOUR_NAMES[k]) == k
      ensures Contains(ARMOUR_NAMES[k], "leather") <==> k == 1 || k == 2
      ensures Contains(ARMOUR_NAMES[k], "padded") <==> k == 0
      ensures !Contains(ARMOUR_NAMES[k], "vibranium")
    {
      if k == 3 {
        NoCharNoMatch(ARMOUR_NAMES[3], "vibranium", 0);
        NoCharNoMatch(ARMOUR_NAMES[3], "leather", 0);
        NoCharNoMatch(ARMOUR_NAMES[3], "padded", 0);
      }
      else if k == 4 {
        NoCharNoMatch(ARMOUR_NAMES[4], "vibranium", 0);
        NoCharNoMatch(ARMOUR_NAMES[4], "leather", 0);
        NoCharNoMatch(ARMOUR_NAMES[4], "padded", 0);
      }
      else if k == 5 {
        NoCharNoMatch(ARMOUR_NAMES[5], "vibranium", 0);
        NoCharNoMatch(ARMOUR_NAMES[5], "leather", 3);
        NoCharNoMatch(ARMOUR_NAMES[5], "padded", 0);
      }
    }
  }

  lemma FixtureArmoursFrom6()
    ensures forall k :: 6 <= k < 9 ==> ArmourSlot(ARMOUR_NAMES[k]) == k
    ensures forall k :: 6 <= k < 9 ==> (Contains(ARMOUR_NAMES[k], "leather") <==> k == 1 || k == 2)
    ensures forall k :: 6 <= k < 9 ==> (Contains(ARMOUR_NAMES[k], "padded") <==> k == 0)
    ensures forall k :: 6 <= k < 9 ==> !Contains(ARMOUR_NAMES[k], "vibranium")
  {
    forall k | 6 <= k < 9
      ensures ArmourSlot(ARMOUR_NAMES[k]) == k
      ensures Contains(ARMOUR_NAMES[k], "leather") <==> k == 1 || k == 2
      ensures Contains(ARMOUR_NAMES[k], "padded") <==> k == 0
      ensures !Contains(ARMOUR_NAMES[k], "vibranium")
    {
      if k == 6 {
        NoCharNoMatch(ARMOUR_NAMES[6], "vibranium", 0);
        NoCharNoMatch(ARMOUR_NAMES[6], "leather", 4);
        NoCharNoMatch(ARMOUR_NAMES[6], "padded", 2);
      }
      else if k == 7 {
        NoCharNoMatch(ARMOUR_NAMES[7], "vibranium", 0);
        NoCharNoMatch(ARMOUR_NAMES[7], "leather", 6);
        NoCharNoMatch(ARMOUR_NAMES[7], "padded", 2);
      }
      else if k == 8 {
        NoCharNoMatch(ARMOUR_NAMES[8], "vibranium", 0);
        NoCharNoMatch(ARMOUR_NAMES[8], "leather", 1);
        NoCharNoMatch(ARMOUR_NAMES[8], "padded", 0);
      }
    }
  }

  lemma FixtureArmoursFrom9()
    ensures forall k :: 9 <= k < 12 ==> ArmourSlot(ARMOUR_NAMES[k]) == k
    ensures forall k :: 9 <= k < 12 ==> (Contains(ARMOUR_NAMES[k], "leather") <==> k == 1 || k == 2)
    ensures forall k :: 9 <= k < 12 ==> (Contains(ARMOUR_NAMES[k], "padded") <==> k == 0)
    ensures forall k :: 9 <= k < 12 ==> !Contains(ARMOUR_NAMES[k], "vibranium")
  {
    forall k | 9 <= k < 12
      ensures ArmourSlot(ARMOUR_NAMES[k]) == k
      ensures Contains(ARMOUR_NAMES[k], "leather") <==> k == 1 || k == 2
      ensures Contains(ARMOUR_NAMES[k], "padded") <==> k == 0
      ensures !Contains(ARMOUR_NAMES[k], "vibranium")
    {
      if k == 9 {
        NoCharNoMatch(ARMOUR_NAMES[9], "vibranium", 0);
        NoCharNoMatch(ARMOUR_NAMES[9], "leather", 1);
        NoCharNoMatch(ARMOUR_NAMES[9], "padded", 0);
      }
      else if k == 10 {
        NoCharNoMatch(ARMOUR_NAMES[10], "vibranium", 0);
        NoCharNoMatch(ARMOUR_NAMES[10], "leather", 1);
        NoCharNoMatch(ARMOUR_NAMES[10], "padded", 1);
      }
      else if k == 11 {
        NoCharNoMatch(ARMOUR_NAMES[11], "vibranium", 0);
        NoCharNoMatch(ARMOUR_NAMES[11], "leather", 4);
        NoCharNoMatch(ARMOUR_NAMES[11], "padded", 2);
      }
    }
  }

  lemma FixtureArmoursFrom12()
    ensures forall k :: 12 <= k < 13 ==> ArmourSlot(ARMOUR_NAMES[k]) == k
    ensures forall k :: 12 <= k < 13 ==> (Contains(ARMOUR_NAMES[k], "leather") <==> k == 1 || k == 2)
    ensures forall k :: 12 <= k < 13 ==> (Contains(ARMOUR_NAMES[k], "padded") <==> k == 0)
    ensures forall k :: 12 <= k < 13 ==> !Contains(ARMOUR_NAMES[k], "vibranium")
  {
    forall k | 12 <= k < 13
      ensures ArmourSlot(ARMOUR_NAMES[k]) == k
      ensures Contains(ARMOUR_NAMES[k], "leather") <==> k == 1 || k == 2
      ensures Contains(ARMOUR_NAMES[k], "padded") <==> k == 0
      ensures !Contains(ARMOUR_NAMES[k], "vibranium")
    {
      if k == 12 {
        NoCharNoMatch(ARMOUR_NAMES[12], "vibranium", 0);
        NoCharNoMatch(ARMOUR_NAMES[12], "leather", 2);
        NoCharNoMatch(ARMOUR_NAMES[12], "padded", 0);
      }
    }
  }

  /** The 13 armour names are pairwise distinct. */
  lemma ArmourNamesDistinct()
    ensures |ARMOURS| == 13
    ensures forall i, j :: 0 <= i < j < |ARMOURS| ==> ARMOURS[i].name != ARMOURS[j].name
  {
    ArmourNamesListed();
    FixtureArmoursFrom0();
    FixtureArmoursFrom3();
    FixtureArmoursFrom6();
    FixtureArmoursFrom9();
    FixtureArmoursFrom12();
    forall i, j | 0 <= i < j < |ARMOURS|
      ensures ARMOURS[i].name != ARMOURS[j].name
    {
      assert ArmourSlot(ARMOUR_NAMES[i]) == i && ArmourSlot(ARMOUR_NAMES[j]) == j;
    }
  }

  /** The name facts behind the searches, on the name list. */
  lemma NameSearchFacts()
    ensures forall k :: 0 <= k < 13 ==> (Contains(ARMOUR_NAMES[k], "leather") <==> k == 1 || k == 2)
    ensures forall k :: 0 <= k < 13 ==> (Contains(ARMOUR_NAMES[k], "padded") <==> k == 0)
    ensures forall k :: 0 <= k < 13 ==> !Contains(ARMOUR_NAMES[k], "vibranium")
  {
    FixtureArmoursFrom0();
    FixtureArmoursFrom3();
    FixtureArmoursFrom6();
    FixtureArmoursFrom9();
    FixtureArmoursFrom12();
  }

  /** Exactly two names contain `leather` (entries 2 and 3, `leather` and
      `studded leather`), exactly one contains `padded`, the first, and none
      contains `vibranium`. */
  lemma LeatherAndPaddedNames()
    ensures forall k :: 0 <= k < |ARMOURS| ==> (Contains(ARMOURS[k].name, "leather") <==> k == 1 || k == 2)
    ensures forall k :: 0 <= k < |ARMOURS| ==> (Contains(ARMOURS[k].name, "padded") <==> k == 0)
    ensures forall k :: 0 <= k < |ARMOURS| ==> !Contains(ARMOURS[k].name, "vibranium")
    ensures ARMOURS[1].name == "leather" && ARMOURS[2].name == "studded leather"
    ensures ARMOURS[0].name == "padded"
  {
    ArmourNamesListed();
    NameSearchFacts();
  }

  /** No fixture strength requirement is the empty text, so storing it with
      `|| null` keeps it. */
  lemma ArmourStrengthsNonEmpty()
    ensures forall k :: 0 <= k < |ARMOURS| ==> ARMOURS[k].strength.Some? ==> ARMOURS[k].strength.value != ""
  {
    forall k | 0 <= k < |ARMOURS|
      ensures ARMOURS[k].strength.Some? ==> ARMOURS[k].strength.value != ""
    {
    }
  }

  /** The last entry is the shield, which has neither a strength
      requirement nor a stealth note. */
  lemma ShieldIsLast()
    ensures |ARMOURS| == 13
    ensures ARMOURS[12].name == "shield" && ARMOURS[12].armourType == Shield
    ensures ARMOURS[12].strength == None && ARMOURS[12].stealth == None
  {
  }

  /** All four armour types occur. */
  lemma EveryArmourTypeOccurs(t: ArmourType)
    ensures exists k :: 0 <= k < |ARMOURS| && ARMOURS[k].armourType == t
  {
    var k := match t
      case Light => 0
      case Medium => 3
      case Heavy => 8
      case Shield => 12;
    assert ARMOURS[k].armourType == t;
  }
}

=== FILE: armour_service.dfy ===
/** The armour service of src/data/services/armour.service.ts: projections
    of the armour store's reads, the description lookup with its `|| null`,
    and the grouping of the armour by type, which the source builds with a
    `reduce` that pushes into an accumulator. */
module ArmourServices {
  import opened Wrappers
  import Text
  import opened Sequences
  import opened ArmourModel
  import opened ArmourTables
  import WeaponModel
  import ArmourStore

  /** `({ id, ...armour }) => armour` */
  function ArmourOf(e: ArmourEntity): Armour
  {
    e.armour
  }

  /** `armour.type`, the key the armour is grouped under. */
  function TypeName(a: Armour): string
  {
    a.armourType.Name()
  }

  /** The test of `searchArmourByName`, on armour. */
  function NameContains(query: string): Armour -> bool
  {
    (a: Armour) => Text.Contains(a.name, query)
  }

  /** Row `k` is the first one named `name`. */
  predicate FirstNamed(rows: seq<ArmourEntity>, name: string, k: int)
  {
    0 <= k < |rows| && rows[k].armour.name == name &&
    forall j :: 0 <= j < k ==> rows[j].armour.name != name
  }

  /** There is at most one first row of a name. */
  lemma FirstNamedUnique(rows: seq<ArmourEntity>, name: string, k: int, l: int)
    requires FirstNamed(rows, name, k) && FirstNamed(rows, name, l)
    ensures k == l
  {
  }

  /** One step of the grouping loop: pushing the next armour onto its
      group, creating the group first when its type is new. */
  lemma GroupStep(all: seq<Armour>, i: nat, groups: map<string, seq<Armour>>)
    requires i < |all| && groups == GroupBy(all[..i], TypeName)
    ensures var t := all[i].armourType.Name();
      var created := if t !in groups then groups[t := []] else groups;
      created[t := created[t] + [all[i]]] == GroupBy(all[..i + 1], TypeName)
  {
    assert all[..i + 1][..i] == all[..i];
  }

  class ArmourService {
    const repository: ArmourStore.ArmourRepository

    /** The store holds the fixture armour under ids 1 to 13. */
    ghost predicate Seeded()
      reads repository
    {
      repository.armours == SeededRows(0, ARMOURS)
    }

    /** The constructor opens a seeded armour store. */
    constructor ()
      ensures fresh(repository) && repository.Valid()
      ensures Seeded()
    {
      repository := new ArmourStore.ArmourRepository();
      SeedFixture();
    }

    /** `getAllArmour`: every stored armour without its id, in id order;
        the i-th is what `read(i + 1)` holds. */
    function GetAllArmour(): (r: seq<Armour>)
      reads repository
      requires repository.Valid()
      ensures |r| == |repository.armours|
      ensures forall i :: 0 <= i < |r| ==> repository.Read(i + 1) == Some(ArmourEntity(i + 1, r[i]))
    {
      Map(repository.ReadAll(), ArmourOf)
    }

    /** `getArmourById`: null exactly when the store has no such id,
        otherwise the stored armour without its id. */
    function GetArmourById(id: nat): (r: Option<Armour>)
      reads repository
      requires repository.Valid()
      ensures r.Some? <==> 1 <= id <= |repository.armours|
      ensures r.None? <==> repository.Read(id).None?
      ensures r.Some? ==> repository.Read(id) == Some(ArmourEntity(id, r.value))
    {
      match repository.Read(id)
      case None => None
      case Some(e) => Some(e.armour)
    }

    /** `searchArmourByName`: the armour whose name contains the query, in
        the order `getAllArmour` lists it. */
    function SearchArmourByName(name: string): (r: seq<Armour>)
      reads repository
      requires repository.Valid()
      ensures r == Filter(GetAllArmour(), NameContains(name))
      ensures forall a :: a in r <==> a in GetAllArmour() && Text.Contains(a.name, name)
    {
      MapFilter(repository.armours, ArmourOf,
        (e: ArmourEntity) => Text.Contains(e.armour.name, name), NameContains(name));
      Map(repository.ReadByName(name), ArmourOf)
    }

    /** `getArmourDescription`: the description of the first armour named
        exactly so; null when there is none, and also when that
        description is empty, because of `|| null`. */
    function GetArmourDescription(name: string): (r: Option<string>)
      reads repository
      ensures r.Some? ==> r.value != ""
      ensures r.Some? <==> exists k :: (FirstNamed(repository.armours, name, k) &&
        repository.armours[k].armour.description != "")
      ensures r.Some? ==> exists k :: (FirstNamed(repository.armours, name, k) &&
        repository.armours[k].armour.description == r.value)
    {
      var d := repository.ReadDescriptionByArmourName(name);
      if d.Some? then
        var k :| FirstNamed(repository.armours, name, k) && repository.armours[k].armour.description == d.value;
        assert forall l :: FirstNamed(repository.armours, name, l) ==> l == k by {
          forall l | FirstNamed(repository.armours, name, l) ensures l == k {
            FirstNamedUnique(repository.armours, name, k, l);
          }
        }
        WeaponModel.OrNull(d)
      else
        WeaponModel.OrNull(d)
    }

    /** `getArmourByType`: the armour grouped under its type, built one
        armour at a time as the `reduce` does. The keys are exactly the
        types that occur, and each group is the armour of that type in its
        listed order. */
    method GetArmourByType() returns (groups: map<string, seq<Armour>>)
      requires repository.Valid()
      ensures groups == GroupBy(GetAllArmour(), TypeName)
      ensures forall k :: k in groups <==>
        exists i :: 0 <= i < |GetAllArmour()| && GetAllArmour()[i].armourType.Name() == k
      ensures forall k :: k in groups ==> groups[k] == Filter(GetAllArmour(), KeyIs(TypeName, k))
    {
      var all := GetAllArmour();
      groups := map[];
      var i := 0;
      while i < |all|
        invariant i <= |all|
        invariant groups == GroupBy(all[..i], TypeName)
      {
        GroupStep(all, i, groups);
        var armour := all[i];
        var t := armour.armourType.Name();
        if t !in groups {
          groups := groups[t := []];
        }
        groups := groups[t := groups[t] + [armour]];
        i := i + 1;
      }
      assert all[..i] == all;
      GroupByIsFilter(all, TypeName);
    }
  }

  /** On the seeded store, each fixture armour's name gives its
      description, and a name outside the fixture gives null. */
  lemma SeededDescriptions(s: ArmourService, name: string)
    requires s.repository.armours == SeededRows(0, ARMOURS)
    ensures forall k :: 0 <= k < |ARMOURS| ==>
      s.GetArmourDescription(ARMOURS[k].name) == Some(ARMOURS[k].description)
    ensures (forall k :: 0 <= k < |ARMOURS| ==> ARMOURS[k].name != name) ==>
      s.GetArmourDescription(name).None?
  {
    FixtureDescriptions(name);
    DescriptionsNotEmpty();
    forall k | 0 <= k < |ARMOURS|
      ensures s.GetArmourDescription(ARMOURS[k].name) == Some(ARMOURS[k].description)
    {
      DescriptionLookup(s, ARMOURS[k].name);
    }
    DescriptionLookup(s, name);
  }

  /** `getArmourDescription` is the store's lookup followed by `|| null`. */
  lemma DescriptionLookup(s: ArmourService, name: string)
    ensures s.GetArmourDescription(name) == WeaponModel.OrNull(DescriptionByName(s.repository.armours, name))
  {
  }
}

=== FILE: armour_store.dfy ===
/** The armour store of src/data/repositories/armour.repository.ts as an
    object over its one table. `InsertInitialData` and `Create` are proved
    against the specification functions of ArmourTables they implement
    (`SeedArmours`, `Insert`), so everything proved about those functions
    holds of the store. */
module ArmourStore {
  import opened Wrappers
  import Text
  import opened ArmourModel
  import opened ArmourTables
  import opened BaseEntity

  const UPDATE_MESSAGE: string := "Update operation not implemented for armour entities"
  const DELETE_MESSAGE: string := "Delete operation not implemented for armour entities"

  class ArmourRepository {
    /** The `armour` table, in insertion order. */
    var armours: seq<ArmourEntity>
    /** The fixture the store seeds from: `ARMOURS`. */
    const fixture: seq<Armour>

    /** Ids are the rows' 1-based positions. */
    predicate Valid()
      reads this
    {
      IdsArePositions(armours)
    }

    /** The constructor creates the table and seeds it (`initDb`): every
        fixture armour, as written, under its 1-based position in the
        fixture, with no two rows sharing a name. */
    constructor ()
      ensures fixture == ARMOURS
      ensures armours == SeedArmours([], ARMOURS)
      ensures |armours| == 13
      ensures forall k :: 0 <= k < 13 ==> armours[k] == ArmourEntity(k + 1, ARMOURS[k])
      ensures Valid() && NamesUnique(armours)
    {
      armours := [];
      fixture := ARMOURS;
      new;
      InsertInitialData();
      SeedFixture();
    }

    /** `insertInitialData`: each fixture armour whose name is not stored
        is created, in fixture order. */
    method InsertInitialData()
      requires Valid()
      modifies this
      ensures armours == SeedArmours(old(armours), fixture)
      ensures Valid()
      ensures forall k :: 0 <= k < |fixture| ==> IndexByName(armours, fixture[k].name).Some?
    {
      var i := 0;
      while i < |fixture|
        invariant i <= |fixture|
        invariant armours == SeedArmours(old(armours), fixture[..i])
      {
        SeedArmoursStep(old(armours), fixture, i);
        if IndexByName(armours, fixture[i].name).None? {
          var id := Create(fixture[i]);
        }
        i := i + 1;
      }
      assert fixture[..i] == fixture;
      SeedArmoursStores(old(armours), fixture);
    }

    /** `create`: a plain insert under the next id, which is returned; the
        `|| 0` fallback never applies, since `RETURNING id` always yields a
        row and ids start at 1. A name already stored is inserted again. */
    method Create(a: Armour) returns (id: nat)
      modifies this
      ensures armours == Insert(old(armours), a)
      ensures id == |armours| && id >= 1
      ensures old(Valid()) ==> Valid() && Read(id) == Some(ArmourEntity(id, Stored(a)))
    {
      if Valid() {
        InsertAdds(armours, a);
        ReadAfterInsert(armours, a, 0);
      }
      armours := armours + [ArmourEntity(|armours| + 1, Stored(a))];
      id := |armours|;
    }

    /** `read`: the armour with that id, or null; with ids as positions
        exactly the ids 1..n are found. */
    function Read(id: nat): (r: Option<ArmourEntity>)
      reads this
      requires Valid()
      ensures r.Some? <==> 1 <= id <= |armours|
      ensures r.Some? ==> r.value.id == id && r.value == armours[id - 1]
    {
      ReadArmourById(armours, id);
      ReadArmour(armours, id)
    }

    /** `readAll`: every row, the i-th being what `read(i + 1)` returns. */
    function ReadAll(): (r: seq<ArmourEntity>)
      reads this
      requires Valid()
      ensures |r| == |armours|
      ensures forall i :: 0 <= i < |r| ==> Read(i + 1) == Some(r[i])
    {
      armours
    }

    /** `readByName`: the armours whose name contains the query, in id
        order. */
    function ReadByName(query: string): (r: seq<ArmourEntity>)
      reads this
      requires Valid()
      ensures forall e :: e in r <==> e in ReadAll() && Text.Contains(e.armour.name, query)
      ensures forall i, j :: 0 <= i < j < |r| ==> r[i].id < r[j].id
    {
      ReadByNameInIdOrder(armours, query);
      ArmourTables.ReadByName(armours, query)
    }

    /** `readDescriptionByArmourName`: the description of the first armour
        named exactly so, or null when none is. */
    function ReadDescriptionByArmourName(name: string): (r: Option<string>)
      reads this
      ensures r.Some? <==> exists k :: 0 <= k < |armours| && armours[k].armour.name == name
      ensures r.Some? ==> exists k :: (0 <= k < |armours| && armours[k].armour.name == name &&
        armours[k].armour.description == r.value &&
        forall j :: 0 <= j < k ==> armours[j].armour.name != name)
    {
      DescriptionByName(armours, name)
    }

    /** `update`: not implemented; it reports failure and writes nothing. */
    method Update(entity: ArmourEntity) returns (r: DbOperationResult)
      ensures !r.success && r.message == Some(UPDATE_MESSAGE)
      ensures r.id.None? && r.affectedRows.None?
    {
      r := DbOperationResult(false, Some(UPDATE_MESSAGE), None, None);
    }

    /** `delete`: not implemented; it reports failure and writes nothing. */
    method Delete(id: nat) returns (r: DbOperationResult)
      ensures !r.success && r.message == Some(DELETE_MESSAGE)
      ensures r.id.None? && r.affectedRows.None?
    {
      r := DbOperationResult(false, Some(DELETE_MESSAGE), None, None);
    }
  }
}

=== FILE: armour_tables.dfy ===
/** The `armour` table both armour stores keep
    (src/data/repositories/armour.repository.ts and
    src/database/armour-repositroy/armour-repository.ts): the row `create`
    writes, the seeding by name, and the reads. The two stores run the same
    SQL against the same schema, which has no `UNIQUE(name)`. */
module ArmourTables {
  import opened Wrappers
  import opened Text
  import opened Sequences
  import opened ArmourModel
  import WeaponModel

  /** A stored armour as the reads return it. */
  datatype ArmourEntity = ArmourEntity(id: nat, armour: Armour)

  /** Ids come from `AUTOINCREMENT` and no row is ever deleted, so a row's
      id is its 1-based position. Read order is insertion order. */
  predicate IdsArePositions(rows: seq<ArmourEntity>)
  {
    forall i :: 0 <= i < |rows| ==> rows[i].id == i + 1
  }

  /** The fields `create` writes: `strength || null` and `stealth || null`.
      The only stealth note is a non-empty text, so it is always kept. */
  function Stored(a: Armour): Armour
  {
    a.(strength := WeaponModel.OrNull(a.strength))
  }

  /** Storing keeps every field but an empty strength text, which reads
      back as null; so an armour reads back as written exactly when its
      strength is not the empty text. */
  lemma StoredRoundTrip(a: Armour)
    ensures Stored(a) == a <==> a.strength != Some("")
    ensures Stored(a) == a.(strength := Stored(a).strength)
    ensures Stored(a).strength.Some? ==> Stored(a).strength.value != ""
  {
  }

  /** `create`: a plain insert under the next id. */
  function Insert(rows: seq<ArmourEntity>, a: Armour): seq<ArmourEntity>
  {
    rows + [ArmourEntity(|rows| + 1, Stored(a))]
  }

  /** `create` adds one row whatever is stored, a row of the same name
      included, and keeps ids as positions. */
  lemma InsertAdds(rows: seq<ArmourEntity>, a: Armour)
    requires IdsArePositions(rows)
    ensures IdsArePositions(Insert(rows, a))
    ensures |Insert(rows, a)| == |rows| + 1 && Insert(rows, a)[..|rows|] == rows
    ensures Insert(rows, a)[|rows|].armour == Stored(a)
  {
    assert Insert(rows, a)[..|rows|] == rows;
  }

  // ---------------------------------------------------------------------
  // Reads
  // ---------------------------------------------------------------------

  /** `SELECT * FROM armour WHERE name = $name`, first row, as an index. */
  function IndexByName(rows: seq<ArmourEntity>, name: string): Option<nat>
  {
    FirstIndex(rows, (e: ArmourEntity) => e.armour.name == name, 0)
  }

  /** `read`: the row with that id, or null. */
  function ReadArmour(rows: seq<ArmourEntity>, id: nat): Option<ArmourEntity>
  {
    match FirstIndex(rows, (e: ArmourEntity) => e.id == id, 0)
    case None => None
    case Some(i) => Some(rows[i])
  }

  /** `readByName`: the rows whose name contains the query, in insertion
      order. */
  function ReadByName(rows: seq<ArmourEntity>, query: string): (r: seq<ArmourEntity>)
    ensures forall e :: e in r <==> e in rows && Contains(e.armour.name, query)
  {
    Filter(rows, (e: ArmourEntity) => Contains(e.armour.name, query))
  }

  /** With ids as positions, `readByName` returns its rows in id order. */
  lemma ReadByNameInIdOrder(rows: seq<ArmourEntity>, query: string)
    requires IdsArePositions(rows)
    ensures forall i, j :: 0 <= i < j < |ReadByName(rows, query)| ==>
      ReadByName(rows, query)[i].id < ReadByName(rows, query)[j].id
  {
    FilterOrdered(rows, (e: ArmourEntity) => Contains(e.armour.name, query), (e: ArmourEntity) => e.id);
  }

  /** `readDescriptionByArmourName`: the description of the first row whose
      name equals the query exactly, or null. The row object is never a
      falsy value, so `|| null` turns only a missing row into null. */
  function DescriptionByName(rows: seq<ArmourEntity>, name: string): (r: Option<string>)
    ensures r.Some? <==> exists k :: 0 <= k < |rows| && rows[k].armour.name == name
    ensures r.Some? ==> exists k :: (0 <= k < |rows| && rows[k].armour.name == name &&
      rows[k].armour.description == r.value &&
      forall j :: 0 <= j < k ==> rows[j].armour.name != name)
  {
    match IndexByName(rows, name)
    case None => None
    case Some(i) => Some(rows[i].armour.description)
  }

  /** With ids as positions, `read` finds exactly the ids 1..n, each at its
      position; every other id reads as null. */
  lemma ReadArmourById(rows: seq<ArmourEntity>, id: nat)
    requires IdsArePositions(rows)
    ensures ReadArmour(rows, id).Some? <==> 1 <= id <= |rows|
    ensures ReadArmour(rows, id).Some? ==> ReadArmour(rows, id).value == rows[id - 1]
  {
    if 1 <= id <= |rows| {
      assert rows[id - 1].id == id;
    }
  }

  /** A row written by `create` reads back under the id `create` returned,
      with the fields as `|| null` stored them, and every earlier id reads
      as before. */
  lemma ReadAfterInsert(rows: seq<ArmourEntity>, a: Armour, id: nat)
    requires IdsArePositions(rows)
    ensures ReadArmour(Insert(rows, a), |rows| + 1) == Some(ArmourEntity(|rows| + 1, Stored(a)))
    ensures id != |rows| + 1 ==> ReadArmour(Insert(rows, a), id) == ReadArmour(rows, id)
  {
    InsertAdds(rows, a);
    ReadArmourById(rows, id);
    ReadArmourById(Insert(rows, a), id);
    ReadArmourById(Insert(rows, a), |rows| + 1);
    if 1 <= id <= |rows| {
      assert Insert(rows, a)[id - 1] == rows[id - 1];
    }
  }

  /** Names are pairwise distinct. The schema does not enforce this; only
      seeding from a fixture with distinct names establishes it. */
  predicate NamesUnique(rows: seq<ArmourEntity>)
  {
    forall i, j :: 0 <= i < j < |rows| ==> rows[i].armour.name != rows[j].armour.name
  }

  /** With distinct names, the description by a stored name is that row's
      description; a name no row has gives null. */
  lemma DescriptionOfStoredName(rows: seq<ArmourEntity>, k: nat)
    requires NamesUnique(rows) && k < |rows|
    ensures DescriptionByName(rows, rows[k].armour.name) == Some(rows[k].armour.description)
  {
    var r := DescriptionByName(rows, rows[k].armour.name);
    var j :| 0 <= j < |rows| && rows[j].armour.name == rows[k].armour.name &&
      rows[j].armour.description == r.value;
    assert j == k;
  }

  // ---------------------------------------------------------------------
  // Seeding by name
  // ---------------------------------------------------------------------

  /** The `insertInitialData` loop: each listed armour whose name is not
      stored is created, in list order. */
  function SeedArmours(rows: seq<ArmourEntity>, seed: seq<Armour>): seq<ArmourEntity>
    decreases |seed|
  {
    if |seed| == 0 then rows
    else
      var rows0 := SeedArmours(rows, seed[..|seed| - 1]);
      var a := seed[|seed| - 1];
      if IndexByName(rows0, a.name).Some? then rows0 else Insert(rows0, a)
  }

  /** The loop over one more entry is one more turn. */
  lemma SeedArmoursStep(rows: seq<ArmourEntity>, seed: seq<Armour>, i: nat)
    requires i < |seed|
    ensures SeedArmours(rows, seed[..i + 1]) ==
      var rows0 := SeedArmours(rows, seed[..i]);
      if IndexByName(rows0, seed[i].name).Some? then rows0 else Insert(rows0, seed[i])
  {
    assert seed[..i + 1][..i] == seed[..i];
  }

  /** A name stays stored when rows are appended. */
  lemma NameStaysStored(rows: seq<ArmourEntity>, rows': seq<ArmourEntity>, name: string)
    requires |rows| <= |rows'| && rows'[..|rows|] == rows && IndexByName(rows, name).Some?
    ensures IndexByName(rows', name).Some?
  {
    var i := IndexByName(rows, name).value;
    assert rows'[i] == rows'[..|rows|][i];
  }

  /** Seeding only appends, keeps ids as positions, and afterwards every
      listed name is stored. */
  lemma {:induction false} SeedArmoursStores(rows: seq<ArmourEntity>, seed: seq<Armour>)
    requires IdsArePositions(rows)
    ensures IdsArePositions(SeedArmours(rows, seed))
    ensures |rows| <= |SeedArmours(rows, seed)| && SeedArmours(rows, seed)[..|rows|] == rows
    ensures forall k :: 0 <= k < |seed| ==> IndexByName(SeedArmours(rows, seed), seed[k].name).Some?
    decreases |seed|
  {
    if |seed| == 0 {
      assert rows[..|rows|] == rows;
    } else {
      var init := seed[..|seed| - 1];
      var a := seed[|seed| - 1];
      SeedArmoursStores(rows, init);
      var rows0 := SeedArmours(rows, init);
      var rows1 := SeedArmours(rows, seed);
      InsertAdds(rows0, a);
      assert rows1[..|rows0|] == rows0;
      assert rows1[..|rows|] == rows0[..|rows|];
      forall k | 0 <= k < |seed| ensures IndexByName(rows1, seed[k].name).Some? {
        if k < |init| {
          assert seed[k] == init[k];
          NameStaysStored(rows0, rows1, seed[k].name);
        } else if IndexByName(rows0, a.name).None? {
          assert rows1[|rows0|].armour.name == a.name;
        }
      }
    }
  }

  /** Seeding with every listed name stored writes nothing. */
  lemma {:induction false} SeedArmoursNoop(rows: seq<ArmourEntity>, seed: seq<Armour>)
    requires forall k :: 0 <= k < |seed| ==> IndexByName(rows, seed[k].name).Some?
    ensures SeedArmours(rows, seed) == rows
    decreases |seed|
  {
    if |seed| > 0 {
      SeedArmoursNoop(rows, seed[..|seed| - 1]);
    }
  }

  /** Seeding twice is seeding once: re-seeding adds no row. */
  lemma SeedArmoursIdempotent(rows: seq<ArmourEntity>, seed: seq<Armour>)
    requires IdsArePositions(rows)
    ensures SeedArmours(SeedArmours(rows, seed), seed) == SeedArmours(rows, seed)
  {
    SeedArmoursStores(rows, seed);
    SeedArmoursNoop(SeedArmours(rows, seed), seed);
  }

  /** The rows seeding a fresh table appends: each listed armour as stored,
      under its 1-based position after the rows already there. */
  function SeededRows(from: nat, seed: seq<Armour>): (r: seq<ArmourEntity>)
    ensures |r| == |seed|
    ensures forall k :: 0 <= k < |seed| ==> r[k] == ArmourEntity(from + k + 1, Stored(seed[k]))
    decreases |seed|
  {
    if |seed| == 0 then []
    else SeededRows(from, seed[..|seed| - 1]) + [ArmourEntity(from + |seed|, Stored(seed[|seed| - 1]))]
  }

  predicate DistinctArmourNames(seed: seq<Armour>)
  {
    forall i, j :: 0 <= i < j < |seed| ==> seed[i].name != seed[j].name
  }

  /** A name no row has is not found. */
  lemma AbsentName(rows: seq<ArmourEntity>, name: string)
    requires forall i :: 0 <= i < |rows| ==> rows[i].armour.name != name
    ensures IndexByName(rows, name).None?
  {
  }

  /** After the rows for all but the last entry, the last entry's name is
      still not stored. */
  lemma LastNameFresh(rows: seq<ArmourEntity>, seed: seq<Armour>)
    requires |seed| > 0 && DistinctArmourNames(seed)
    requires forall k :: 0 <= k < |seed| ==> IndexByName(rows, seed[k].name).None?
    ensures IndexByName(rows + SeededRows(|rows|, seed[..|seed| - 1]), seed[|seed| - 1].name).None?
  {
    var init := seed[..|seed| - 1];
    var a := seed[|seed| - 1];
    var rows0 := rows + SeededRows(|rows|, init);
    assert IndexByName(rows, a.name).None?;
    forall i | 0 <= i < |rows0| ensures rows0[i].armour.name != a.name {
      if i >= |rows| {
        assert rows0[i].armour == Stored(seed[i - |rows|]);
      } else {
        assert rows0[i] == rows[i];
      }
    }
    AbsentName(rows0, a.name);
  }

  /** What holds of a list holds of all but its last entry. */
  lemma FreshInit(rows: seq<ArmourEntity>, seed: seq<Armour>, init: seq<Armour>)
    requires |seed| > 0 && init == seed[..|seed| - 1] && DistinctArmourNames(seed)
    requires forall k :: 0 <= k < |seed| ==> IndexByName(rows, seed[k].name).None?
    ensures DistinctArmourNames(init)
    ensures forall k :: 0 <= k < |init| ==> IndexByName(rows, init[k].name).None?
  {
  }

  /** With the listed names distinct and none of them stored, seeding
      appends the whole list in order, so ids follow list order. */
  lemma {:induction false} SeedArmoursFresh(rows: seq<ArmourEntity>, seed: seq<Armour>)
    requires IdsArePositions(rows) && DistinctArmourNames(seed)
    requires forall k :: 0 <= k < |seed| ==> IndexByName(rows, seed[k].name).None?
    ensures SeedArmours(rows, seed) == rows + SeededRows(|rows|, seed)
    decreases |seed|
  {
    if |seed| == 0 {
      assert rows + SeededRows(|rows|, seed) == rows;
    } else {
      var init := seed[..|seed| - 1];
      var a := seed[|seed| - 1];
      FreshInit(rows, seed, init);
      SeedArmoursFresh(rows, init);
      LastNameFresh(rows, seed);
      var rows0 := rows + SeededRows(|rows|, init);
      assert SeedArmours(rows, seed) == Insert(rows0, a);
      assert rows + SeededRows(|rows|, seed) == rows0 + [ArmourEntity(|rows0| + 1, Stored(a))];
    }
  }

  /** Seeding an empty table from a list with distinct names and no empty
      strength text stores the list as it is, under ids 1..n. */
  lemma SeedFromEmpty(seed: seq<Armour>)
    requires DistinctArmourNames(seed)
    requires forall k :: 0 <= k < |seed| ==> seed[k].strength != Some("")
    ensures SeedArmours([], seed) == SeededRows(0, seed)
    ensures forall k :: 0 <= k < |seed| ==> SeededRows(0, seed)[k] == ArmourEntity(k + 1, seed[k])
  {
    SeedArmoursFresh([], seed);
    assert [] + SeededRows(0, seed) == SeededRows(0, seed);
    forall k | 0 <= k < |seed| ensures SeededRows(0, seed)[k] == ArmourEntity(k + 1, seed[k]) {
      StoredRoundTrip(seed[k]);
    }
  }

  // ---------------------------------------------------------------------
  // The seeded fixture
  // ---------------------------------------------------------------------

  /** No row's name contains the query. */
  lemma {:induction false} SearchNone(rows: seq<ArmourEntity>, query: string)
    requires forall k :: 0 <= k < |rows| ==> !Contains(rows[k].armour.name, query)
    ensures ReadByName(rows, query) == []
  {
    FilterRun(rows, (e: ArmourEntity) => Contains(e.armour.name, query), |rows|, |rows|);
  }

  /** A list carrying the fixture's names in the fixture's order. */
  predicate NamedLikeFixture(seed: seq<Armour>)
  {
    |seed| == 13 && forall k :: 0 <= k < 13 ==> seed[k].name == ARMOUR_NAMES[k]
  }

  /** Seeding an empty table stores `ARMOURS` as it is, under ids 1..13. */
  lemma SeedFixture()
    ensures SeedArmours([], ARMOURS) == SeededRows(0, ARMOURS)
    ensures |SeededRows(0, ARMOURS)| == 13
    ensures forall k :: 0 <= k < 13 ==> SeededRows(0, ARMOURS)[k] == ArmourEntity(k + 1, ARMOURS[k])
    ensures IdsArePositions(SeededRows(0, ARMOURS)) && NamesUnique(SeededRows(0, ARMOURS))
    ensures NamedLikeFixture(ARMOURS)
  {
    ArmourNamesListed();
    ArmourNamesDistinct();
    ArmourStrengthsNonEmpty();
    SeedFromEmpty(ARMOURS);
  }

  /** `read(13)` is the shield, with null strength and stealth; id 14 is
      not stored. */
  lemma FixtureReadShield()
    ensures ReadArmour(SeededRows(0, ARMOURS), 13) == Some(ArmourEntity(13, ARMOURS[12]))
    ensures ARMOURS[12].name == "shield" && ARMOURS[12].strength.None? && ARMOURS[12].stealth.None?
    ensures ReadArmour(SeededRows(0, ARMOURS), 14).None?
  {
    SeedFixture();
    ShieldIsLast();
    ReadArmourById(SeededRows(0, ARMOURS), 13);
    ReadArmourById(SeededRows(0, ARMOURS), 14);
  }

  /** When exactly the rows at positions `lo` to `hi - 1` have a name
      containing the query, `readByName` gives that run of rows. */
  lemma {:induction false} SearchRun(rows: seq<ArmourEntity>, query: string, lo: nat, hi: nat)
    requires lo <= hi <= |rows|
    requires forall k :: 0 <= k < |rows| ==> (Contains(rows[k].armour.name, query) <==> lo <= k < hi)
    ensures ReadByName(rows, query) == rows[lo..hi]
  {
    FilterRun(rows, (e: ArmourEntity) => Contains(e.armour.name, query), lo, hi);
  }

  /** The run of one row. */
  lemma {:induction false} SearchOne(rows: seq<ArmourEntity>, query: string, i: int)
    requires 0 <= i < |rows|
    requires forall k :: 0 <= k < |rows| ==> (Contains(rows[k].armour.name, query) <==> k == i)
    ensures ReadByName(rows, query) == [rows[i]]
  {
    SearchRun(rows, query, i, i + 1);
    assert rows[i..i + 1] == [rows[i]];
  }

  /** The run of two rows. */
  lemma {:induction false} SearchTwo(rows: seq<ArmourEntity>, query: string, i: int)
    requires 0 <= i && i + 1 < |rows|
    requires forall k :: 0 <= k < |rows| ==> (Contains(rows[k].armour.name, query) <==> k == i || k == i + 1)
    ensures ReadByName(rows, query) == [rows[i], rows[i + 1]]
  {
    SearchRun(rows, query, i, i + 2);
    assert rows[i..i + 2] == [rows[i], rows[i + 1]];
  }

  /** On rows seeded from a list named like the fixture, `readByName`
      gives for `leather` the rows of ids 2 and 3, in that order. */
  lemma {:induction false} LeatherSearch(seed: seq<Armour>)
    requires NamedLikeFixture(seed)
    ensures ReadByName(SeededRows(0, seed), "leather") == [ArmourEntity(2, Stored(seed[1])), ArmourEntity(3, Stored(seed[2]))]
  {
    NameSearchFacts();
    SearchTwo(SeededRows(0, seed), "leather", 1);
  }

  /** ... for `padded` the row of id 1. */
  lemma {:induction false} PaddedSearch(seed: seq<Armour>)
    requires NamedLikeFixture(seed)
    ensures ReadByName(SeededRows(0, seed), "padded") == [ArmourEntity(1, Stored(seed[0]))]
  {
    NameSearchFacts();
    SearchOne(SeededRows(0, seed), "padded", 0);
  }

  /** ... and for `vibranium` no row. */
  lemma {:induction false} VibraniumSearch(seed: seq<Armour>)
    requires NamedLikeFixture(seed)
    ensures ReadByName(SeededRows(0, seed), "vibranium") == []
  {
    NameSearchFacts();
    SearchNone(SeededRows(0, seed), "vibranium");
  }

  /** `readDescriptionByArmourName` gives each fixture armour's description
      by its name, and null for a name not in the fixture. */
  lemma FixtureDescriptions(name: string)
    ensures forall k :: 0 <= k < |ARMOURS| ==>
      DescriptionByName(SeededRows(0, ARMOURS), ARMOURS[k].name) == Some(ARMOURS[k].description)
    ensures (forall k :: 0 <= k < |ARMOURS| ==> ARMOURS[k].name != name) ==>
      DescriptionByName(SeededRows(0, ARMOURS), name).None?
  {
    SeedFixture();
    forall k | 0 <= k < |ARMOURS|
      ensures DescriptionByName(SeededRows(0, ARMOURS), ARMOURS[k].name) == Some(ARMOURS[k].description)
    {
      DescriptionOfStoredName(SeededRows(0, ARMOURS), k);
    }
  }
}

=== FILE: base_entity.dfy ===
/** The result record of src/data/entities/base.entity.ts that the stores
    in src/data give back from `update` and `delete`. */
module BaseEntity {
  import opened Wrappers

  /** `DbOperationResult`: success, and an optional message, id and row
      count. */
  datatype DbOperationResult = DbOperationResult(
    success: bool,
    message: Option<string>,
    id: Option<nat>,
    affectedRows: Option<nat>)
}

=== FILE: formatting.dfy ===
/** The string helpers of src/services/formatting.service.ts: capitalising
    a word, title case, and the URL slug a property or armour name is
    turned into. Case mapping is ASCII only (see Text). */
module Formatting {
  import opened Wrappers
  import opened Text

  // ---------------------------------------------------------------------
  // `capitaliseWord` and `toTitleCase`
  // ---------------------------------------------------------------------

  /** `capitaliseWord`: the first character upper-cased, the rest as they
      are. */
  function CapitaliseWord(word: string): (r: string)
    ensures |r| == |word|
  {
    if word == [] then [] else [UpperChar(word[0])] + word[1..]
  }

  /** Only the first character changes, so capitalising twice is
      capitalising once and an empty word stays empty. */
  lemma CapitaliseWordFacts(word: string)
    ensures CapitaliseWord(CapitaliseWord(word)) == CapitaliseWord(word)
    ensures forall i :: 1 <= i < |word| ==> CapitaliseWord(word)[i] == word[i]
    ensures |word| > 0 ==> CapitaliseWord(word)[0] == UpperChar(word[0])
    ensures CapitaliseWord("wORD") == "WORD" && CapitaliseWord("") == ""
  {
    if |word| > 0 {
      assert CapitaliseWord(word)[1..] == word[1..];
    }
  }

  /** `.map(word => capitaliseWord(word))` */
  function CapitaliseAll(words: seq<string>): (r: seq<string>)
    ensures |r| == |words|
    ensures forall k :: 0 <= k < |words| ==> r[k] == CapitaliseWord(words[k])
  {
    if words == [] then [] else [CapitaliseWord(words[0])] + CapitaliseAll(words[1..])
  }

  /** Character `i` of the title-cased text: upper-cased when it starts
      the text or follows a space, lower-cased otherwise. */
  function TitleChar(s: string, i: nat): char
    requires i < |s|
  {
    if i == 0 || s[i - 1] == ' ' then UpperChar(LowerChar(s[i])) else LowerChar(s[i])
  }

  /** `toTitleCase`: lower-case, split on single spaces, capitalise each
      piece, join with single spaces. The length is kept. */
  function ToTitleCase(s: string): (r: string)
    ensures |r| == |s|
  {
    TitleCaseIsMarked(s);
    Join(CapitaliseAll(Split(Lower(s), ' ')), ' ')
  }

  /** Each character is lower-cased except the first one and each one
      after a space, which is upper-cased. */
  lemma TitleCaseChars(s: string)
    ensures forall i :: 0 <= i < |s| ==> ToTitleCase(s)[i] == TitleChar(s, i)
  {
    TitleCaseIsMarked(s);
  }

  /** `t` with its first character upper-cased when `start` holds and
      each character after a space upper-cased. */
  function Marked(t: string, start: bool): (r: string)
    ensures |r| == |t|
  {
    if t == [] then [] else [if start then UpperChar(t[0]) else t[0]] + Marked(t[1..], t[0] == ' ')
  }

  lemma {:induction false} MarkedAt(t: string, start: bool, i: nat)
    requires i < |t|
    ensures Marked(t, start)[i] ==
      if (i == 0 && start) || (i > 0 && t[i - 1] == ' ') then UpperChar(t[i]) else t[i]
  {
    if i > 0 {
      MarkedAt(t[1..], t[0] == ' ', i - 1);
    }
  }

  /** The pieces with the first one capitalised only when `start` holds
      and every later one capitalised. */
  function HeadCapitalised(parts: seq<string>, start: bool): seq<string>
    requires |parts| > 0
  {
    [if start then CapitaliseWord(parts[0]) else parts[0]] + CapitaliseAll(parts[1..])
  }

  lemma JoinConsHead(c: char, w: string, rest: seq<string>, sep: char)
    ensures Join([[c] + w] + rest, sep) == [c] + Join([w] + rest, sep)
  {
    if |rest| > 0 {
      assert ([[c] + w] + rest)[1..] == rest;
      assert ([w] + rest)[1..] == rest;
    }
  }

  /** Splitting on spaces, capitalising and joining again is marking the
      characters after spaces. */
  lemma {:induction false} SplitCapitaliseJoin(t: string, start: bool)
    ensures Join(HeadCapitalised(Split(t, ' '), start), ' ') == Marked(t, start)
    decreases |t|
  {
    if t != [] {
      var c := t[0];
      var rest := Split(t[1..], ' ');
      SplitCapitaliseJoin(t[1..], c == ' ');
      if c == ' ' {
        var parts := Split(t, ' ');
        assert parts == [""] + rest;
        assert HeadCapitalised(parts, start) == [""] + HeadCapitalised(rest, true);
        assert Join([""] + HeadCapitalised(rest, true), ' ') == [' '] + Join(HeadCapitalised(rest, true), ' ');
      } else {
        var w := rest[0];
        var c' := if start then UpperChar(c) else c;
        assert Split(t, ' ') == [[c] + w] + rest[1..];
        assert HeadCapitalised(Split(t, ' '), start) == [[c'] + w] + CapitaliseAll(rest[1..]);
        JoinConsHead(c', w, CapitaliseAll(rest[1..]), ' ');
        assert [w] + CapitaliseAll(rest[1..]) == HeadCapitalised(rest, false);
      }
    }
  }

  lemma LowerCharSpace(c: char)
    ensures LowerChar(c) == ' ' <==> c == ' '
    ensures UpperChar(LowerChar(c)) == ' ' <==> c == ' '
  {
  }

  lemma TitleCaseIsMarked(s: string)
    ensures Join(CapitaliseAll(Split(Lower(s), ' ')), ' ') == Marked(Lower(s), true)
    ensures |Marked(Lower(s), true)| == |s|
    ensures forall i :: 0 <= i < |s| ==> Marked(Lower(s), true)[i] == TitleChar(s, i)
  {
    var parts := Split(Lower(s), ' ');
    assert CapitaliseAll(parts) == HeadCapitalised(parts, true);
    SplitCapitaliseJoin(Lower(s), true);
    forall i | 0 <= i < |s| ensures Marked(Lower(s), true)[i] == TitleChar(s, i) {
      MarkedAt(Lower(s), true, i);
      if i > 0 {
        LowerCharSpace(s[i - 1]);
      }
    }
  }

  /** Title case keeps every space where it was, and applying it twice is
      applying it once. */
  lemma TitleCaseIdempotent(s: string)
    ensures forall i :: 0 <= i < |s| ==> (ToTitleCase(s)[i] == ' ' <==> s[i] == ' ')
    ensures ToTitleCase(ToTitleCase(s)) == ToTitleCase(s)
  {
    var r := ToTitleCase(s);
    TitleCaseChars(s);
    TitleCaseChars(r);
    forall i | 0 <= i < |s| ensures r[i] == ' ' <==> s[i] == ' ' {
      LowerCharSpace(s[i]);
    }
    forall i | 0 <= i < |s| ensures ToTitleCase(r)[i] == r[i] {
      LowerUpperChar(LowerChar(s[i]));
      LowerUpperChar(s[i]);
    }
  }

  /** Title-casing works word by word: the text on either side of a space
      is title-cased on its own. */
  lemma TitleCaseAroundSpace(a: string, b: string)
    ensures ToTitleCase(a + " " + b) == ToTitleCase(a) + " " + ToTitleCase(b)
  {
    var s := a + " " + b;
    var r := ToTitleCase(a) + " " + ToTitleCase(b);
    TitleCaseChars(s);
    TitleCaseChars(a);
    TitleCaseChars(b);
    forall i | 0 <= i < |s| ensures ToTitleCase(s)[i] == r[i] {
      if i < |a| {
        assert s[i] == a[i];
        if i > 0 {
          assert s[i - 1] == a[i - 1];
        }
      } else if i > |a| {
        var j := i - |a| - 1;
        assert s[i] == b[j];
        if j > 0 {
          assert s[i - 1] == b[j - 1];
        }
      }
    }
  }

  /** A word without spaces has its first character upper-cased and the
      rest lower-cased. */
  lemma TitleCaseWord(w: string)
    requires |w| > 0 && ' ' !in w
    ensures ToTitleCase(w) == [UpperChar(LowerChar(w[0]))] + Lower(w[1..])
  {
    var r := [UpperChar(LowerChar(w[0]))] + Lower(w[1..]);
    TitleCaseChars(w);
    forall i | 0 <= i < |w| ensures ToTitleCase(w)[i] == r[i] {
      if i > 0 {
        assert w[i - 1] in w;
      }
    }
  }

  // ---------------------------------------------------------------------
  // `convertToUriSafeString`
  // ---------------------------------------------------------------------

  /** What `\s` matches in a JavaScript regular expression: the
      ECMAScript white space and line terminator characters. */
  predicate IsWhitespace(c: char)
  {
    c == '\t' || c == '\n' || c == '\U{000B}' || c == '\U{000C}' || c == '\r' || c == ' ' ||
    c == '\U{00A0}' || c == '\U{1680}' || ('\U{2000}' <= c <= '\U{200A}') ||
    c == '\U{2028}' || c == '\U{2029}' || c == '\U{202F}' || c == '\U{205F}' ||
    c == '\U{3000}' || c == '\U{FEFF}'
  }

  /** `s` with its leading whitespace run removed. */
  function SkipWhitespace(s: string): (r: string)
    ensures |r| <= |s| && r == s[|s| - |r|..]
    ensures r != [] ==> !IsWhitespace(r[0])
    ensures forall k :: 0 <= k < |s| - |r| ==> IsWhitespace(s[k])
  {
    if s != [] && IsWhitespace(s[0]) then SkipWhitespace(s[1..]) else s
  }

  /** `.replace(/\s+/g, '-')`: each maximal whitespace run becomes one
      `-`; every other character stays. */
  function HyphenateWhitespace(s: string): (r: string)
    ensures |r| <= |s|
    ensures forall k :: 0 <= k < |r| ==> !IsWhitespace(r[k])
    decreases |s|
  {
    if s == [] then []
    else if IsWhitespace(s[0]) then "-" + HyphenateWhitespace(SkipWhitespace(s[1..]))
    else [s[0]] + HyphenateWhitespace(s[1..])
  }

  /** No two whitespace characters are adjacent. */
  predicate SingleWhitespace(s: string)
  {
    forall i :: 0 < i < |s| ==> !(IsWhitespace(s[i - 1]) && IsWhitespace(s[i]))
  }

  /** Each whitespace character on its own replaced by `-`. */
  function HyphenateEach(s: string): (r: string)
    ensures |r| == |s|
    ensures forall k :: 0 <= k < |s| ==> r[k] == if IsWhitespace(s[k]) then '-' else s[k]
  {
    seq(|s|, k requires 0 <= k < |s| => if IsWhitespace(s[k]) then '-' else s[k])
  }

  lemma SingleWhitespaceTail(s: string)
    requires s != [] && SingleWhitespace(s)
    ensures SingleWhitespace(s[1..])
  {
    forall i | 0 < i < |s[1..]| ensures !(IsWhitespace(s[1..][i - 1]) && IsWhitespace(s[1..][i])) {
      assert s[1..][i - 1] == s[i] && s[1..][i] == s[i + 1];
    }
  }

  lemma HyphenateEachCons(s: string)
    requires s != []
    ensures HyphenateEach(s) == [if IsWhitespace(s[0]) then '-' else s[0]] + HyphenateEach(s[1..])
  {
  }

  /** Where whitespace characters stand alone, replacing runs is replacing
      each character. */
  lemma {:induction false} HyphenateSingles(s: string)
    requires SingleWhitespace(s)
    ensures HyphenateWhitespace(s) == HyphenateEach(s)
    decreases |s|
  {
    if s != [] {
      SingleWhitespaceTail(s);
      HyphenateSingles(s[1..]);
      if IsWhitespace(s[0]) && |s| > 1 {
        assert !IsWhitespace(s[1]);
        assert SkipWhitespace(s[1..]) == s[1..];
      }
      HyphenateEachCons(s);
    }
  }

  /** Text without whitespace is left as it is, so the replacement is
      idempotent. */
  lemma HyphenatePlain(s: string)
    requires forall k :: 0 <= k < |s| ==> !IsWhitespace(s[k])
    ensures HyphenateWhitespace(s) == s
  {
    HyphenateSingles(s);
    assert HyphenateEach(s) == s;
  }

  lemma HyphenateIdempotent(s: string)
    ensures HyphenateWhitespace(HyphenateWhitespace(s)) == HyphenateWhitespace(s)
  {
    HyphenatePlain(HyphenateWhitespace(s));
  }

  /** `str.match(/(ammunition|thrown)/i)` succeeds at index `i`. */
  predicate RangedAt(s: string, i: int)
  {
    OccursAt(Lower(s), "ammunition", i) || OccursAt(Lower(s), "thrown", i)
  }

  /** The leftmost index at or after `i` where the pattern matches. */
  function RangedFrom(s: string, i: nat): (r: Option<nat>)
    ensures r.Some? ==> i <= r.value < |s| && RangedAt(s, r.value)
    ensures r.Some? ==> forall j :: i <= j < r.value ==> !RangedAt(s, j)
    ensures r.None? ==> forall j :: i <= j ==> !RangedAt(s, j)
    decreases |s| - i
  {
    if i >= |s| then None
    else if RangedAt(s, i) then Some(i)
    else RangedFrom(s, i + 1)
  }

  /** `rangedPropertyMatch[1]`: the leftmost matched word in its original
      case, or no match. */
  function RangedWord(s: string): (r: Option<string>)
    ensures r.None? <==> !Contains(Lower(s), "ammunition") && !Contains(Lower(s), "thrown")
    ensures r.Some? ==> Lower(r.value) == "ammunition" || Lower(r.value) == "thrown"
    ensures r.Some? ==> exists i :: (RangedAt(s, i) && (forall j :: 0 <= j < i ==> !RangedAt(s, j)) &&
      i + |r.value| <= |s| && r.value == s[i..i + |r.value|])
  {
    match RangedFrom(s, 0)
    case None =>
      assert forall j :: !OccursAt(Lower(s), "ammunition", j) && !OccursAt(Lower(s), "thrown", j) by {
        forall j ensures !OccursAt(Lower(s), "ammunition", j) && !OccursAt(Lower(s), "thrown", j) {
          assert !RangedAt(s, j);
        }
      }
      None
    case Some(i) =>
      var n := if OccursAt(Lower(s), "ammunition", i) then 10 else 6;
      assert Lower(s[i..i + n]) == Lower(s)[i..i + n];
      Some(s[i..i + n])
  }

  /** `convertToUriSafeString`: a text naming `ammunition` or `thrown`
      (in any case) becomes the leftmost such word as written plus
      `-range`; otherwise one naming `versatile` becomes `versatile`;
      otherwise the text is lower-cased with each whitespace run replaced
      by `-`. */
  function ConvertToUriSafeString(s: string): (r: string)
    ensures RangedWord(s).Some? ==> r == RangedWord(s).value + "-range"
    ensures RangedWord(s).None? && Contains(Lower(s), "versatile") ==> r == "versatile"
    ensures RangedWord(s).None? && !Contains(Lower(s), "versatile") ==>
      r == HyphenateWhitespace(Lower(s)) && forall k :: 0 <= k < |r| ==> !IsWhitespace(r[k])
  {
    match RangedWord(s)
    case Some(w) => w + "-range"
    case None =>
      if Contains(Lower(s), "versatile") then "versatile"
      else HyphenateWhitespace(Lower(s))
  }

  /** Text that names none of the three keywords and has no two adjacent
      whitespace characters comes out lower-cased with every whitespace
      character replaced by `-`; text without whitespace comes out just
      lower-cased. */
  lemma UriSafeReplacesEverySpace(s: string)
    requires !Contains(Lower(s), "ammunition") && !Contains(Lower(s), "thrown")
    requires !Contains(Lower(s), "versatile")
    requires SingleWhitespace(Lower(s))
    ensures ConvertToUriSafeString(s) == HyphenateEach(Lower(s))
    ensures (forall k :: 0 <= k < |s| ==> !IsWhitespace(s[k])) ==> ConvertToUriSafeString(s) == Lower(s)
  {
    HyphenateSingles(Lower(s));
    if forall k :: 0 <= k < |s| ==> !IsWhitespace(s[k]) {
      forall k | 0 <= k < |s| ensures !IsWhitespace(Lower(s)[k]) {
        assert !IsWhitespace(s[k]);
      }
      HyphenatePlain(Lower(s));
    }
  }
}

=== FILE: formatting_legacy.dfy ===
/** The older string helpers of src/services/formatting-service.ts, which
    the page components use. Title case and the `ammunition`, `thrown` and
    `versatile` cases are those of Formatting; the fallback replaces only
    the first space. */
module LegacyFormatting {
  import opened Wrappers
  import opened Text
  import Formatting

  /** `toTitleCase`, the same chain of calls as the newer helper with the
      capitalisation written inline: each character lower-cased except the
      first one and each one after a space, which is upper-cased. */
  function ToTitleCase(s: string): (r: string)
    ensures |r| == |s|
    ensures forall i :: 0 <= i < |s| ==> r[i] == Formatting.TitleChar(s, i)
  {
    Formatting.TitleCaseChars(s);
    Formatting.ToTitleCase(s)
  }

  /** No space before index `k`. */
  predicate NoSpaceBefore(s: string, k: int)
  {
    forall l :: 0 <= l < k && l < |s| ==> s[l] != ' '
  }

  /** `.replace(' ', '-')` with a string pattern: only the first space
      becomes `-`. */
  function ReplaceFirstSpace(s: string): (r: string)
    ensures |r| == |s|
    ensures forall k :: 0 <= k < |s| ==> r[k] == if s[k] == ' ' && NoSpaceBefore(s, k) then '-' else s[k]
  {
    if s == [] then []
    else if s[0] == ' ' then "-" + s[1..]
    else
      var rest := ReplaceFirstSpace(s[1..]);
      assert forall k :: 1 <= k < |s| ==> (NoSpaceBefore(s, k) <==> NoSpaceBefore(s[1..], k - 1)) by {
        forall k | 1 <= k < |s| ensures NoSpaceBefore(s, k) <==> NoSpaceBefore(s[1..], k - 1) {
          if !NoSpaceBefore(s[1..], k - 1) {
            var l :| 0 <= l < k - 1 && l < |s[1..]| && s[1..][l] == ' ';
            assert s[l + 1] == ' ';
          }
        }
      }
      [s[0]] + rest
  }

  /** `convertToUriSafeString`: as the newer helper for `ammunition`,
      `thrown` and `versatile`; otherwise the text lower-cased with its
      first space replaced by `-`, all later whitespace kept, and the
      length kept. */
  function ConvertToUriSafeString(s: string): (r: string)
    ensures Formatting.RangedWord(s).Some? ==> r == Formatting.RangedWord(s).value + "-range"
    ensures Formatting.RangedWord(s).None? && Contains(Lower(s), "versatile") ==> r == "versatile"
    ensures Formatting.RangedWord(s).None? && !Contains(Lower(s), "versatile") ==>
      r == ReplaceFirstSpace(Lower(s)) && |r| == |s|
  {
    match Formatting.RangedWord(s)
    case Some(w) => w + "-range"
    case None =>
      if Contains(Lower(s), "versatile") then "versatile"
      else ReplaceFirstSpace(Lower(s))
  }

  /** The fallback keeps every space after the first: on a text with two
      spaces and none of the keywords, the later space survives, so the
      result differs from the newer helper's, which has no whitespace
      left (`'Chain mail armour'` gives `'chain-mail armour'`, not
      `'chain-mail-armour'`). */
  lemma LaterSpacesKept(s: string, i: nat, j: nat)
    requires !Contains(Lower(s), "ammunition") && !Contains(Lower(s), "thrown")
    requires !Contains(Lower(s), "versatile")
    requires i < j < |s| && s[i] == ' ' && s[j] == ' '
    ensures ConvertToUriSafeString(s)[j] == ' '
    ensures ConvertToUriSafeString(s) != Formatting.ConvertToUriSafeString(s)
  {
    var t := Lower(s);
    assert t[i] == ' ' && t[j] == ' ';
    assert !NoSpaceBefore(t, j);
    var fixed := Formatting.ConvertToUriSafeString(s);
    if |fixed| > j {
      assert !Formatting.IsWhitespace(fixed[j]);
    }
  }

  /** The armour name `'Chain mail armour'`: its second space survives
      the older helper, so the two helpers disagree on it. */
  lemma ChainMailArmour()
    ensures ConvertToUriSafeString("Chain mail armour") != Formatting.ConvertToUriSafeString("Chain mail armour")
  {
    assert Lower("Chain mail armour") == "chain mail armour";
    NoCharNoMatch("chain mail armour", "ammunition", 6);
    NoCharNoMatch("chain mail armour", "thrown", 0);
    NoCharNoMatch("chain mail armour", "versatile", 0);
    LaterSpacesKept("Chain mail armour", 5, 10);
  }

  /** At most one whitespace character, and that one a space. */
  predicate OneSpaceAtMost(s: string)
  {
    (forall k :: 0 <= k < |s| && Formatting.IsWhitespace(s[k]) ==> s[k] == ' ') &&
    (forall k, l :: 0 <= k < l < |s| ==> !(s[k] == ' ' && s[l] == ' '))
  }

  lemma LowerOneSpace(s: string)
    requires OneSpaceAtMost(s)
    ensures OneSpaceAtMost(Lower(s)) && Formatting.SingleWhitespace(Lower(s))
  {
    var t := Lower(s);
    forall k | 0 <= k < |t| ensures t[k] == LowerChar(s[k]) && (Formatting.IsWhitespace(t[k]) <==> Formatting.IsWhitespace(s[k])) {
    }
  }

  /** With at most one space, replacing the first space is replacing each
      whitespace character. */
  lemma FirstIsEach(t: string)
    requires OneSpaceAtMost(t)
    ensures ReplaceFirstSpace(t) == Formatting.HyphenateEach(t)
  {
    forall k | 0 <= k < |t| ensures ReplaceFirstSpace(t)[k] == Formatting.HyphenateEach(t)[k] {
      if t[k] == ' ' {
        assert NoSpaceBefore(t, k);
      }
    }
  }

  /** On a text whose only whitespace is at most one space, the two
      helpers agree. */
  lemma AgreesOnOneSpace(s: string)
    requires OneSpaceAtMost(s)
    ensures ConvertToUriSafeString(s) == Formatting.ConvertToUriSafeString(s)
  {
    var t := Lower(s);
    if Formatting.RangedWord(s).None? && !Contains(t, "versatile") {
      LowerOneSpace(s);
      Formatting.UriSafeReplacesEverySpace(s);
      FirstIsEach(t);
    }
  }
}

=== FILE: legacy_armour_store.dfy ===
/** The older armour store of
    src/database/armour-repositroy/armour-repository.ts. It runs the same
    table, seeding and reads as the store in src/data; its `create` is an
    `INSERT OR IGNORE`, which with no unique column on the table ignores
    nothing, and its `update` and `delete` only warn. */
module LegacyArmourStore {
  import opened Wrappers
  import Text
  import opened ArmourModel
  import opened ArmourTables

  class ArmourRepository {
    /** The `armour` table, in insertion order. */
    var armours: seq<ArmourEntity>
    /** The fixture the store seeds from: `ARMOURS`. */
    const fixture: seq<Armour>

    /** Ids are the rows' 1-based positions. */
    predicate Valid()
      reads this
    {
      IdsArePositions(armours)
    }

    /** The constructor creates the table and seeds it (`initDb`): every
        fixture armour, as written, under its 1-based position in the
        fixture, with no two rows sharing a name. */
    constructor ()
      ensures fixture == ARMOURS
      ensures armours == SeedArmours([], ARMOURS)
      ensures |armours| == 13
      ensures forall k :: 0 <= k < 13 ==> armours[k] == ArmourEntity(k + 1, ARMOURS[k])
      ensures Valid() && NamesUnique(armours)
    {
      armours := [];
      fixture := ARMOURS;
      new;
      InsertInitialData();
      SeedFixture();
    }

    /** `insertInitialData`: each fixture armour whose name is not stored
        is created, in fixture order. */
    method InsertInitialData()
      requires Valid()
      modifies this
      ensures armours == SeedArmours(old(armours), fixture)
      ensures Valid()
      ensures forall k :: 0 <= k < |fixture| ==> IndexByName(armours, fixture[k].name).Some?
    {
      var i := 0;
      while i < |fixture|
        invariant i <= |fixture|
        invariant armours == SeedArmours(old(armours), fixture[..i])
      {
        SeedArmoursStep(old(armours), fixture, i);
        if IndexByName(armours, fixture[i].name).None? {
          var id := Create(fixture[i]);
        }
        i := i + 1;
      }
      assert fixture[..i] == fixture;
      SeedArmoursStores(old(armours), fixture);
    }

    /** `create`: `INSERT OR IGNORE` under the next id, which is returned.
        The table has no unique column and every `NOT NULL` field is
        present, so the insert is never ignored and `RETURNING id` always
        yields the row: a name already stored is inserted again. */
    method Create(a: Armour) returns (id: nat)
      modifies this
      ensures armours == Insert(old(armours), a)
      ensures id == |armours| && id >= 1
      ensures old(Valid()) ==> Valid() && Read(id) == Some(ArmourEntity(id, Stored(a)))
    {
      if Valid() {
        InsertAdds(armours, a);
        ReadAfterInsert(armours, a, 0);
      }
      armours := armours + [ArmourEntity(|armours| + 1, Stored(a))];
      id := |armours|;
    }

    /** `read`: the armour with that id, or null; with ids as positions
        exactly the ids 1..n are found. */
    function Read(id: nat): (r: Option<ArmourEntity>)
      reads this
      requires Valid()
      ensures r.Some? <==> 1 <= id <= |armours|
      ensures r.Some? ==> r.value.id == id && r.value == armours[id - 1]
    {
      ReadArmourById(armours, id);
      ReadArmour(armours, id)
    }

    /** `readAll`: every row, the i-th being what `read(i + 1)` returns. */
    function ReadAll(): (r: seq<ArmourEntity>)
      reads this
      requires Valid()
      ensures |r| == |armours|
      ensures forall i :: 0 <= i < |r| ==> Read(i + 1) == Some(r[i])
    {
      armours
    }

    /** `readByName`: the armours whose name contains the query, in id
        order. */
    function ReadByName(query: string): (r: seq<ArmourEntity>)
      reads this
      requires Valid()
      ensures forall e :: e in r <==> e in ReadAll() && Text.Contains(e.armour.name, query)
      ensures forall i, j :: 0 <= i < j < |r| ==> r[i].id < r[j].id
    {
      ReadByNameInIdOrder(armours, query);
      ArmourTables.ReadByName(armours, query)
    }

    /** `readDescriptionByArmourName`: the description of the first armour
        named exactly so, or null when none is. */
    function ReadDescriptionByArmourName(name: string): (r: Option<string>)
      reads this
      ensures r.Some? <==> exists k :: 0 <= k < |armours| && armours[k].armour.name == name
      ensures r.Some? ==> exists k :: (0 <= k < |armours| && armours[k].armour.name == name &&
        armours[k].armour.description == r.value &&
        forall j :: 0 <= j < k ==> armours[j].armour.name != name)
    {
      DescriptionByName(armours, name)
    }

    /** `update`: only warns; nothing is written. */
    method Update(entity: ArmourEntity)
      ensures armours == old(armours)
    {
    }

    /** `delete`: only warns; nothing is written. */
    method Delete(id: nat)
      ensures armours == old(armours)
    {
    }
  }
}

=== FILE: legacy_weapon_store.dfy ===
/** The older weapon store of
    src/database/weapon-repository/weapon-repository.ts. It keeps the same
    three tables as the store in src/data but seeds no property up front
    (each is created the first time a tag needs it), has no duplicate-name
    guard in `create`, names a missing description with a different text,
    and its `update` and `delete` only warn. */
module LegacyWeaponStore {
  import opened Wrappers
  import opened Text
  import opened WeaponModel
  import opened WeaponEntities
  import opened WeaponTables
  import opened WeaponSeed

  /** Stands for the `TypeError` thrown when `create` reads the `id` of
      the row an ignored insert did not return; its wording comes from the
      JavaScript engine. */
  const NO_ROW_ERROR: string := "TypeError: result is null"

  /** What `create` throws for a name already stored: the loop over the
      tags looks up (or inserts) the first tag before it reads the missing
      id, so an unknown first tag throws first. */
  function DuplicateNameError(fixture: seq<WeaponProperty>, ps: seq<WeaponProperty>, tags: seq<string>): string
  {
    if |tags| > 0 && EnsureProperty(fixture, ps, tags[0], LEGACY_PREFIX).Failure?
    then EnsureProperty(fixture, ps, tags[0], LEGACY_PREFIX).error
    else NO_ROW_ERROR
  }

  class WeaponRepository {
    /** The `weapons` table. */
    var weapons: seq<WeaponDatabaseRow>
    /** The `weapon_properties` table; a property's id is its position + 1. */
    var properties: seq<WeaponProperty>
    /** The `weapon_property_relations` table. */
    var relations: seq<Relation>
    /** The property fixture descriptions are taken from:
        `WEAPON_PROPERTIES`. */
    const propertyFixture: seq<WeaponProperty>
    /** The weapon fixture the store seeds from: `WEAPONS`. */
    const weaponFixture: seq<Weapon>

    /** The three tables as one value. */
    function Snapshot(): Tables
      reads this
    {
      Tables(weapons, properties, relations)
    }

    /** Primary keys, `UNIQUE(name)` and the foreign keys hold. */
    predicate Valid()
      reads this
    {
      TablesValid(Snapshot())
    }

    /** The constructor creates the tables and seeds the weapons
        (`initDb`): one row per fixture weapon under its 1-based position,
        linked to exactly its tags; the property table gets one row per tag,
        in the order the weapons first use the tags, each with its fixture
        description: twelve rows, `two-handed` under id 5 and `lance` under
        id 11. */
    constructor ()
      ensures |properties| == 12
      ensures properties[4].name == "two-handed" && properties[10].name == "lance"
      ensures propertyFixture == WEAPON_PROPERTIES && weaponFixture == WEAPONS
      ensures Valid()
      ensures Success(Snapshot()) == LegacySeed(EMPTY)
      ensures SeededFrom(WEAPON_PROPERTIES, EMPTY, WEAPONS, Snapshot())
      ensures properties == FixtureEntries(WEAPON_PROPERTIES, FirstAppearances(WEAPONS))
      ensures FirstAppearances(WEAPONS) == FIRST_USE_ORDER
    {
      weapons, properties, relations := [], [], [];
      propertyFixture, weaponFixture := WEAPON_PROPERTIES, WEAPONS;
      new;
      var r := InsertInitialData();
      LegacySeedFromEmpty();
      LegacySeeded(Snapshot());
    }

    /** `insertInitialData`: each fixture weapon whose name is not stored
        is created, in list order; properties come with the tags. A throw
        ends the seeding; what it leaves is not described, since the throw
        escapes the constructor. */
    method InsertInitialData() returns (r: Result<Tables, string>)
      modifies this
      ensures r == SeedAll(propertyFixture, old(Snapshot()), [], weaponFixture, LEGACY_PREFIX)
      ensures r.Success? ==> Snapshot() == r.value
    {
      var start := Snapshot();
      SeedAllWeaponsOnly(propertyFixture, start, weaponFixture, LEGACY_PREFIX);
      assert weaponFixture[..0] == [];
      var j := 0;
      while j < |weaponFixture|
        invariant j <= |weaponFixture|
        invariant SeedWeapons(propertyFixture, start, weaponFixture[..j], LEGACY_PREFIX) == Success(Snapshot())
      {
        var w := weaponFixture[j];
        SeedWeaponsStep(propertyFixture, start, weaponFixture, LEGACY_PREFIX, j, Snapshot());
        if WeaponIndexByName(weapons, w.name).None? {
          assert SeedWeapon(propertyFixture, Snapshot(), w, LEGACY_PREFIX) == InsertWeapon(propertyFixture, Snapshot(), w, LEGACY_PREFIX);
          var c := Create(w);
          if c.Failure? {
            SeedWeaponsStopsAtFailure(propertyFixture, start, weaponFixture, LEGACY_PREFIX, j + 1);
            return Failure(c.error);
          }
        }
        j := j + 1;
      }
      assert weaponFixture[..j] == weaponFixture;
      return Success(Snapshot());
    }

    /** `create`: the row goes in under the next id and each tag is looked
        up (or inserted) and linked; a throw rolls the whole transaction
        back. There is no duplicate-name guard: for a stored name the
        ignored insert returns no row, and the transaction throws (see
        `DuplicateNameError`) and is rolled back. */
    method Create(w: Weapon) returns (r: Result<nat, string>)
      modifies this
      ensures WeaponIndexByName(old(weapons), w.name).Some? ==>
        r == Failure(DuplicateNameError(propertyFixture, old(properties), w.properties)) &&
        Snapshot() == old(Snapshot())
      ensures WeaponIndexByName(old(weapons), w.name).None? ==>
        var ins := InsertWeapon(propertyFixture, old(Snapshot()), w, LEGACY_PREFIX);
        (ins.Success? ==> r == Success(|old(weapons)| + 1) && Snapshot() == ins.value) &&
        (ins.Failure? ==> r == Failure(ins.error) && Snapshot() == old(Snapshot()))
      ensures old(Valid()) ==> Valid()
    {
      if WeaponIndexByName(weapons, w.name).Some? {
        if |w.properties| > 0 {
          var kept := properties;
          var found := EnsurePropertyExists(w.properties[0]);
          properties := kept;
          if found.Failure? {
            return Failure(found.error);
          }
        }
        return Failure(NO_ROW_ERROR);
      }
      var saved := Snapshot();
      var id := |weapons| + 1;
      weapons := weapons + [ToDatabaseRow(id, w)];
      var i := 0;
      while i < |w.properties|
        invariant i <= |w.properties|
        invariant weapons == saved.weapons + [ToDatabaseRow(id, w)]
        invariant LinkTags(propertyFixture, saved.properties, saved.relations, id, w.properties[..i], LEGACY_PREFIX)
          == Success(Links(properties, relations))
      {
        LinkTagsStep(propertyFixture, saved.properties, saved.relations, id, w.properties, LEGACY_PREFIX, i, Links(properties, relations));
        var found := EnsurePropertyExists(w.properties[i]);
        if found.Failure? {
          LinkTagsStopsAtFailure(propertyFixture, saved.properties, saved.relations, id, w.properties, LEGACY_PREFIX, i + 1);
          weapons, properties, relations := saved.weapons, saved.properties, saved.relations;
          return Failure(found.error);
        }
        CreateWeaponPropertyRelation(id, found.value);
        i := i + 1;
      }
      assert w.properties[..i] == w.properties;
      if TablesValid(saved) {
        InsertWeaponValid(propertyFixture, saved, w, LEGACY_PREFIX);
      }
      return Success(id);
    }

    /** `ensurePropertyExists`: the stored id without a write, or the
        fixture description inserted under a new id, or the throw. */
    method EnsurePropertyExists(name: string) returns (r: Result<nat, string>)
      modifies this
      ensures weapons == old(weapons) && relations == old(relations)
      ensures var e := EnsureProperty(propertyFixture, old(properties), name, LEGACY_PREFIX);
        (e.Success? ==> r == Success(e.value.id) && properties == e.value.properties) &&
        (e.Failure? ==> r == Failure(e.error) && properties == old(properties))
    {
      var stored := PropertyIndexByName(properties, name);
      if stored.Some? {
        return Success(stored.value + 1);
      }
      var description := Description(propertyFixture, name);
      if !Truthy(description) {
        return Failure(LEGACY_PREFIX + name);
      }
      properties := properties + [WeaponProperty(name, description.value)];
      return Success(|properties|);
    }

    /** `createWeaponPropertyRelation`: `INSERT OR IGNORE` of the pair. */
    method CreateWeaponPropertyRelation(weaponId: nat, propertyId: nat)
      modifies this
      ensures weapons == old(weapons) && properties == old(properties)
      ensures relations == AddRelation(old(relations), Relation(weaponId, propertyId))
    {
      if Relation(weaponId, propertyId) !in relations {
        relations := relations + [Relation(weaponId, propertyId)];
      }
    }

    /** `read`: the weapon with that id and its tags, or null; with ids as
        positions exactly the ids 1..n are found. */
    function Read(id: nat): (r: Option<WeaponEntity>)
      reads this
      requires Valid()
      ensures r.Some? <==> 1 <= id <= |weapons|
      ensures r.Some? ==> r.value.id == id && r.value == Entity(Snapshot(), weapons[id - 1])
    {
      ReadWeaponById(Snapshot(), id);
      ReadWeapon(Snapshot(), id)
    }

    /** `readAll`: one entity per row, the i-th being what `read(i + 1)`
        returns. */
    function ReadAll(): (r: seq<WeaponEntity>)
      reads this
      requires Valid()
      ensures |r| == |weapons|
      ensures forall i :: 0 <= i < |r| ==> Read(i + 1) == Some(r[i])
    {
      var all := ReadAllWeapons(Snapshot());
      assert forall i :: 0 <= i < |all| ==> Read(i + 1) == Some(all[i]) by {
        forall i | 0 <= i < |all| ensures Read(i + 1) == Some(all[i]) {
          ReadAllIsReadById(Snapshot(), i);
        }
      }
      all
    }

    /** `readByName`: the entities whose name contains the query. */
    function ReadByName(query: string): (r: seq<WeaponEntity>)
      reads this
      requires Valid()
      ensures forall e :: e in r <==> e in ReadAll() && Contains(e.weapon.name, query)
    {
      ReadWeaponsByName(Snapshot(), query)
    }

    /** `readWeaponProperty`: the property with that id, or null. */
    function ReadWeaponProperty(id: nat): (r: Option<WeaponPropertyEntity>)
      reads this
      ensures r.Some? <==> 1 <= id <= |properties|
      ensures r.Some? ==> r.value == WeaponPropertyEntity(id, properties[id - 1])
    {
      WeaponTables.ReadWeaponProperty(Snapshot(), id)
    }

    /** `readAllWeaponProperties`: every property under its id, in id
        order. */
    function ReadAllWeaponProperties(): (r: seq<WeaponPropertyEntity>)
      reads this
      ensures |r| == |properties|
      ensures forall i :: 0 <= i < |r| ==> ReadWeaponProperty(i + 1) == Some(r[i])
    {
      WeaponTables.ReadAllWeaponProperties(Snapshot())
    }

    /** `readWeaponPropertyByName`: the properties whose name contains the
        query. */
    function ReadWeaponPropertyByName(query: string): (r: seq<WeaponPropertyEntity>)
      reads this
      ensures forall e :: e in r <==> e in ReadAllWeaponProperties() && Contains(e.property.name, query)
    {
      ReadWeaponPropertiesByName(Snapshot(), query)
    }

    /** `update`: only warns; nothing is written. */
    method Update(entity: WeaponEntity)
      ensures Snapshot() == old(Snapshot())
    {
    }

    /** `delete`: only warns; nothing is written. */
    method Delete(id: nat)
      ensures Snapshot() == old(Snapshot())
    {
    }
  }
}

=== FILE: sequences.dfy ===
/** Searching and filtering sequences, the way the stores scan their tables
    (`WHERE ...` with `queryOne` and `query`) and the services filter their
    results (`find`, `filter`). */
module Sequences {
  import opened Wrappers

  /** Index of the first element at or after `i` that satisfies `p`, or
      `None`. */
  function FirstIndex<T>(xs: seq<T>, p: T -> bool, i: nat): (r: Option<nat>)
    ensures r.Some? ==> i <= r.value < |xs| && p(xs[r.value])
    ensures r.Some? ==> forall j :: i <= j < r.value ==> !p(xs[j])
    ensures r.None? ==> forall j :: i <= j < |xs| ==> !p(xs[j])
    decreases |xs| - i
  {
    if i >= |xs| then None
    else if p(xs[i]) then Some(i)
    else FirstIndex(xs, p, i + 1)
  }

  /** The elements of `xs` that satisfy `p`, in their order. */
  function Filter<T(!new)>(xs: seq<T>, p: T -> bool): (r: seq<T>)
    ensures |r| <= |xs|
    ensures forall x :: x in r <==> x in xs && p(x)
    decreases |xs|
  {
    if |xs| == 0 then []
    else
      var init := xs[..|xs| - 1];
      var last := xs[|xs| - 1];
      assert xs == init + [last];
      Filter(init, p) + (if p(last) then [last] else [])
  }

  /** Filtering distributes over concatenation, so filtering keeps the
      relative order of what it keeps. */
  lemma {:induction false} FilterAppend<T(!new)>(xs: seq<T>, ys: seq<T>, p: T -> bool)
    ensures Filter(xs + ys, p) == Filter(xs, p) + Filter(ys, p)
    decreases |ys|
  {
    if |ys| == 0 {
      assert xs + ys == xs;
    } else {
      var init := ys[..|ys| - 1];
      assert (xs + ys)[..|xs + ys| - 1] == xs + init;
      assert (xs + ys)[|xs + ys| - 1] == ys[|ys| - 1];
      FilterAppend(xs, init, p);
    }
  }

  /** A non-empty list is its initial part followed by its last element. */
  lemma InitLast<T>(xs: seq<T>)
    requires |xs| > 0
    ensures xs[..|xs| - 1] + [xs[|xs| - 1]] == xs
  {
  }

  /** Filtering keeps a list whose every element satisfies `p` whole. */
  lemma {:induction false} FilterAll<T(!new)>(xs: seq<T>, p: T -> bool)
    requires forall k :: 0 <= k < |xs| ==> p(xs[k])
    ensures Filter(xs, p) == xs
    decreases |xs|
  {
    if |xs| > 0 {
      var init, last := xs[..|xs| - 1], xs[|xs| - 1];
      forall k | 0 <= k < |init|
        ensures p(init[k])
      {
        assert init[k] == xs[k];
      }
      FilterAll(init, p);
      calc {
        Filter(xs, p);
        { assert p(last); }
        Filter(init, p) + [last];
        init + [last];
        { InitLast(xs); }
        xs;
      }
    }
  }

  /** Filtering empties a list none of whose elements satisfies `p`. */
  lemma {:induction false} FilterNone<T(!new)>(xs: seq<T>, p: T -> bool)
    requires forall k :: 0 <= k < |xs| ==> !p(xs[k])
    ensures Filter(xs, p) == []
    decreases |xs|
  {
    if |xs| > 0 {
      var init := xs[..|xs| - 1];
      forall k | 0 <= k < |init|
        ensures !p(init[k])
      {
        assert init[k] == xs[k];
      }
      FilterNone(init, p);
    }
  }

  /** A list is the concatenation of its parts before `lo`, from `lo` to
      `hi` and from `hi`. */
  lemma SplitAt<T>(xs: seq<T>, lo: nat, hi: nat)
    requires lo <= hi <= |xs|
    ensures xs == xs[..lo] + xs[lo..hi] + xs[hi..]
  {
    assert xs[..hi] == xs[..lo] + xs[lo..hi];
    assert xs == xs[..hi] + xs[hi..];
  }

  /** When exactly the elements at positions `lo` to `hi - 1` satisfy `p`,
      filtering gives that run. */
  lemma FilterRun<T(!new)>(xs: seq<T>, p: T -> bool, lo: nat, hi: nat)
    requires lo <= hi <= |xs|
    requires forall k :: 0 <= k < |xs| ==> (p(xs[k]) <==> lo <= k < hi)
    ensures Filter(xs, p) == xs[lo..hi]
  {
    var before, run, after := xs[..lo], xs[lo..hi], xs[hi..];
    assert Filter(before, p) == [] by {
      assert forall k :: 0 <= k < |before| ==> before[k] == xs[k];
      FilterNone(before, p);
    }
    assert Filter(run, p) == run by {
      assert forall k :: 0 <= k < |run| ==> run[k] == xs[lo + k];
      FilterAll(run, p);
    }
    assert Filter(after, p) == [] by {
      assert forall k :: 0 <= k < |after| ==> after[k] == xs[hi + k];
      FilterNone(after, p);
    }
    SplitAt(xs, lo, hi);
    FilterThree(before, run, after, p);
  }

  /** Filtering three lists laid end to end, of which only the middle one
      keeps anything, gives what the middle one keeps. */
  lemma FilterThree<T(!new)>(before: seq<T>, run: seq<T>, after: seq<T>, p: T -> bool)
    requires Filter(before, p) == [] && Filter(after, p) == []
    ensures Filter(before + run + after, p) == Filter(run, p)
  {
    FilterAppend(before + run, after, p);
    FilterAppend(before, run, p);
    assert [] + Filter(run, p) + [] == Filter(run, p);
  }

  /** Filtering keeps the relative order of what it keeps: on a list
      strictly increasing in `key`, the filtered list is too. */
  lemma {:induction false} FilterOrdered<T(!new)>(xs: seq<T>, p: T -> bool, key: T -> int)
    requires forall i, j :: 0 <= i < j < |xs| ==> key(xs[i]) < key(xs[j])
    ensures forall i, j :: 0 <= i < j < |Filter(xs, p)| ==> key(Filter(xs, p)[i]) < key(Filter(xs, p)[j])
    decreases |xs|
  {
    if |xs| > 0 {
      var init := xs[..|xs| - 1];
      var last := xs[|xs| - 1];
      FilterOrdered(init, p, key);
      var f := Filter(init, p);
      forall x | x in f ensures key(x) < key(last) {
        var k :| 0 <= k < |init| && init[k] == x;
      }
    }
  }

  /** Filtering finds nothing exactly when no element satisfies `p`;
      otherwise its head is the first element that does. */
  lemma {:induction false} FilterHead<T(!new)>(xs: seq<T>, p: T -> bool)
    ensures Filter(xs, p) == [] <==> forall i :: 0 <= i < |xs| ==> !p(xs[i])
    ensures Filter(xs, p) != [] ==> exists k :: (0 <= k < |xs| && Filter(xs, p)[0] == xs[k] && p(xs[k]) &&
      forall j :: 0 <= j < k ==> !p(xs[j]))
    decreases |xs|
  {
    if |xs| > 0 {
      var init := xs[..|xs| - 1];
      var last := xs[|xs| - 1];
      FilterHead(init, p);
      var f := Filter(init, p);
      assert Filter(xs, p) == f + (if p(last) then [last] else []);
      if f != [] {
        var k :| 0 <= k < |init| && f[0] == init[k] && p(init[k]) && forall j :: 0 <= j < k ==> !p(init[j]);
        assert Filter(xs, p)[0] == xs[k];
        assert forall j :: 0 <= j < k ==> xs[j] == init[j];
      } else {
        assert forall i :: 0 <= i < |init| ==> xs[i] == init[i];
        if p(last) {
          assert Filter(xs, p)[0] == xs[|init|];
        }
      }
    }
  }

  /** When every element satisfies exactly one of `p` and `q`, the two
      filters together are as long as the list. */
  lemma {:induction false} FilterComplement<T(!new)>(xs: seq<T>, p: T -> bool, q: T -> bool)
    requires forall i :: 0 <= i < |xs| ==> p(xs[i]) != q(xs[i])
    ensures |Filter(xs, p)| + |Filter(xs, q)| == |xs|
    decreases |xs|
  {
    if |xs| > 0 {
      var init := xs[..|xs| - 1];
      FilterComplement(init, p, q);
    }
  }

  /** `f` applied to every element, in order (`map`). */
  function Map<A, B>(xs: seq<A>, f: A -> B): (r: seq<B>)
    ensures |r| == |xs|
    ensures forall i :: 0 <= i < |xs| ==> r[i] == f(xs[i])
  {
    seq(|xs|, i requires 0 <= i < |xs| => f(xs[i]))
  }

  /** Mapping after filtering by a property of the image is filtering the
      image: `xs.filter(x => q(f(x))).map(f) == xs.map(f).filter(q)`. */
  lemma {:induction false} MapFilter<A(!new), B(!new)>(xs: seq<A>, f: A -> B, p: A -> bool, q: B -> bool)
    requires forall x :: p(x) == q(f(x))
    ensures Map(Filter(xs, p), f) == Filter(Map(xs, f), q)
    decreases |xs|
  {
    if |xs| > 0 {
      var init := xs[..|xs| - 1];
      var last := xs[|xs| - 1];
      MapFilter(init, f, p, q);
      var m := Map(xs, f);
      assert m[..|m| - 1] == Map(init, f);
      assert Filter(xs, p) == Filter(init, p) + (if p(last) then [last] else []);
      assert Map(Filter(xs, p), f) == Map(Filter(init, p), f) + (if p(last) then [f(last)] else []);
    }
  }

  /** The test "has key `k`" on the elements. */
  function KeyIs<T>(key: T -> string, k: string): T -> bool
  {
    (x: T) => key(x) == k
  }

  /** What the `reduce` of the services builds: each element in turn is
      pushed onto the list under its key, the list being created empty
      when the key is new. */
  function GroupBy<T>(xs: seq<T>, key: T -> string): map<string, seq<T>>
    decreases |xs|
  {
    if |xs| == 0 then map[]
    else
      var groups := GroupBy(xs[..|xs| - 1], key);
      var last := xs[|xs| - 1];
      var k := key(last);
      groups[k := (if k in groups then groups[k] else []) + [last]]
  }

  /** The groups are keyed by exactly the keys that occur, and the group of
      a key is the list filtered by that key, in the list's order. */
  lemma {:induction false} GroupByIsFilter<T(!new)>(xs: seq<T>, key: T -> string)
    ensures forall k :: k in GroupBy(xs, key) <==> exists i :: 0 <= i < |xs| && key(xs[i]) == k
    ensures forall k :: k in GroupBy(xs, key) ==> GroupBy(xs, key)[k] == Filter(xs, KeyIs(key, k))
    decreases |xs|
  {
    if |xs| > 0 {
      var init := xs[..|xs| - 1];
      var last := xs[|xs| - 1];
      GroupByIsFilter(init, key);
      var groups := GroupBy(init, key);
      var g := GroupBy(xs, key);
      forall k ensures k in g <==> exists i :: 0 <= i < |xs| && key(xs[i]) == k {
        if k in groups {
          var i :| 0 <= i < |init| && key(init[i]) == k;
          assert xs[i] == init[i];
        }
        if exists i :: 0 <= i < |xs| && key(xs[i]) == k {
          var i :| 0 <= i < |xs| && key(xs[i]) == k;
          if i < |init| {
            assert key(init[i]) == k;
          }
        }
      }
      forall k | k in g ensures g[k] == Filter(xs, KeyIs(key, k)) {
        if k == key(last) && k !in groups {
          FilterHead(init, KeyIs(key, k));
        }
      }
    }
  }

  /** `GroupBy` partitions the list: every element is in the group of its
      own key, every group holds only its key, no group is empty, and the
      group sizes add up to the list's length. */
  lemma GroupByPartition<T(!new)>(xs: seq<T>, key: T -> string)
    ensures forall i :: 0 <= i < |xs| ==> key(xs[i]) in GroupBy(xs, key) && xs[i] in GroupBy(xs, key)[key(xs[i])]
    ensures forall k, x :: k in GroupBy(xs, key) && x in GroupBy(xs, key)[k] ==> key(x) == k
    ensures forall k :: k in GroupBy(xs, key) ==> |GroupBy(xs, key)[k]| > 0
  {
    GroupByIsFilter(xs, key);
    var g := GroupBy(xs, key);
    forall i | 0 <= i < |xs| ensures key(xs[i]) in g && xs[i] in g[key(xs[i])] {
      assert KeyIs(key, key(xs[i]))(xs[i]);
    }
    forall k | k in g ensures |g[k]| > 0 {
      var i :| 0 <= i < |xs| && key(xs[i]) == k;
      assert xs[i] in g[k];
    }
  }

  /** `d` followed by each element of `ys` that is not already there, in
      the order of its first occurrence in `ys`. */
  function AddNew<T(==)>(d: seq<T>, ys: seq<T>): seq<T>
    decreases |ys|
  {
    if |ys| == 0 then d
    else
      var d0 := AddNew(d, ys[..|ys| - 1]);
      var last := ys[|ys| - 1];
      if last in d0 then d0 else d0 + [last]
  }

  /** The distinct elements of `xs`, in the order they first appear. */
  function Distinct<T(==)>(xs: seq<T>): seq<T>
  {
    AddNew([], xs)
  }

  /** Adding only appends, adds exactly the elements of `ys`, and keeps a
      list free of repeats. */
  lemma {:induction false} AddNewFacts<T>(d: seq<T>, ys: seq<T>)
    ensures |d| <= |AddNew(d, ys)| && AddNew(d, ys)[..|d|] == d
    ensures forall x :: x in AddNew(d, ys) <==> x in d || x in ys
    ensures (forall i, j :: 0 <= i < j < |d| ==> d[i] != d[j]) ==>
      forall i, j :: 0 <= i < j < |AddNew(d, ys)| ==> AddNew(d, ys)[i] != AddNew(d, ys)[j]
    decreases |ys|
  {
    if |ys| > 0 {
      var init := ys[..|ys| - 1];
      var last := ys[|ys| - 1];
      assert ys == init + [last];
      AddNewFacts(d, init);
      var d0 := AddNew(d, init);
      if last !in d0 {
        assert (d0 + [last])[..|d|] == d0[..|d|];
      }
    }
  }

  /** Adding `a` and then `b` is adding `a + b`. */
  lemma {:induction false} AddNewAppend<T>(d: seq<T>, a: seq<T>, b: seq<T>)
    ensures AddNew(d, a + b) == AddNew(AddNew(d, a), b)
    decreases |b|
  {
    if |b| == 0 {
      assert a + b == a;
    } else {
      var init := b[..|b| - 1];
      assert (a + b)[..|a + b| - 1] == a + init;
      AddNewAppend(d, a, init);
    }
  }

  /** `Distinct` holds each element of `xs` once, and what is distinct in
      a prefix stays in front. */
  lemma DistinctFacts<T>(xs: seq<T>, ys: seq<T>)
    ensures forall x :: x in Distinct(xs) <==> x in xs
    ensures forall i, j :: 0 <= i < j < |Distinct(xs)| ==> Distinct(xs)[i] != Distinct(xs)[j]
    ensures |Distinct(xs)| <= |Distinct(xs + ys)| && Distinct(xs + ys)[..|Distinct(xs)|] == Distinct(xs)
  {
    AddNewFacts([], xs);
    AddNewAppend([], xs, ys);
    AddNewFacts(Distinct(xs), ys);
  }

  /** Adding elements that are all present changes nothing. */
  lemma {:induction false} AddNewKnown<T>(d: seq<T>, ys: seq<T>)
    requires forall j :: 0 <= j < |ys| ==> ys[j] in d
    ensures AddNew(d, ys) == d
    decreases |ys|
  {
    if |ys| > 0 {
      AddNewKnown(d, ys[..|ys| - 1]);
    }
  }

  /** Adding distinct elements none of which is present appends them. */
  lemma {:induction false} AddNewFresh<T>(d: seq<T>, ys: seq<T>)
    requires forall j :: 0 <= j < |ys| ==> ys[j] !in d
    requires forall i, j :: 0 <= i < j < |ys| ==> ys[i] != ys[j]
    ensures AddNew(d, ys) == d + ys
    decreases |ys|
  {
    if |ys| > 0 {
      var init := ys[..|ys| - 1];
      AddNewFresh(d, init);
      assert d + ys == d + init + [ys[|ys| - 1]];
    }
  }
}

=== FILE: shared_data_service.dfy ===
/** The service of src/data/services/shared-data.service.ts that serves the
    armour and the weapon catalogue together: it delegates to one armour
    service and one weapon service and repackages their results. */
module SharedDataServices {
  import opened Wrappers
  import Text
  import opened Sequences
  import opened WeaponModel
  import opened ArmourModel
  import WeaponTables
  import ArmourTables
  import WeaponServices
  import ArmourServices

  /** The result of `searchEquipmentByName`. */
  datatype Equipment = Equipment(armour: seq<Armour>, weapons: seq<Weapon>)

  /** The result of `getTabData`: an absent field is `undefined`. */
  datatype TabData = TabData(armourData: Option<seq<Armour>>, weaponData: Option<seq<WeaponTableRow>>)

  /** The result of `getAllEquipmentByType`. */
  datatype EquipmentByType = EquipmentByType(
    armourByType: map<string, seq<Armour>>,
    weaponsByType: map<string, seq<Weapon>>)

  /** `{ name, cost }` */
  datatype NameCost = NameCost(name: string, cost: string)

  /** The result of `getEquipmentCosts`. */
  datatype EquipmentCosts = EquipmentCosts(armourCosts: seq<NameCost>, weaponCosts: seq<NameCost>)

  /** `a => ({ name: a.name, cost: a.cost })` */
  function ArmourCost(a: Armour): NameCost
  {
    NameCost(a.name, a.cost)
  }

  /** `w => ({ name: w.name, cost: w.cost })` */
  function WeaponCost(w: Weapon): NameCost
  {
    NameCost(w.name, w.cost)
  }

  class SharedDataService {
    const armourService: ArmourServices.ArmourService
    const weaponService: WeaponServices.WeaponService

    /** Both stores keep their invariants. */
    predicate Valid()
      reads armourService.repository, weaponService.repository
    {
      armourService.repository.Valid() && weaponService.repository.Valid()
    }

    /** The constructor opens one armour service and one weapon service,
        each over a freshly seeded store: the fixture armour under ids 1 to
        13, and the property fixture and the fixture weapons. */
    constructor ()
      ensures fresh(armourService) && fresh(armourService.repository)
      ensures fresh(weaponService) && fresh(weaponService.repository)
      ensures Valid()
      ensures armourService.Seeded() && weaponService.Seeded()
    {
      armourService := new ArmourServices.ArmourService();
      weaponService := new WeaponServices.WeaponService();
    }

    /** `searchEquipmentByName`: the same term filters both catalogues by
        name, each in its listed order. */
    function SearchEquipmentByName(name: string): (r: Equipment)
      reads armourService.repository, weaponService.repository
      requires Valid()
      ensures r.armour == Filter(armourService.GetAllArmour(), ArmourServices.NameContains(name))
      ensures r.weapons == Filter(weaponService.GetAllWeapons(), WeaponServices.NameContains(name))
    {
      Equipment(armourService.SearchArmourByName(name), weaponService.SearchWeaponsByName(name))
    }

    /** `getTabData`: the tab name is compared lower-cased; "armour" gives
        only the armour list, "weapons" only the weapon display rows, and
        any other name neither. */
    function GetTabData(tab: string): (r: TabData)
      reads armourService.repository, weaponService.repository
      requires Valid()
      ensures r.armourData.Some? <==> Text.Lower(tab) == "armour"
      ensures r.weaponData.Some? <==> Text.Lower(tab) == "weapons"
      ensures r.armourData.None? || r.weaponData.None?
      ensures r.armourData.Some? ==> r.armourData.value == armourService.GetAllArmour()
      ensures r.weaponData.Some? ==> r.weaponData.value == weaponService.GetAllWeaponsForTable()
    {
      var t := Text.Lower(tab);
      if t == "armour" then TabData(Some(armourService.GetAllArmour()), None)
      else if t == "weapons" then TabData(None, Some(weaponService.GetAllWeaponsForTable()))
      else TabData(None, None)
    }

    /** `getAllEquipmentByType`: both services' groupings, unchanged. */
    method GetAllEquipmentByType() returns (r: EquipmentByType)
      requires Valid()
      ensures r.armourByType == GroupBy(armourService.GetAllArmour(), ArmourServices.TypeName)
      ensures r.weaponsByType == GroupBy(weaponService.GetAllWeapons(), WeaponServices.TypeName)
    {
      var armourByType := armourService.GetArmourByType();
      var weaponsByType := weaponService.GetWeaponsByType();
      r := EquipmentByType(armourByType, weaponsByType);
    }

    /** `getEquipmentCosts`: one `{ name, cost }` per stored armour and per
        stored weapon, in id order; the i-th carries the name and cost of
        what is stored under id i + 1. */
    function GetEquipmentCosts(): (r: EquipmentCosts)
      reads armourService.repository, weaponService.repository
      requires Valid()
      ensures |r.armourCosts| == |armourService.repository.armours|
      ensures forall i, a :: (0 <= i < |r.armourCosts| &&
        armourService.repository.Read(i + 1) == Some(ArmourTables.ArmourEntity(i + 1, a))) ==>
        r.armourCosts[i] == NameCost(a.name, a.cost)
      ensures |r.weaponCosts| == |weaponService.repository.weapons|
      ensures forall i, w :: (0 <= i < |r.weaponCosts| &&
        weaponService.repository.Read(i + 1) == Some(WeaponTables.WeaponEntity(i + 1, w))) ==>
        r.weaponCosts[i] == NameCost(w.name, w.cost)
    {
      EquipmentCosts(Map(armourService.GetAllArmour(), ArmourCost), Map(weaponService.GetAllWeapons(), WeaponCost))
    }
  }

  /** The tab name's case does not matter: a tab gives what its lower-cased
      name gives. */
  lemma {:induction false} TabDataIgnoresCase(s: SharedDataService, tab: string)
    requires s.Valid()
    ensures s.GetTabData(tab) == s.GetTabData(Text.Lower(tab))
  {
    Text.LowerIdempotent(tab);
  }
}

=== FILE: text.dfy ===
/** The JavaScript string built-ins the catalogue code relies on, over
    `seq<char>`: ASCII case mapping, substring search, the default
    `Array.prototype.sort` order (as code-point order; equal to
    JavaScript's code-unit order when no character lies outside the Basic
    Multilingual Plane), number printing, and `split`/`join` on one
    separator character. */
module Text {

  // ---------------------------------------------------------------------
  // Case mapping (`toLowerCase` / `toUpperCase`, ASCII letters only)
  // ---------------------------------------------------------------------

  predicate IsUpperLetter(c: char) { 'A' <= c <= 'Z' }

  predicate IsLowerLetter(c: char) { 'a' <= c <= 'z' }

  function LowerChar(c: char): char
  {
    if IsUpperLetter(c) then (c as int + 32) as char else c
  }

  function UpperChar(c: char): char
  {
    if IsLowerLetter(c) then (c as int - 32) as char else c
  }

  /** `s.toLowerCase()` */
  function Lower(s: string): string
  {
    seq(|s|, i requires 0 <= i < |s| => LowerChar(s[i]))
  }

  lemma LowerUpperChar(c: char)
    ensures LowerChar(UpperChar(c)) == LowerChar(c)
    ensures LowerChar(LowerChar(c)) == LowerChar(c)
  {
  }

  lemma {:induction false} LowerIdempotent(s: string)
    ensures Lower(Lower(s)) == s ==> Lower(s) == s
    ensures Lower(Lower(s)) == Lower(s)
  {
    forall i | 0 <= i < |s| ensures Lower(Lower(s))[i] == Lower(s)[i] {
      LowerUpperChar(s[i]);
    }
  }

  lemma LowerAppend(a: string, b: string)
    ensures Lower(a + b) == Lower(a) + Lower(b)
  {
  }

  // ---------------------------------------------------------------------
  // Substrings (`includes`, a literal regular expression, `LIKE '%q%'`)
  // ---------------------------------------------------------------------

  /** `p` occurs in `s` starting at index `i`. */
  predicate OccursAt(s: string, p: string, i: int)
  {
    0 <= i && i + |p| <= |s| && s[i..i + |p|] == p
  }

  /** `s.includes(p)`, and what a regular expression made of the single
      word `p` matches. */
  predicate Contains(s: string, p: string)
  {
    exists i :: 0 <= i <= |s| - |p| && OccursAt(s, p, i)
  }

  /** Character-by-character comparison of `p` with `s` at index `i`,
      from the `k`-th character of `p` on. */
  predicate MatchFrom(s: string, p: string, i: nat, k: nat)
    requires i + |p| <= |s| && k <= |p|
    decreases |p| - k
  {
    k == |p| || (s[i + k] == p[k] && MatchFrom(s, p, i, k + 1))
  }

  /** Index of the leftmost occurrence of `p` in `s` at or after `i`, or
      -1 (`indexOf`). */
  function IndexFrom(s: string, p: string, i: nat): (r: int)
    ensures r == -1 || (i <= r && OccursAt(s, p, r))
    ensures r == -1 ==> forall j :: i <= j ==> !OccursAt(s, p, j)
    ensures r != -1 ==> forall j :: i <= j < r ==> !OccursAt(s, p, j)
    decreases |s| - i
  {
    if i + |p| > |s| then -1
    else if MatchFrom(s, p, i, 0) then
      MatchFromIsOccurrence(s, p, i, 0);
      i
    else
      MatchFromIsOccurrence(s, p, i, 0);
      IndexFrom(s, p, i + 1)
  }

  lemma {:induction false} MatchFromIsOccurrence(s: string, p: string, i: nat, k: nat)
    requires i + |p| <= |s| && k <= |p|
    ensures MatchFrom(s, p, i, k) <==> s[i + k..i + |p|] == p[k..]
    decreases |p| - k
  {
    if k < |p| {
      MatchFromIsOccurrence(s, p, i, k + 1);
      assert s[i + k..i + |p|] == [s[i + k]] + s[i + k + 1..i + |p|];
      assert p[k..] == [p[k]] + p[k + 1..];
    }
  }

  lemma IndexFromDecides(s: string, p: string)
    ensures Contains(s, p) <==> IndexFrom(s, p, 0) != -1
  {
  }

  /** A substring shows every one of its characters in the string; the
      cheap way to refute an occurrence. */
  lemma ContainsHasChars(s: string, p: string, k: nat)
    requires Contains(s, p) && k < |p|
    ensures p[k] in s
  {
    var i :| 0 <= i <= |s| - |p| && OccursAt(s, p, i);
    assert s[i..i + |p|][k] == s[i + k];
  }

  /** A string lacking one character of `p` does not contain `p`. */
  lemma NoCharNoMatch(x: string, p: string, k: nat)
    requires k < |p| && p[k] !in x
    ensures !Contains(x, p)
  {
    if Contains(x, p) {
      ContainsHasChars(x, p, k);
    }
  }

  lemma ContainsAt(s: string, p: string, i: nat)
    requires OccursAt(s, p, i)
    ensures Contains(s, p)
  {
  }

  lemma ContainsItself(s: string)
    ensures Contains(s, s)
  {
    assert OccursAt(s, s, 0);
  }

  lemma ContainsInConcat(a: string, p: string, b: string)
    ensures Contains(a + p + b, p)
  {
    assert (a + p + b)[|a|..|a| + |p|] == p;
    assert OccursAt(a + p + b, p, |a|);
  }

  // ---------------------------------------------------------------------
  // Default sort order: lexicographic by character code
  // ---------------------------------------------------------------------

  /** `a` sorts no later than `b` under `Array.prototype.sort()`, taken in
      code-point order; equal to JavaScript's code-unit order when no
      character lies outside the Basic Multilingual Plane. */
  predicate Below(a: string, b: string)
  {
    |a| == 0 || (|b| > 0 && (a[0] < b[0] || (a[0] == b[0] && Below(a[1..], b[1..]))))
  }

  lemma {:induction false} BelowReflexive(a: string)
    ensures Below(a, a)
  {
    if |a| > 0 {
      BelowReflexive(a[1..]);
    }
  }

  lemma {:induction false} BelowTotal(a: string, b: string)
    ensures Below(a, b) || Below(b, a)
  {
    if |a| > 0 && |b| > 0 && a[0] == b[0] {
      BelowTotal(a[1..], b[1..]);
    }
  }

  lemma {:induction false} BelowTransitive(a: string, b: string, c: string)
    requires Below(a, b) && Below(b, c)
    ensures Below(a, c)
  {
    if |a| > 0 && a[0] == b[0] && b[0] == c[0] {
      BelowTransitive(a[1..], b[1..], c[1..]);
    }
  }

  lemma {:induction false} BelowAntisymmetric(a: string, b: string)
    requires Below(a, b) && Below(b, a)
    ensures a == b
  {
    if |a| > 0 {
      BelowAntisymmetric(a[1..], b[1..]);
      assert a == [a[0]] + a[1..];
      assert b == [b[0]] + b[1..];
    }
  }

  predicate Sorted(s: seq<string>)
  {
    forall i, j :: 0 <= i < j < |s| ==> Below(s[i], s[j])
  }

  /** Prepending an element that sorts below every element keeps a
      sequence sorted. */
  lemma ConsSorted(h: string, t: seq<string>)
    requires Sorted(t)
    requires forall k :: 0 <= k < |t| ==> Below(h, t[k])
    ensures Sorted([h] + t)
  {
    var r := [h] + t;
    forall i, j | 0 <= i < j < |r| ensures Below(r[i], r[j]) {
      if i > 0 { assert r[i] == t[i - 1] && r[j] == t[j - 1]; }
    }
  }

  /** What sorts below the head of a sorted sequence sorts below all of it. */
  lemma BelowHeadBelowAll(x: string, s: seq<string>)
    requires Sorted(s) && |s| > 0 && Below(x, s[0])
    ensures forall j :: 0 <= j < |s| ==> Below(x, s[j])
  {
    forall j | 0 <= j < |s| ensures Below(x, s[j]) {
      if j > 0 { BelowTransitive(x, s[0], s[j]); }
    }
  }

  /** The head of a sorted `s` sorts below everything in a rearrangement
      of its tail together with an `x` it sorts below. */
  lemma HeadBelowRest(x: string, s: seq<string>, tail: seq<string>)
    requires Sorted(s) && |s| > 0 && Below(s[0], x)
    requires multiset(tail) == multiset(s[1..]) + multiset{x}
    ensures forall k :: 0 <= k < |tail| ==> Below(s[0], tail[k])
  {
    forall k | 0 <= k < |tail| ensures Below(s[0], tail[k]) {
      assert tail[k] in multiset(tail);
      if tail[k] != x {
        assert tail[k] in multiset(s[1..]);
        var j :| 0 <= j < |s[1..]| && s[1..][j] == tail[k];
        assert s[j + 1] == tail[k];
      }
    }
  }

  /** Inserts `x` into the sorted `s` before the first element it sorts
      below. */
  function Insert(x: string, s: seq<string>): (r: seq<string>)
    requires Sorted(s)
    ensures Sorted(r)
    ensures multiset(r) == multiset(s) + multiset{x}
    ensures |r| == |s| + 1
  {
    if s == [] then [x]
    else if Below(x, s[0]) then
      BelowHeadBelowAll(x, s);
      ConsSorted(x, s);
      [x] + s
    else
      BelowTotal(x, s[0]);
      assert Sorted(s[1..]) by {
        forall i, j | 0 <= i < j < |s[1..]| ensures Below(s[1..][i], s[1..][j]) {
          assert s[1..][i] == s[i + 1] && s[1..][j] == s[j + 1];
        }
      }
      var tail := Insert(x, s[1..]);
      HeadBelowRest(x, s, tail);
      ConsSorted(s[0], tail);
      assert s == [s[0]] + s[1..];
      [s[0]] + tail
  }

  /** The default `sort()` / `toSorted()` of an array of strings. */
  function Sort(s: seq<string>): (r: seq<string>)
    ensures Sorted(r)
    ensures multiset(r) == multiset(s)
    ensures |r| == |s|
  {
    if s == [] then []
    else
      assert s == [s[0]] + s[1..];
      Insert(s[0], Sort(s[1..]))
  }

  /** Two sorted sequences with the same elements start alike. */
  lemma SortedSameHead(a: seq<string>, b: seq<string>)
    requires Sorted(a) && Sorted(b) && multiset(a) == multiset(b) && |a| > 0
    ensures |b| > 0 && a[0] == b[0]
  {
    assert a[0] in multiset(b);
    assert b[0] in multiset(a);
    var i :| 0 <= i < |b| && b[i] == a[0];
    var j :| 0 <= j < |a| && a[j] == b[0];
    if i > 0 { assert Below(b[0], b[i]); } else { BelowReflexive(b[0]); }
    if j > 0 { assert Below(a[0], a[j]); } else { BelowReflexive(a[0]); }
    BelowAntisymmetric(a[0], b[0]);
  }

  /** The tail of a sorted sequence is sorted, and holds the remaining
      elements. */
  lemma SortedTail(a: seq<string>)
    requires Sorted(a) && |a| > 0
    ensures Sorted(a[1..])
    ensures multiset(a[1..]) == multiset(a) - multiset{a[0]}
  {
    forall i, j | 0 <= i < j < |a[1..]| ensures Below(a[1..][i], a[1..][j]) {
      assert a[1..][i] == a[i + 1] && a[1..][j] == a[j + 1];
    }
    assert a == [a[0]] + a[1..];
    assert multiset(a) == multiset{a[0]} + multiset(a[1..]);
  }

  /** A sorted sequence is determined by its elements: the sort order is
      total and antisymmetric. */
  lemma {:induction false} SortedUnique(a: seq<string>, b: seq<string>)
    requires Sorted(a) && Sorted(b) && multiset(a) == multiset(b)
    ensures a == b
    decreases |a|
  {
    assert |a| == |multiset(a)| == |multiset(b)| == |b|;
    if |a| > 0 {
      SortedSameHead(a, b);
      SortedTail(a);
      SortedTail(b);
      SortedUnique(a[1..], b[1..]);
      assert a == [a[0]] + a[1..];
      assert b == [b[0]] + b[1..];
    }
  }

  lemma SortOfSorted(s: seq<string>)
    requires Sorted(s)
    ensures Sort(s) == s
  {
    SortedUnique(Sort(s), s);
  }

  lemma SortPermutationInvariant(a: seq<string>, b: seq<string>)
    requires multiset(a) == multiset(b)
    ensures Sort(a) == Sort(b)
  {
    SortedUnique(Sort(a), Sort(b));
  }

  // ---------------------------------------------------------------------
  // Filtering an array of strings by a regular expression
  // ---------------------------------------------------------------------

  /** `s.filter(x => !x.match(re))`, where `matches` says whether the
      regular expression matches `x`. */
  function Reject(s: seq<string>, matches: string -> bool): (r: seq<string>)
    ensures forall x :: x in r <==> x in s && !matches(x)
    ensures |r| <= |s|
  {
    if s == [] then []
    else
      assert s == [s[0]] + s[1..];
      (if matches(s[0]) then [] else [s[0]]) + Reject(s[1..], matches)
  }

  lemma {:induction false} RejectKeepsHead(x: string, s: seq<string>, matches: string -> bool)
    requires !matches(x)
    ensures Reject([x] + s, matches) == [x] + Reject(s, matches)
  {
    assert ([x] + s)[0] == x && ([x] + s)[1..] == s;
  }

  /** Filtering acts element by element, so it maps permutations to
      permutations. */
  lemma {:induction false} RejectMultiset(s: seq<string>, matches: string -> bool, x: string)
    ensures multiset(Reject(s, matches))[x] == if matches(x) then 0 else multiset(s)[x]
  {
    if s != [] {
      RejectMultiset(s[1..], matches, x);
      assert s == [s[0]] + s[1..];
    }
  }

  lemma RejectPermutation(a: seq<string>, b: seq<string>, matches: string -> bool)
    requires multiset(a) == multiset(b)
    ensures multiset(Reject(a, matches)) == multiset(Reject(b, matches))
  {
    forall x ensures multiset(Reject(a, matches))[x] == multiset(Reject(b, matches))[x] {
      RejectMultiset(a, matches, x);
      RejectMultiset(b, matches, x);
    }
  }

  // ---------------------------------------------------------------------
  // Printing a non-negative integer in a template string
  // ---------------------------------------------------------------------

  predicate IsDigit(c: char) { '0' <= c <= '9' }

  /** `${n}` for a non-negative integer `n`: its decimal digits. */
  function NatToString(n: nat): (r: string)
    ensures |r| > 0 && forall c :: c in r ==> IsDigit(c)
  {
    var d := ['0', '1', '2', '3', '4', '5', '6', '7', '8', '9'][n % 10];
    if n < 10 then [d] else NatToString(n / 10) + [d]
  }

  // ---------------------------------------------------------------------
  // `split(sep)` and `join(sep)` on one separator character
  // ---------------------------------------------------------------------

  function Count(s: string, c: char): nat
  {
    if s == [] then 0 else (if s[0] == c then 1 else 0) + Count(s[1..], c)
  }

  /** `s.split(sep)`: the maximal pieces between separators, so one more
      piece than there are separators; `"".split(sep)` is `[""]`. */
  function Split(s: string, sep: char): (r: seq<string>)
    ensures |r| == Count(s, sep) + 1
    ensures forall k :: 0 <= k < |r| ==> sep !in r[k]
  {
    if s == [] then [""]
    else if s[0] == sep then [""] + Split(s[1..], sep)
    else
      var rest := Split(s[1..], sep);
      [[s[0]] + rest[0]] + rest[1..]
  }

  /** `parts.join(sep)` */
  function Join(parts: seq<string>, sep: char): string
  {
    if parts == [] then ""
    else if |parts| == 1 then parts[0]
    else parts[0] + [sep] + Join(parts[1..], sep)
  }

  lemma {:induction false} JoinSplit(s: string, sep: char)
    ensures Join(Split(s, sep), sep) == s
  {
    if s != [] {
      JoinSplit(s[1..], sep);
      var rest := Split(s[1..], sep);
      if s[0] == sep {
        assert Split(s, sep)[1..] == rest;
      } else {
        var r := Split(s, sep);
        assert r[1..] == rest[1..];
        if |rest| > 1 {
          assert Join(rest, sep) == rest[0] + [sep] + Join(rest[1..], sep);
        }
      }
      assert s == [s[0]] + s[1..];
    }
  }

  lemma {:induction false} JoinLength(parts: seq<string>, sep: char)
    requires |parts| > 0
    ensures |Join(parts, sep)| == SumLengths(parts) + |parts| - 1
  {
    if |parts| > 1 {
      JoinLength(parts[1..], sep);
    }
  }

  function SumLengths(parts: seq<string>): nat
  {
    if parts == [] then 0 else |parts[0]| + SumLengths(parts[1..])
  }
}

=== FILE: weapon_entities.dfy ===
/** The constant catalogue of src/data/entities/weapon.entity.ts (the
    weapons and the property descriptions the stores are seeded with) and
    the flattened row shape of the `weapons` table. */
module WeaponEntities {
  import opened Wrappers
  import opened WeaponModel

  /** A row of the `weapons` table: a weapon without its tags, whose
      `range` is flattened into two nullable columns. */
  datatype WeaponDatabaseRow = WeaponDatabaseRow(
    id: nat,
    name: string,
    weaponType: WeaponType,
    cost: string,
    damageDie: Option<string>,
    damageType: Option<WeaponDamageType>,
    weight: Option<string>,
    rangeNormal: Option<nat>,
    rangeLong: Option<nat>,
    versatileDamageDie: Option<string>)

  /** The weapons every store is seeded with, in seeding order. */
  const WEAPONS: seq<Weapon> := [
    Weapon("Club", SimpleMelee, "1 sp", Some("1d4"), Some(Bludgeoning),
           Some("2 lb."), None, None,
           ["light"]),
    Weapon("Dagger", SimpleMelee, "2 gp", Some("1d4"), Some(Piercing),
           Some("1 lb."), Some(WeaponRange(20, 60)), None,
           ["finesse", "light", "range", "thrown"]),
    Weapon("Greatclub", SimpleMelee, "2 sp", Some("1d8"), Some(Bludgeoning),
           Some("10 lb."), None, None,
           ["two-handed"]),
    Weapon("Handaxe", SimpleMelee, "5 gp", Some("1d6"), Some(Slashing),
           Some("2 lb."), Some(WeaponRange(20, 60)), None,
           ["light", "range", "thrown"]),
    Weapon("Javelin", SimpleMelee, "5 sp", Some("1d6"), Some(Piercing),
           Some("2 lb."), Some(WeaponRange(30, 120)), None,
           ["range", "thrown"]),
    Weapon("Light hammer", SimpleMelee, "2 gp", Some("1d4"), Some(Bludgeoning),
           Some("2 lb."), Some(WeaponRange(20, 60)), None,
           ["light", "range", "thrown"]),
    Weapon("Mace", SimpleMelee, "5 gp", Some("1d6"), Some(Bludgeoning),
           Some("4 lb."), None, None,
           []),
    Weapon("Quarterstaff", SimpleMelee, "2 sp", Some("1d6"), Some(Bludgeoning),
           Some("4 lb."), None, Some("1d8"),
           ["versatile"]),
    Weapon("Sickle", SimpleMelee, "1 gp", Some("1d4"), Some(Slashing),
           Some("2 lb."), None, None,
           ["light"]),
    Weapon("Spear", SimpleMelee, "1 gp", Some("1d6"), Some(Piercing),
           Some("3 lb."), Some(WeaponRange(20, 60)), Some("1d8"),
           ["range", "thrown", "versatile"]),
    Weapon("Light crossbow", SimpleRanged, "25 gp", Some("1d8"), Some(Piercing),
           Some("5 lb."), Some(WeaponRange(80, 320)), None,
           ["ammunition", "loading", "two-handed"]),
    Weapon("Dart", SimpleRanged, "5 cp", Some("1d4"), Some(Piercing),
           Some("1/4 lb."), Some(WeaponRange(20, 60)), None,
           ["finesse", "range", "thrown"]),
    Weapon("Shortbow", SimpleRanged, "25 gp", Some("1d6"), Some(Piercing),
           Some("2 lb."), Some(WeaponRange(80, 120)), None,
           ["ammunition", "range"]),
    Weapon("Sling", SimpleRanged, "1 sp", Some("1d4"), Some(Bludgeoning),
           None, Some(WeaponRange(30, 120)), None,
           ["ammunition", "range"]),
    Weapon("Battleaxe", MartialMelee, "10 gp", Some("1d8"), Some(Slashing),
           Some("4 lb."), None, Some("1d10"),
           ["versatile"]),
    Weapon("Flail", MartialMelee, "10 gp", Some("1d8"), Some(Bludgeoning),
           Some("2 lb."), None, None,
           []),
    Weapon("Glaive", MartialMelee, "20 gp", Some("1d10"), Some(Slashing),
           Some("6 lb."), None, None,
           ["heavy", "reach", "two-handed"]),
    Weapon("Greataxe", MartialMelee, "30 gp", Some("1d12"), Some(Slashing),
           Some("7 lb."), None, None,
           ["heavy", "two-handed"]),
    Weapon("Greatsword", MartialMelee, "50 gp", Some("2d6"), Some(Slashing),
           Some("6 lb."), None, None,
           ["heavy", "two-handed"]),
    Weapon("Halberd", MartialMelee, "20 gp", Some("1d10"), Some(Slashing),
           Some("6 lb."), None, None,
           ["heavy", "reach", "two-handed"]),
    Weapon("Lance", MartialMelee, "10 gp", Some("1d12"), Some(Piercing),
           Some("6 lb."), None, None,
           ["lance", "reach"]),
    Weapon("Longsword", MartialMelee, "15 gp", Some("1d8"), Some(Slashing),
           Some("3 lb."), None, Some("1d10"),
           ["versatile"]),
    Weapon("Maul", MartialMelee, "10 gp", Some("2d6"), Some(Bludgeoning),
           Some("10 lb."), None, None,
           ["heavy", "two-handed"]),
    Weapon("Morningstar", MartialMelee, "15 gp", Some("1d8"), Some(Piercing),
           Some("4 lb."), None, None,
           []),
    Weapon("Pike", MartialMelee, "5 gp", Some("1d10"), Some(Piercing),
           Some("18 lb."), None, None,
           ["heavy", "reach", "two-handed"]),
    Weapon("Rapier", MartialMelee, "25 gp", Some("1d8"), Some(Piercing),
           Some("2 lb."), None, None,
           ["finesse"]),
    Weapon("Scimitar", MartialMelee, "25 gp", Some("1d6"), Some(Slashing),
           Some("3 lb."), None, None,
           ["finesse", "light"]),
    Weapon("Shortsword", MartialMelee, "10 gp", Some("1d6"), Some(Piercing),
           Some("2 lb."), None, None,
           ["finesse", "light"]),
    Weapon("Trident", MartialMelee, "5 gp", Some("1d6"), Some(Piercing),
           Some("4 lb."), Some(WeaponRange(20, 60)), Some("1d8"),
           ["range", "thrown", "versatile"]),
    Weapon("War pick", MartialMelee, "5 gp", Some("1d8"), Some(Piercing),
           Some("2 lb."), None, None,
           []),
    Weapon("Warhammer", MartialMelee, "15 gp", Some("1d8"), Some(Bludgeoning),
           Some("2 lb."), None, Some("1d10"),
           ["versatile"]),
    Weapon("Whip", MartialMelee, "2 gp", Some("1d4"), Some(Slashing),
           Some("3 lb."), None, None,
           ["finesse", "reach"]),
    Weapon("Blowgun", MartialRanged, "10 gp", Some("1"), Some(Piercing),
           Some("1 lb."), Some(WeaponRange(25, 100)), None,
           ["ammunition", "loading", "range"]),
    Weapon("Hand crossbow", MartialRanged, "75 gp", Some("1d6"), Some(Piercing),
           Some("3 lb."), Some(WeaponRange(30, 120)), None,
           ["ammunition", "light", "loading", "range"]),
    Weapon("Heavy crossbow", MartialRanged, "50 gp", Some("1d10"), Some(Piercing),
           Some("18 lb."), Some(WeaponRange(100, 400)), None,
           ["ammunition", "heavy", "loading", "range", "two-handed"]),
    Weapon("Longbow", MartialRanged, "50 gp", Some("1d8"), Some(Piercing),
           Some("2 lb."), Some(WeaponRange(150, 600)), None,
           ["ammunition", "heavy", "range", "two-handed"]),
    Weapon("Net", MartialRanged, "1 gp", None, None,
           Some("2 lb."), Some(WeaponRange(5, 15)), None,
           ["net", "range", "thrown"])
  ]

  /** The property vocabulary with the descriptions shown to the user. */
  const WEAPON_PROPERTIES: seq<WeaponProperty> := [
    WeaponProperty("ammunition", AMMUNITION_DESCRIPTION),
    WeaponProperty("finesse", FINESSE_DESCRIPTION),
    WeaponProperty("heavy", HEAVY_DESCRIPTION),
    WeaponProperty("lance", LANCE_DESCRIPTION),
    WeaponProperty("light", LIGHT_DESCRIPTION),
    WeaponProperty("loading", LOADING_DESCRIPTION),
    WeaponProperty("net", NET_DESCRIPTION),
    WeaponProperty("range", RANGE_DESCRIPTION),
    WeaponProperty("reach", REACH_DESCRIPTION),
    WeaponProperty("thrown", THROWN_DESCRIPTION),
    WeaponProperty("two-handed", TWO_HANDED_DESCRIPTION),
    WeaponProperty("versatile", VERSATILE_DESCRIPTION)
  ]

  // The rule texts are written as concatenations of short literals: the
  // verifier reasons about a short literal far more cheaply than a long one.
  const AMMUNITION_DESCRIPTION: string :=
    "You can use " + "a weapon that " + "has the ammunition " + "property to " + "make a ranged " +
    "attack only " + "if you have " + "ammunition to " + "fire from the " + "weapon. Each " +
    "time you attack " + "with the weapon, " + "you expend one " + "piece of ammunition. " + "Drawing the " +
    "ammunition from " + "a quiver, case, " + "or other container " + "is part of the " + "attack (you " +
    "need a free " + "hand to load " + "a one-handed " + "weapon). At " + "the end of the " +
    "battle,you can " + "recover half " + "your expended " + "ammunition by " + "taking a minute " +
    "to search the " + "battlefield.\n\tIf " + "you use a weapon " + "that has the " + "ammunition property " +
    "to make a melee " + "attack, you " + "treat the weapon " + "as an improvised " + "weapon.\n\tA sling " +
    "must be loaded " + "to deal any " + "damage when " + "used in this " + "way."

  const FINESSE_DESCRIPTION: string :=
    "When making " + "an attack with " + "a finesse weapon, " + "you use your " + "choice of your " +
    "Strength or " + "Dexterity modifier " + "for the attack " + "and damage rolls. " + "You must use " +
    "the same modifier " + "for both rolls."

  const HEAVY_DESCRIPTION: string :=
    "Small creatures " + "have disadvantage " + "on attack rolls " + "with heavy weapons. " + "A heavy weapon's " +
    "size and bulk " + "make it too " + "large for a " + "Small creature " + "to use effectively."

  const LANCE_DESCRIPTION: string :=
    "You have disadvantage " + "when you use " + "a lance to attack " + "a target within " + "5 feet of you. " +
    "Also, a lance " + "requires two " + "hands to wield " + "when you aren't " + "mounted."

  const LIGHT_DESCRIPTION: string :=
    "A light weapon " + "is small and " + "easy to handle, " + "making it ideal " + "for use when " +
    "fighting with " + "two weapons"

  const LOADING_DESCRIPTION: string :=
    "Because of the " + "time required " + "to load this " + "weapon, you " + "can fire only " +
    "one piece of " + "ammunition from " + "it when you " + "use an action, " + "bonus action, " +
    "or reaction " + "to fire it, " + "regardless of " + "the number of " + "attacks you " +
    "can normally " + "make."

  const NET_DESCRIPTION: string :=
    "A Large or smaller " + "creature hit " + "by a net is " + "restrained until " + "it is freed. " +
    "A net has no " + "effect on creatures " + "that are formless, " + "or creatures " + "that are Huge " +
    "or larger. A " + "creature can " + "use its action " + "to make a DC " + "10 Strength " +
    "check, freeing " + "itself or another " + "creature within " + "its reach on " + "a success. Dealing " +
    "5 slashing damage " + "to the net (AC " + "10) also frees " + "the creature " + "without harming " +
    "it, ending the " + "effect and destroying " + "the net.\n\tWhen " + "you use an action, " + "bonus action, " +
    "or reaction " + "to at- tack " + "with a net, " + "you can make " + "only one attack " +
    "regardless of " + "the number of " + "attacks you " + "can normally " + "make."

  const RANGE_DESCRIPTION: string :=
    "A weapon that " + "can be used " + "to make a ranged " + "attack has a " + "range shown " +
    "in parentheses " + "after the ammunition " + "or thrown property. " + "The range lists " + "two numbers. " +
    "The first is " + "the weapon's " + "normal range " + "in feet, and " + "the second indicates " +
    "the weapon's " + "long range. " + "When attacking " + "a target beyond " + "normal range, " +
    "you have disadvantage " + "on the attack " + "roll. You can't " + "attack a target " + "beyond the weapon's " +
    "long range."

  const REACH_DESCRIPTION: string :=
    "This weapon " + "adds 5 feet " + "to your reach " + "when you attack " + "with it, as " +
    "well as when " + "determining " + "your reach for " + "opportunity " + "attacks with " +
    "it"

  const THROWN_DESCRIPTION: string :=
    "If a weapon " + "has the thrown " + "property, you " + "can throw the " + "weapon to make " +
    "a ranged attack. " + "If the weapon " + "is a melee weapon, " + "you use the " + "same ability " +
    "modifier for " + "that attack " + "roll and damage " + "roll that you " + "would use for " +
    "a melee attack " + "with the weapon. " + "For example, " + "if you throw " + "a handaxe, you " +
    "use your Strength, " + "but if you throw " + "a dagger, you " + "can use either " + "your Strength " +
    "or your Dexterity, " + "since the dagger " + "has the finesse " + "property."

  const TWO_HANDED_DESCRIPTION: string :=
    "This weapon " + "requires two " + "hands when you " + "attack with " + "it."

  const VERSATILE_DESCRIPTION: string :=
    "This weapon " + "can be used " + "with one or " + "two hands. A " + "damage value " +
    "in parentheses " + "appears with " + "the property\U{E2}\U{20AC}\U{201D}the " + "damage when " + "the weapon is " +
    "used with two " + "hands to make " + "a melee attack."

  /** What every fixture weapon satisfies: its tags are in the vocabulary,
      it has a versatile die exactly when it is tagged `versatile`, its
      damage die and damage type come together, its range grows from normal
      to long, and none of its optional texts is empty. */
  predicate WellFormedFixtureWeapon(w: Weapon)
  {
    (forall t :: t in w.properties ==> t in WEAPON_PROPERTY_TYPES) &&
    (w.versatileDamageDie.Some? <==> "versatile" in w.properties) &&
    (w.damageDie.Some? <==> w.damageType.Some?) &&
    (w.range.Some? ==> 0 < w.range.value.normal < w.range.value.long) &&
    OrNull(w.damageDie) == w.damageDie &&
    OrNull(w.weight) == w.weight &&
    OrNull(w.versatileDamageDie) == w.versatileDamageDie
  }

  /** A decision tree on length and single characters that sends the name
      of the fixture weapon at index `k` to `k`; it makes the names'
      distinctness a matter of one evaluation per entry. */
  function WeaponSlot(s: string): int
  {
    if |s| == 3 then 36
    else if |s| == 4 then (if s[0] == 'C' then 0
      else if s[0] == 'D' then 11
      else if s[0] == 'M' then (if s[2] == 'c' then 6
        else if s[2] == 'u' then 22 else -1)
      else if s[0] == 'P' then 24
      else if s[0] == 'W' then 31 else -1)
    else if |s| == 5 then (if s[2] == 'a' then 15
      else if s[2] == 'e' then 9
      else if s[2] == 'i' then 13
      else if s[2] == 'n' then 20 else -1)
    else if |s| == 6 then (if s[0] == 'D' then 1
      else if s[0] == 'G' then 16
      else if s[0] == 'R' then 25
      else if s[0] == 'S' then 8 else -1)
    else if |s| == 7 then (if s[5] == 'i' then 4
      else if s[5] == 'n' then 28
      else if s[5] == 'o' then 35
      else if s[5] == 'r' then 19
      else if s[5] == 'u' then 32
      else if s[5] == 'x' then 3 else -1)
    else if |s| == 8 then (if s[1] == 'a' then 29
      else if s[1] == 'c' then 26
      else if s[1] == 'h' then 12
      else if s[1] == 'r' then 17 else -1)
    else if |s| == 9 then (if s[0] == 'B' then 14
      else if s[0] == 'G' then 2
      else if s[0] == 'L' then 21
      else if s[0] == 'W' then 30 else -1)
    else if |s| == 10 then (if s[0] == 'G' then 18
      else if s[0] == 'S' then 27 else -1)
    else if |s| == 11 then 23
    else if |s| == 12 then (if s[0] == 'L' then 5
      else if s[0] == 'Q' then 7 else -1)
    else if |s| == 13 then 33
    else if |s| == 14 then (if s[0] == 'H' then 34
      else if s[0] == 'L' then 10 else -1) else -1
  }

  lemma FixtureWeaponsFrom0()
    ensures forall k :: 0 <= k < 4 ==>
      WeaponSlot(WEAPONS[k].name) == k && WellFormedFixtureWeapon(WEAPONS[k])
  {
    forall k | 0 <= k < 4
      ensures WeaponSlot(WEAPONS[k].name) == k && WellFormedFixtureWeapon(WEAPONS[k])
    {
      if k == 0 { assert WEAPONS[0].name == "Club"; }
      else if k == 1 { assert WEAPONS[1].name == "Dagger"; }
      else if k == 2 { assert WEAPONS[2].name == "Greatclub"; }
      else if k == 3 { assert WEAPONS[3].name == "Handaxe"; }
    }
  }

  lemma FixtureWeaponsFrom4()
    ensures forall k :: 4 <= k < 8 ==>
      WeaponSlot(WEAPONS[k].name) == k && WellFormedFixtureWeapon(WEAPONS[k])
  {
    forall k | 4 <= k < 8
      ensures WeaponSlot(WEAPONS[k].name) == k && WellFormedFixtureWeapon(WEAPONS[k])
    {
      if k == 4 { assert WEAPONS[4].name == "Javelin"; }
      else if k == 5 { assert WEAPONS[5].name == "Light hammer"; }
      else if k == 6 { assert WEAPONS[6].name == "Mace"; }
      else if k == 7 { assert WEAPONS[7].name == "Quarterstaff"; }
    }
  }

  lemma FixtureWeaponsFrom8()
    ensures forall k :: 8 <= k < 12 ==>
      WeaponSlot(WEAPONS[k].name) == k && WellFormedFixtureWeapon(WEAPONS[k])
  {
    forall k | 8 <= k < 12
      ensures WeaponSlot(WEAPONS[k].name) == k && WellFormedFixtureWeapon(WEAPONS[k])
    {
      if k == 8 { assert WEAPONS[8].name == "Sickle"; }
      else if k == 9 { assert WEAPONS[9].name == "Spear"; }
      else if k == 10 { assert WEAPONS[10].name == "Light crossbow"; }
      else if k == 11 { assert WEAPONS[11].name == "Dart"; }
    }
  }

  lemma FixtureWeaponsFrom12()
    ensures forall k :: 12 <= k < 16 ==>
      WeaponSlot(WEAPONS[k].name) == k && WellFormedFixtureWeapon(WEAPONS[k])
  {
    forall k | 12 <= k < 16
      ensures WeaponSlot(WEAPONS[k].name) == k && WellFormedFixtureWeapon(WEAPONS[k])
    {
      if k == 12 { assert WEAPONS[12].name == "Shortbow"; }
      else if k == 13 { assert WEAPONS[13].name == "Sling"; }
      else if k == 14 { assert WEAPONS[14].name == "Battleaxe"; }
      else if k == 15 { assert WEAPONS[15].name == "Flail"; }
    }
  }

  lemma FixtureWeaponsFrom16()
    ensures forall k :: 16 <= k < 20 ==>
      WeaponSlot(WEAPONS[k].name) == k && WellFormedFixtureWeapon(WEAPONS[k])
  {
    forall k | 16 <= k < 20
      ensures WeaponSlot(WEAPONS[k].name) == k && WellFormedFixtureWeapon(WEAPONS[k])
    {
      if k == 16 { assert WEAPONS[16].name == "Glaive"; }
      else if k == 17 { assert WEAPONS[17].name == "Greataxe"; }
      else if k == 18 { assert WEAPONS[18].name == "Greatsword"; }
      else if k == 19 { assert WEAPONS[19].name == "Halberd"; }
    }
  }

  lemma FixtureWeaponsFrom20()
    ensures forall k :: 20 <= k < 24 ==>
      WeaponSlot(WEAPONS[k].name) == k && WellFormedFixtureWeapon(WEAPONS[k])
  {
    forall k | 20 <= k < 24
      ensures WeaponSlot(WEAPONS[k].name) == k && WellFormedFixtureWeapon(WEAPONS[k])
    {
      if k == 20 { assert WEAPONS[20].name == "Lance"; }
      else if k == 21 { assert WEAPONS[21].name == "Longsword"; }
      else if k == 22 { assert WEAPONS[22].name == "Maul"; }
      else if k == 23 { assert WEAPONS[23].name == "Morningstar"; }
    }
  }

  lemma FixtureWeaponsFrom24()
    ensures forall k :: 24 <= k < 28 ==>
      WeaponSlot(WEAPONS[k].name) == k && WellFormedFixtureWeapon(WEAPONS[k])
  {
    forall k | 24 <= k < 28
      ensures WeaponSlot(WEAPONS[k].name) == k && WellFormedFixtureWeapon(WEAPONS[k])
    {
      if k == 24 { assert WEAPONS[24].name == "Pike"; }
      else if k == 25 { assert WEAPONS[25].name == "Rapier"; }
      else if k == 26 { assert WEAPONS[26].name == "Scimitar"; }
      else if k == 27 { assert WEAPONS[27].name == "Shortsword"; }
    }
  }

  lemma FixtureWeaponsFrom28()
    ensures forall k :: 28 <= k < 32 ==>
      WeaponSlot(WEAPONS[k].name) == k && WellFormedFixtureWeapon(WEAPONS[k])
  {
    forall k | 28 <= k < 32
      ensures WeaponSlot(WEAPONS[k].name) == k && WellFormedFixtureWeapon(WEAPONS[k])
    {
      if k == 28 { assert WEAPONS[28].name == "Trident"; }
      else if k == 29 { assert WEAPONS[29].name == "War pick"; }
      else if k == 30 { assert WEAPONS[30].name == "Warhammer"; }
      else if k == 31 { assert WEAPONS[31].name == "Whip"; }
    }
  }

  lemma FixtureWeaponsFrom32()
    ensures forall k :: 32 <= k < 36 ==>
      WeaponSlot(WEAPONS[k].name) == k && WellFormedFixtureWeapon(WEAPONS[k])
  {
    forall k | 32 <= k < 36
      ensures WeaponSlot(WEAPONS[k].name) == k && WellFormedFixtureWeapon(WEAPONS[k])
    {
      if k == 32 { assert WEAPONS[32].name == "Blowgun"; }
      else if k == 33 { assert WEAPONS[33].name == "Hand crossbow"; }
      else if k == 34 { assert WEAPONS[34].name == "Heavy crossbow"; }
      else if k == 35 { assert WEAPONS[35].name == "Longbow"; }
    }
  }

  lemma FixtureWeaponsFrom36()
    ensures forall k :: 36 <= k < 37 ==>
      WeaponSlot(WEAPONS[k].name) == k && WellFormedFixtureWeapon(WEAPONS[k])
  {
    forall k | 36 <= k < 37
      ensures WeaponSlot(WEAPONS[k].name) == k && WellFormedFixtureWeapon(WEAPONS[k])
    {
      if k == 36 { assert WEAPONS[36].name == "Net"; }
    }
  }

  /** The 37 weapon names are pairwise distinct, as the `UNIQUE(name)`
      column of the `weapons` table requires. */
  lemma WeaponNamesDistinct()
    ensures |WEAPONS| == 37
    ensures forall i, j :: 0 <= i < j < |WEAPONS| ==> WEAPONS[i].name != WEAPONS[j].name
  {
    FixtureWeaponsFrom0();
    FixtureWeaponsFrom4();
    FixtureWeaponsFrom8();
    FixtureWeaponsFrom12();
    FixtureWeaponsFrom16();
    FixtureWeaponsFrom20();
    FixtureWeaponsFrom24();
    FixtureWeaponsFrom28();
    FixtureWeaponsFrom32();
    FixtureWeaponsFrom36();
    forall i, j | 0 <= i < j < |WEAPONS|
      ensures WEAPONS[i].name != WEAPONS[j].name
    {
      assert WeaponSlot(WEAPONS[i].name) == i && WeaponSlot(WEAPONS[j].name) == j;
    }
  }

  /** Every fixture weapon is well formed; in particular every tag it uses
      is in the vocabulary, so seeding never meets an unknown tag. */
  lemma WeaponFixtureWellFormed()
    ensures forall k :: 0 <= k < |WEAPONS| ==> WellFormedFixtureWeapon(WEAPONS[k])
  {
    FixtureWeaponsFrom0();
    FixtureWeaponsFrom4();
    FixtureWeaponsFrom8();
    FixtureWeaponsFrom12();
    FixtureWeaponsFrom16();
    FixtureWeaponsFrom20();
    FixtureWeaponsFrom24();
    FixtureWeaponsFrom28();
    FixtureWeaponsFrom32();
    FixtureWeaponsFrom36();
  }

  /** A range does not imply a `range` tag: the light crossbow has a range
      and is tagged only `ammunition`, `loading` and `two-handed`. */
  lemma RangeWithoutRangeTag()
    ensures WEAPONS[10].name == "Light crossbow"
    ensures WEAPONS[10].range == Some(WeaponRange(80, 320))
    ensures "range" !in WEAPONS[10].properties
  {
  }

  /** Only the net has no damage. */
  lemma OnlyNetLacksDamage()
    ensures forall k :: 0 <= k < |WEAPONS| ==> (WEAPONS[k].damageDie.None? <==> k == 36)
    ensures WEAPONS[36].name == "Net"
  {
    WeaponNamesDistinct();
  }

  /** The vocabulary in the order of the property fixture. */
  function PropertySlot(s: string): int
  {
    if |s| == 3 then 6
    else if |s| == 5 then (if s[3] == 'c' then (if s[0] == 'l' then 3
        else if s[0] == 'r' then 8 else -1)
      else if s[3] == 'g' then 7
      else if s[3] == 'h' then 4
      else if s[3] == 'v' then 2 else -1)
    else if |s| == 6 then 9
    else if |s| == 7 then (if s[0] == 'f' then 1
      else if s[0] == 'l' then 5 else -1)
    else if |s| == 9 then 11
    else if |s| == 10 then (if s[0] == 'a' then 0
      else if s[0] == 't' then 10 else -1) else -1
  }

  /** The twelve vocabulary names are pairwise distinct. */
  lemma VocabularyDistinct()
    ensures |WEAPON_PROPERTY_TYPES| == 12
    ensures forall i, j :: 0 <= i < j < |WEAPON_PROPERTY_TYPES| ==> WEAPON_PROPERTY_TYPES[i] != WEAPON_PROPERTY_TYPES[j]
  {
    forall k | 0 <= k < |WEAPON_PROPERTY_TYPES|
      ensures PropertySlot(WEAPON_PROPERTY_TYPES[k]) == k
    {
      if k == 0 { assert WEAPON_PROPERTY_TYPES[0] == "ammunition"; }
      else if k == 1 { assert WEAPON_PROPERTY_TYPES[1] == "finesse"; }
      else if k == 2 { assert WEAPON_PROPERTY_TYPES[2] == "heavy"; }
      else if k == 3 { assert WEAPON_PROPERTY_TYPES[3] == "lance"; }
      else if k == 4 { assert WEAPON_PROPERTY_TYPES[4] == "light"; }
      else if k == 5 { assert WEAPON_PROPERTY_TYPES[5] == "loading"; }
      else if k == 6 { assert WEAPON_PROPERTY_TYPES[6] == "net"; }
      else if k == 7 { assert WEAPON_PROPERTY_TYPES[7] == "range"; }
      else if k == 8 { assert WEAPON_PROPERTY_TYPES[8] == "reach"; }
      else if k == 9 { assert WEAPON_PROPERTY_TYPES[9] == "thrown"; }
      else if k == 10 { assert WEAPON_PROPERTY_TYPES[10] == "two-handed"; }
      else if k == 11 { assert WEAPON_PROPERTY_TYPES[11] == "versatile"; }
    }
    forall i, j | 0 <= i < j < |WEAPON_PROPERTY_TYPES|
      ensures WEAPON_PROPERTY_TYPES[i] != WEAPON_PROPERTY_TYPES[j]
    {
      assert PropertySlot(WEAPON_PROPERTY_TYPES[i]) == i && PropertySlot(WEAPON_PROPERTY_TYPES[j]) == j;
    }
  }

  /** The property fixture lists the vocabulary in order. */
  lemma PropertyFixtureNames()
    ensures |WEAPON_PROPERTIES| == |WEAPON_PROPERTY_TYPES|
    ensures forall k :: 0 <= k < |WEAPON_PROPERTIES| ==> WEAPON_PROPERTIES[k].name == WEAPON_PROPERTY_TYPES[k]
  {
  }

  // One lemma per rule text: each is cheap alone, expensive together.
  lemma AmmunitionTextGiven() ensures AMMUNITION_DESCRIPTION != "" {}
  lemma FinesseTextGiven() ensures FINESSE_DESCRIPTION != "" {}
  lemma HeavyTextGiven() ensures HEAVY_DESCRIPTION != "" {}
  lemma LanceTextGiven() ensures LANCE_DESCRIPTION != "" {}
  lemma LightTextGiven() ensures LIGHT_DESCRIPTION != "" {}
  lemma LoadingTextGiven() ensures LOADING_DESCRIPTION != "" {}
  lemma NetTextGiven() ensures NET_DESCRIPTION != "" {}
  lemma RangeTextGiven() ensures RANGE_DESCRIPTION != "" {}
  lemma ReachTextGiven() ensures REACH_DESCRIPTION != "" {}
  lemma ThrownTextGiven() ensures THROWN_DESCRIPTION != "" {}
  lemma TwoHandedTextGiven() ensures TWO_HANDED_DESCRIPTION != "" {}
  lemma VersatileTextGiven() ensures VERSATILE_DESCRIPTION != "" {}

  /** No rule text is empty. */
  lemma RuleTextsGiven()
    ensures "" !in {
      AMMUNITION_DESCRIPTION,
      FINESSE_DESCRIPTION,
      HEAVY_DESCRIPTION,
      LANCE_DESCRIPTION,
      LIGHT_DESCRIPTION,
      LOADING_DESCRIPTION,
      NET_DESCRIPTION,
      RANGE_DESCRIPTION,
      REACH_DESCRIPTION,
      THROWN_DESCRIPTION,
      TWO_HANDED_DESCRIPTION,
      VERSATILE_DESCRIPTION
    }
  {
    AmmunitionTextGiven();
    FinesseTextGiven();
    HeavyTextGiven();
    LanceTextGiven();
    LightTextGiven();
    LoadingTextGiven();
    NetTextGiven();
    RangeTextGiven();
    ReachTextGiven();
    ThrownTextGiven();
    TwoHandedTextGiven();
    VersatileTextGiven();
  }

  /** Every entry of the property fixture carries one of the rule texts. */
  lemma PropertyFixtureTexts()
    ensures forall k :: 0 <= k < |WEAPON_PROPERTIES| ==> WEAPON_PROPERTIES[k].description in {
      AMMUNITION_DESCRIPTION,
      FINESSE_DESCRIPTION,
      HEAVY_DESCRIPTION,
      LANCE_DESCRIPTION,
      LIGHT_DESCRIPTION,
      LOADING_DESCRIPTION,
      NET_DESCRIPTION,
      RANGE_DESCRIPTION,
      REACH_DESCRIPTION,
      THROWN_DESCRIPTION,
      TWO_HANDED_DESCRIPTION,
      VERSATILE_DESCRIPTION
    }
  {
  }

  /** Every rule text of the property fixture is non-empty. */
  lemma PropertyFixtureDescribed()
    ensures forall k :: 0 <= k < |WEAPON_PROPERTIES| ==> WEAPON_PROPERTIES[k].description != ""
  {
    RuleTextsGiven();
    PropertyFixtureTexts();
  }

  /** The property fixture names exactly the vocabulary, in order, so the 12
      names are pairwise distinct, and describes every one of them. */
  lemma PropertyFixtureIsVocabulary()
    ensures |WEAPON_PROPERTIES| == |WEAPON_PROPERTY_TYPES| == 12
    ensures forall k :: 0 <= k < |WEAPON_PROPERTIES| ==> WEAPON_PROPERTIES[k].name == WEAPON_PROPERTY_TYPES[k]
    ensures forall i, j :: 0 <= i < j < |WEAPON_PROPERTIES| ==> WEAPON_PROPERTIES[i].name != WEAPON_PROPERTIES[j].name
    ensures forall k :: 0 <= k < |WEAPON_PROPERTIES| ==> WEAPON_PROPERTIES[k].description != ""
  {
    VocabularyDistinct();
    PropertyFixtureNames();
    PropertyFixtureDescribed();
  }
}

=== FILE: weapon_model.dfy ===
/** The weapon shapes and the rewrite of a weapon into a display row
    (src/model/weapon.ts). */
module WeaponModel {
  import opened Wrappers
  import opened Text

  datatype WeaponType = SimpleMelee | SimpleRanged | MartialMelee | MartialRanged
  {
    function Name(): string
    {
      match this
      case SimpleMelee => "Simple Melee"
      case SimpleRanged => "Simple Ranged"
      case MartialMelee => "Martial Melee"
      case MartialRanged => "Martial Ranged"
    }
  }

  datatype WeaponDamageType = Bludgeoning | Piercing | Slashing
  {
    function Name(): string
    {
      match this
      case Bludgeoning => "bludgeoning"
      case Piercing => "piercing"
      case Slashing => "slashing"
    }
  }

  /** Normal and long range, in feet. */
  datatype WeaponRange = WeaponRange(normal: nat, long: nat)

  /** The property vocabulary (`WeaponPropertyType`). */
  const WEAPON_PROPERTY_TYPES: seq<string> :=
    ["ammunition", "finesse", "heavy", "lance", "light", "loading",
     "net", "range", "reach", "thrown", "two-handed", "versatile"]

  /** A weapon. Property tags are kept as the strings they are at run time,
      so that a tag outside the vocabulary can be represented. An absent
      optional field (`undefined` or `null`) is `None`. */
  datatype Weapon = Weapon(
    name: string,
    weaponType: WeaponType,
    cost: string,
    damageDie: Option<string>,
    damageType: Option<WeaponDamageType>,
    weight: Option<string>,
    range: Option<WeaponRange>,
    versatileDamageDie: Option<string>,
    properties: seq<string>)

  datatype WeaponTableRow = WeaponTableRow(
    name: string,
    weaponType: WeaponType,
    cost: string,
    weight: Option<string>,
    damage: Option<string>,
    properties: seq<string>)

  datatype WeaponProperty = WeaponProperty(name: string, description: string)

  /** JavaScript truthiness of an optional string: present and not `""`. */
  predicate Truthy(o: Option<string>)
  {
    o.Some? && o.value != ""
  }

  /** `value || null` */
  function OrNull(o: Option<string>): (r: Option<string>)
    ensures r.Some? <==> Truthy(o)
    ensures r.Some? ==> r == o
  {
    if Truthy(o) then o else None
  }

  function RangeText(r: WeaponRange): string
  {
    "(range " + NatToString(r.normal) + "/" + NatToString(r.long) + ")"
  }

  function AmmunitionToken(r: WeaponRange): string
  {
    "ammunition " + RangeText(r)
  }

  function ThrownToken(r: WeaponRange): string
  {
    "thrown " + RangeText(r)
  }

  function VersatileToken(die: string): string
  {
    "versatile (" + die + ")"
  }

  /** `/ammunition|range/` matches. */
  predicate AmmunitionOrRange(x: string)
  {
    Contains(x, "ammunition") || Contains(x, "range")
  }

  /** `/range|thrown/` matches. */
  predicate RangeOrThrown(x: string)
  {
    Contains(x, "range") || Contains(x, "thrown")
  }

  /** `'versatile'`, used as a regular expression, matches. */
  predicate VersatileWord(x: string)
  {
    Contains(x, "versatile")
  }

  /** The `damage` column: die, type and the word "damage", or null. */
  function Damage(w: Weapon): Option<string>
  {
    if Truthy(w.damageDie) && w.damageType.Some? then
      Some(w.damageDie.value + " " + w.damageType.value.Name() + " damage")
    else None
  }

  /** Rule 1: ammunition and a range become one token, put first. */
  function CombineAmmunition(props: seq<string>, range: Option<WeaponRange>): seq<string>
  {
    if range.Some? && "ammunition" in props then
      [AmmunitionToken(range.value)] + Reject(props, AmmunitionOrRange)
    else props
  }

  /** Rule 2: thrown and a range become one token; the list is re-sorted. */
  function CombineThrown(props: seq<string>, range: Option<WeaponRange>): seq<string>
  {
    if range.Some? && "thrown" in props then
      Sort(Reject(props, RangeOrThrown) + [ThrownToken(range.value)])
    else props
  }

  /** Rule 3: versatile and its die become one token, put last. */
  function CombineVersatile(props: seq<string>, die: Option<string>): seq<string>
  {
    if Truthy(die) && "versatile" in props then
      Reject(props, VersatileWord) + [VersatileToken(die.value)]
    else props
  }

  /** The `properties` column of the display row. */
  function TableRowProperties(w: Weapon): seq<string>
  {
    CombineVersatile(
      CombineThrown(CombineAmmunition(Sort(w.properties), w.range), w.range),
      w.versatileDamageDie)
  }

  /** The display row of a weapon; the specification of
      `ConvertWeaponToWeaponTableRow`. */
  function TableRowOf(w: Weapon): WeaponTableRow
  {
    WeaponTableRow(w.name, w.weaponType, w.cost, OrNull(w.weight), Damage(w), TableRowProperties(w))
  }

  /** `convertWeaponToWeaponTableRow`: the property list is a local array
      that is filtered, prepended to, appended to and sorted in turn. */
  method ConvertWeaponToWeaponTableRow(weapon: Weapon) returns (row: WeaponTableRow)
    ensures row == TableRowOf(weapon)
  {
    var damage: Option<string> := None;
    if Truthy(weapon.damageDie) && weapon.damageType.Some? {
      damage := Some(weapon.damageDie.value + " " + weapon.damageType.value.Name() + " damage");
    }
    var properties := Sort(weapon.properties);

    if weapon.range.Some? && "ammunition" in properties {
      properties := Reject(properties, AmmunitionOrRange);
      properties := [AmmunitionToken(weapon.range.value)] + properties;
    }

    if weapon.range.Some? && "thrown" in properties {
      properties := Reject(properties, RangeOrThrown);
      properties := properties + [ThrownToken(weapon.range.value)];
      properties := Sort(properties);
    }

    if Truthy(weapon.versatileDamageDie) && "versatile" in properties {
      properties := Reject(properties, VersatileWord);
      properties := properties + [VersatileToken(weapon.versatileDamageDie.value)];
    }

    var weight := if Truthy(weapon.weight) then weapon.weight else None;
    row := WeaponTableRow(weapon.name, weapon.weaponType, weapon.cost, weight, damage, properties);
  }

  // ---------------------------------------------------------------------
  // Which tokens the three filters remove
  // ---------------------------------------------------------------------

  lemma RangeTextChars(r: WeaponRange)
    ensures 'v' !in RangeText(r) && 'w' !in RangeText(r) && 'm' !in RangeText(r)
  {
    var a, b := NatToString(r.normal), NatToString(r.long);
    assert RangeText(r) == "(range " + a + "/" + b + ")";
  }

  /** The combined ammunition token is removed by the ammunition and the
      thrown filters (it contains "range") and kept by the versatile one. */
  lemma AmmunitionTokenMatches(r: WeaponRange)
    ensures AmmunitionOrRange(AmmunitionToken(r))
    ensures RangeOrThrown(AmmunitionToken(r))
    ensures !VersatileWord(AmmunitionToken(r))
  {
    var t := AmmunitionToken(r);
    ContainsInConcat("ammunition (", "range", t[17..]);
    assert t == "ammunition (" + "range" + t[17..];
    RangeTextChars(r);
    assert 'v' !in t;
    NoCharNoMatch(t, "versatile", 0);
  }

  lemma ThrownTokenMatches(r: WeaponRange)
    ensures RangeOrThrown(ThrownToken(r))
    ensures !VersatileWord(ThrownToken(r))
  {
    var t := ThrownToken(r);
    ContainsInConcat("", "thrown", t[6..]);
    assert t == "" + "thrown" + t[6..];
    RangeTextChars(r);
    assert 'v' !in t;
    NoCharNoMatch(t, "versatile", 0);
  }

  lemma VersatileTokenMatches(die: string)
    ensures VersatileWord(VersatileToken(die))
  {
    ContainsInConcat("", "versatile", " (" + die + ")");
    assert VersatileToken(die) == "" + "versatile" + (" (" + die + ")");
  }

  lemma BareTagMatches(tag: string)
    ensures tag == "ammunition" || tag == "range" ==> AmmunitionOrRange(tag)
    ensures tag == "range" || tag == "thrown" ==> RangeOrThrown(tag)
    ensures tag == "versatile" ==> VersatileWord(tag)
    ensures tag == "versatile" ==> !AmmunitionOrRange(tag) && !RangeOrThrown(tag)
    ensures tag == "thrown" ==> !AmmunitionOrRange(tag)
  {
    ContainsItself(tag);
    if tag == "versatile" {
      NoCharNoMatch(tag, "ammunition", 1);
      NoCharNoMatch(tag, "range", 3);
      NoCharNoMatch(tag, "thrown", 1);
    }
    if tag == "thrown" {
      NoCharNoMatch(tag, "ammunition", 0);
      NoCharNoMatch(tag, "range", 1);
    }
  }

  // ---------------------------------------------------------------------
  // What each step keeps, adds and removes
  // ---------------------------------------------------------------------

  lemma SortMembers(s: seq<string>)
    ensures forall x :: x in Sort(s) <==> x in s
  {
    forall x ensures x in Sort(s) <==> x in s {
      assert x in Sort(s) <==> x in multiset(Sort(s));
      assert x in s <==> x in multiset(s);
    }
  }

  lemma AmmunitionStep(s: seq<string>, r: WeaponRange)
    requires "ammunition" in s
    ensures CombineAmmunition(s, Some(r)) == [AmmunitionToken(r)] + Reject(s, AmmunitionOrRange)
    ensures "ammunition" !in CombineAmmunition(s, Some(r)) && "range" !in CombineAmmunition(s, Some(r))
    ensures forall x :: x in s && x != "ammunition" && x != "range" && !AmmunitionOrRange(x) ==>
      x in CombineAmmunition(s, Some(r))
    ensures forall x :: x in CombineAmmunition(s, Some(r)) ==> x in s || x == AmmunitionToken(r)
  {
    BareTagMatches("ammunition");
    BareTagMatches("range");
    assert AmmunitionToken(r)[..10] == "ammunition";
  }

  lemma ThrownStep(s: seq<string>, r: WeaponRange)
    requires "thrown" in s
    ensures CombineThrown(s, Some(r)) == Sort(Reject(s, RangeOrThrown) + [ThrownToken(r)])
    ensures "thrown" !in CombineThrown(s, Some(r)) && "range" !in CombineThrown(s, Some(r))
    ensures ThrownToken(r) in CombineThrown(s, Some(r))
    ensures forall x :: x in CombineThrown(s, Some(r)) <==> x == ThrownToken(r) || (x in s && !RangeOrThrown(x))
  {
    BareTagMatches("range");
    BareTagMatches("thrown");
    ThrownTokenMatches(r);
    var u := Reject(s, RangeOrThrown) + [ThrownToken(r)];
    SortMembers(u);
  }

  lemma VersatileStep(s: seq<string>, die: Option<string>)
    ensures forall x :: x in CombineVersatile(s, die) ==>
      x in s || (Truthy(die) && x == VersatileToken(die.value))
    ensures forall x :: x in s && !VersatileWord(x) ==> x in CombineVersatile(s, die)
    ensures Truthy(die) && "versatile" in s ==>
      CombineVersatile(s, die) == Reject(s, VersatileWord) + [VersatileToken(die.value)] &&
      "versatile" !in CombineVersatile(s, die)
  {
    if Truthy(die) && "versatile" in s {
      BareTagMatches("versatile");
      assert VersatileToken(die.value)[..9] == "versatile";
    }
  }

  /** The versatile token is longer than every bare tag it could be
      confused with. */
  lemma VersatileTokenIsNoBareTag(die: string)
    ensures VersatileToken(die) != "ammunition" && VersatileToken(die) != "range"
    ensures VersatileToken(die) != "thrown" && VersatileToken(die) != "versatile"
  {
    assert |VersatileToken(die)| >= 12;
  }

  // ---------------------------------------------------------------------
  // Properties of the display row
  // ---------------------------------------------------------------------

  /** `damage` is "<die> <type> damage" exactly when both are present. */
  lemma DamageColumn(w: Weapon)
    ensures TableRowOf(w).damage.Some? <==> Truthy(w.damageDie) && w.damageType.Some?
    ensures TableRowOf(w).damage.Some? ==>
      TableRowOf(w).damage.value == w.damageDie.value + " " + w.damageType.value.Name() + " damage"
  {
  }

  /** Name, type and cost are copied; an absent weight becomes null. */
  lemma PlainColumns(w: Weapon)
    ensures TableRowOf(w).name == w.name && TableRowOf(w).weaponType == w.weaponType
    ensures TableRowOf(w).cost == w.cost
    ensures w.weight.None? ==> TableRowOf(w).weight.None?
    ensures Truthy(w.weight) ==> TableRowOf(w).weight == w.weight
  {
  }

  /** With no rule firing, the column is the tags in sorted order: a sorted
      permutation of the input. */
  lemma NoRuleFires(w: Weapon)
    requires w.range.None? || ("ammunition" !in w.properties && "thrown" !in w.properties)
    requires !Truthy(w.versatileDamageDie) || "versatile" !in w.properties
    ensures TableRowProperties(w) == Sort(w.properties)
    ensures Sorted(TableRowProperties(w)) && multiset(TableRowProperties(w)) == multiset(w.properties)
  {
    SortMembers(w.properties);
  }

  /** Tags already in sorted order come back unchanged when no rule fires. */
  lemma NoRuleFiresSorted(w: Weapon)
    requires w.range.None? || ("ammunition" !in w.properties && "thrown" !in w.properties)
    requires !Truthy(w.versatileDamageDie) || "versatile" !in w.properties
    requires Sorted(w.properties)
    ensures TableRowProperties(w) == w.properties
  {
    NoRuleFires(w);
    SortOfSorted(w.properties);
  }

  /** Rule 1: with a range and `ammunition` (and no `thrown`), the combined
      token comes first and neither bare `ammunition` nor `range` remains. */
  lemma AmmunitionRule(w: Weapon)
    requires w.range.Some? && "ammunition" in w.properties && "thrown" !in w.properties
    ensures |TableRowProperties(w)| > 0
    ensures TableRowProperties(w)[0] == AmmunitionToken(w.range.value)
    ensures "ammunition" !in TableRowProperties(w) && "range" !in TableRowProperties(w)
  {
    var r := w.range.value;
    var s := Sort(w.properties);
    SortMembers(w.properties);
    AmmunitionStep(s, r);
    var a := CombineAmmunition(s, w.range);
    var rest := Reject(s, AmmunitionOrRange);
    assert "thrown" !in a by {
      assert AmmunitionToken(r)[..6] == "ammuni";
    }
    assert CombineThrown(a, w.range) == a;
    var die := w.versatileDamageDie;
    VersatileStep(a, die);
    if Truthy(die) && "versatile" in a {
      AmmunitionTokenMatches(r);
      RejectKeepsHead(AmmunitionToken(r), rest, VersatileWord);
      VersatileTokenIsNoBareTag(die.value);
    }
  }

  /** Rule 2: with a range and `thrown` (and no `ammunition`), `range` and
      `thrown` give way to the combined token; the versatile rule may still
      move its own token to the end. */
  lemma ThrownRule(w: Weapon)
    requires w.range.Some? && "thrown" in w.properties && "ammunition" !in w.properties
    ensures ThrownToken(w.range.value) in TableRowProperties(w)
    ensures "thrown" !in TableRowProperties(w) && "range" !in TableRowProperties(w)
  {
    var r := w.range.value;
    var s := Sort(w.properties);
    SortMembers(w.properties);
    assert CombineAmmunition(s, w.range) == s;
    ThrownStep(s, r);
    var t := CombineThrown(s, w.range);
    var die := w.versatileDamageDie;
    VersatileStep(t, die);
    ThrownTokenMatches(r);
    if Truthy(die) {
      VersatileTokenIsNoBareTag(die.value);
    }
  }

  /** Rule 2, without the versatile rule: the whole list is re-sorted with
      the thrown token in its sorted place. */
  lemma ThrownRuleSorted(w: Weapon)
    requires w.range.Some? && "thrown" in w.properties && "ammunition" !in w.properties
    requires !Truthy(w.versatileDamageDie) || "versatile" !in w.properties
    ensures TableRowProperties(w) == Sort(Reject(w.properties, RangeOrThrown) + [ThrownToken(w.range.value)])
    ensures Sorted(TableRowProperties(w))
  {
    var r := w.range.value;
    var s := Sort(w.properties);
    SortMembers(w.properties);
    assert CombineAmmunition(s, w.range) == s;
    var t := CombineThrown(s, w.range);
    if Truthy(w.versatileDamageDie) {
      ThrownStepKeepsOut(s, r, "versatile");
    }
    assert TableRowProperties(w) == t;
    ThrownSortedFromInput(w.properties, r);
  }

  /** A bare tag other than `thrown` and `range` that the thrown step does
      not find does not appear after it either. */
  lemma ThrownStepKeepsOut(s: seq<string>, r: WeaponRange, tag: string)
    requires "thrown" in s && tag !in s && |tag| > 0 && tag[0] != 't'
    ensures tag !in CombineThrown(s, Some(r))
  {
    ThrownStep(s, r);
    assert ThrownToken(r)[0] == 't';
  }

  lemma ThrownSortedFromInput(props: seq<string>, r: WeaponRange)
    ensures Sort(Reject(Sort(props), RangeOrThrown) + [ThrownToken(r)])
         == Sort(Reject(props, RangeOrThrown) + [ThrownToken(r)])
  {
    var u := Reject(Sort(props), RangeOrThrown) + [ThrownToken(r)];
    var u' := Reject(props, RangeOrThrown) + [ThrownToken(r)];
    RejectPermutation(Sort(props), props, RangeOrThrown);
    assert multiset(u) == multiset(u');
    SortPermutationInvariant(u, u');
  }

  lemma VersatileSurvives(w: Weapon)
    requires "versatile" in w.properties
    ensures "versatile" in CombineThrown(CombineAmmunition(Sort(w.properties), w.range), w.range)
  {
    var s := Sort(w.properties);
    SortMembers(w.properties);
    BareTagMatches("versatile");
    var a := CombineAmmunition(s, w.range);
    if w.range.Some? && "ammunition" in s {
      AmmunitionStep(s, w.range.value);
    }
    assert "versatile" in a;
    if w.range.Some? && "thrown" in a {
      ThrownStep(a, w.range.value);
    }
  }

  /** Rule 3: with a versatile die and the `versatile` tag, the bare tag is
      replaced by the combined token, appended last without re-sorting. */
  lemma VersatileRule(w: Weapon)
    requires Truthy(w.versatileDamageDie) && "versatile" in w.properties
    ensures |TableRowProperties(w)| > 0
    ensures TableRowProperties(w)[|TableRowProperties(w)| - 1] == VersatileToken(w.versatileDamageDie.value)
    ensures "versatile" !in TableRowProperties(w)
  {
    VersatileSurvives(w);
    var t := CombineThrown(CombineAmmunition(Sort(w.properties), w.range), w.range);
    VersatileStep(t, w.versatileDamageDie);
  }

  /** A range without `ammunition` or `thrown` keeps the bare `range` tag. */
  lemma RangeAloneStaysBare(w: Weapon)
    requires "range" in w.properties && "ammunition" !in w.properties && "thrown" !in w.properties
    ensures "range" in TableRowProperties(w)
  {
    var s := Sort(w.properties);
    SortMembers(w.properties);
    assert CombineThrown(CombineAmmunition(s, w.range), w.range) == s;
    VersatileStep(s, w.versatileDamageDie);
    NoCharNoMatch("range", "versatile", 0);
  }

  /** `ammunition` without a range keeps its bare tag. */
  lemma AmmunitionAloneStaysBare(w: Weapon)
    requires "ammunition" in w.properties && w.range.None?
    ensures "ammunition" in TableRowProperties(w)
  {
    var s := Sort(w.properties);
    SortMembers(w.properties);
    assert CombineThrown(CombineAmmunition(s, w.range), w.range) == s;
    VersatileStep(s, w.versatileDamageDie);
    NoCharNoMatch("ammunition", "versatile", 0);
  }

  /** `versatile` without a die keeps its bare tag. */
  lemma VersatileAloneStaysBare(w: Weapon)
    requires "versatile" in w.properties && !Truthy(w.versatileDamageDie)
    ensures "versatile" in TableRowProperties(w)
  {
    VersatileSurvives(w);
  }

  /** With a range, `ammunition` and `thrown` all present, the thrown
      filter also deletes the combined ammunition token. */
  lemma AmmunitionTokenLostToThrown(w: Weapon)
    requires w.range.Some? && "ammunition" in w.properties && "thrown" in w.properties
    ensures AmmunitionToken(w.range.value) !in TableRowProperties(w)
    ensures "ammunition" !in TableRowProperties(w)
    ensures ThrownToken(w.range.value) in TableRowProperties(w)
  {
    var r := w.range.value;
    var s := Sort(w.properties);
    SortMembers(w.properties);
    AmmunitionStep(s, r);
    var a := CombineAmmunition(s, w.range);
    BareTagMatches("thrown");
    assert "thrown" in a;
    AmmunitionTokenMatches(r);
    ThrownStep(a, r);
    var t := CombineThrown(a, w.range);
    var die := w.versatileDamageDie;
    VersatileStep(t, die);
    ThrownTokenMatches(r);
    if Truthy(die) {
      VersatileTokenIsNoBareTag(die.value);
      assert VersatileToken(die.value) != AmmunitionToken(r) by {
        assert VersatileToken(die.value)[0] == 'v';
      }
    }
  }
}

=== FILE: weapon_seed.dfy ===
/** The two weapon stores seeded from the fixture into empty tables
    (`insertInitialData` in src/data/repositories/weapon.repository.ts and
    in src/database/weapon-repository/weapon-repository.ts). */
module WeaponSeed {
  import opened Wrappers
  import opened Sequences
  import opened WeaponModel
  import opened WeaponEntities
  import opened WeaponTables

  /** The error prefix of the store in src/data. */
  const DATA_PREFIX: string := "No description found for weapon property: "

  /** The error prefix of the store in src/database. */
  const LEGACY_PREFIX: string := "No description found weapon property: "

  /** Seeding in src/data: the whole property fixture, then the weapons. */
  function DataSeed(t: Tables): Result<Tables, string>
  {
    SeedAll(WEAPON_PROPERTIES, t, WEAPON_PROPERTIES, WEAPONS, DATA_PREFIX)
  }

  /** Seeding in src/database: the weapons only; properties follow the
      tags. */
  function LegacySeed(t: Tables): Result<Tables, string>
  {
    SeedAll(WEAPON_PROPERTIES, t, [], WEAPONS, LEGACY_PREFIX)
  }

  /** A property list that names the vocabulary in order, each with a
      non-empty description, as the property fixture does. */
  predicate NamesVocabulary(fixture: seq<WeaponProperty>)
  {
    |fixture| == |WEAPON_PROPERTY_TYPES| &&
    (forall k :: 0 <= k < |fixture| ==> fixture[k].name == WEAPON_PROPERTY_TYPES[k]) &&
    forall k :: 0 <= k < |fixture| ==> fixture[k].description != ""
  }

  /** A vocabulary tag is stored in such a list and described by it. */
  lemma VocabularyTagDescribed(fixture: seq<WeaponProperty>, tag: string)
    requires NamesVocabulary(fixture) && tag in WEAPON_PROPERTY_TYPES
    ensures PropertyIndexByName(fixture, tag).Some?
    ensures Truthy(Description(fixture, tag))
  {
    var i :| 0 <= i < |WEAPON_PROPERTY_TYPES| && WEAPON_PROPERTY_TYPES[i] == tag;
    assert fixture[i].name == tag;
  }

  /** No tag of well-formed fixture weapons is unknown against such a list,
      whatever the property table holds. */
  lemma WellFormedTagsKnown(fixture: seq<WeaponProperty>, ws: seq<Weapon>, ps: seq<WeaponProperty>)
    requires NamesVocabulary(fixture)
    requires forall k :: 0 <= k < |ws| ==> WellFormedFixtureWeapon(ws[k])
    ensures forall k, j :: 0 <= k < |ws| && 0 <= j < |ws[k].properties| ==>
      !Unknown(fixture, ps, ws[k].properties[j])
    ensures forall k, j :: 0 <= k < |ws| && 0 <= j < |ws[k].properties| ==>
      PropertyIndexByName(fixture, ws[k].properties[j]).Some?
  {
    forall k, j | 0 <= k < |ws| && 0 <= j < |ws[k].properties|
      ensures !Unknown(fixture, ps, ws[k].properties[j])
      ensures PropertyIndexByName(fixture, ws[k].properties[j]).Some?
    {
      assert ws[k].properties[j] in ws[k].properties;
      VocabularyTagDescribed(fixture, ws[k].properties[j]);
    }
  }

  /** Seeding empty tables with well-formed weapons of distinct names
      creates them all, in list order, after the listed properties. */
  lemma SeedFromEmpty(fixture: seq<WeaponProperty>, seed: seq<WeaponProperty>, ws: seq<Weapon>, prefix: string)
    requires NamesVocabulary(fixture) && PropertyNamesUnique(seed) && DistinctNames(ws)
    requires forall k :: 0 <= k < |ws| ==> WellFormedFixtureWeapon(ws[k])
    ensures SeedAll(fixture, EMPTY, seed, ws, prefix).Success?
    ensures SeededFrom(fixture, EMPTY.(properties := seed), ws, SeedAll(fixture, EMPTY, seed, ws, prefix).value)
  {
    assert [] + seed == seed;
    SeedPropertiesFresh([], seed);
    WellFormedTagsKnown(fixture, ws, seed);
    SeedWeaponsFresh(fixture, EMPTY.(properties := seed), ws, prefix);
  }

  /** Seeding in src/data with a property list naming the vocabulary
      stores that list as it is, so property ids follow its order. */
  lemma SeedWithVocabulary(fixture: seq<WeaponProperty>, ws: seq<Weapon>, prefix: string)
    requires NamesVocabulary(fixture) && PropertyNamesUnique(fixture) && DistinctNames(ws)
    requires forall k :: 0 <= k < |ws| ==> WellFormedFixtureWeapon(ws[k])
    ensures SeedAll(fixture, EMPTY, fixture, ws, prefix).Success?
    ensures var t := SeedAll(fixture, EMPTY, fixture, ws, prefix).value;
      t.properties == fixture && SeededFrom(fixture, EMPTY.(properties := fixture), ws, t)
  {
    SeedFromEmpty(fixture, fixture, ws, prefix);
    assert [] + fixture == fixture;
    SeedPropertiesFresh([], fixture);
    WellFormedTagsKnown(fixture, ws, fixture);
    SeedWeaponsKeepsProperties(fixture, EMPTY.(properties := fixture), ws, prefix);
  }

  /** Seeding in src/data fills empty tables with the property fixture as
      it is, so property ids follow its order, and with one row per fixture
      weapon under its 1-based position, linked to exactly its tags. */
  lemma DataSeedFromEmpty()
    ensures DataSeed(EMPTY).Success?
    ensures var t := DataSeed(EMPTY).value;
      t.properties == WEAPON_PROPERTIES && SeededFrom(WEAPON_PROPERTIES, EMPTY.(properties := WEAPON_PROPERTIES), WEAPONS, t)
  {
    PropertyFixtureIsVocabulary();
    WeaponNamesDistinct();
    WeaponFixtureWellFormed();
    SeedWithVocabulary(WEAPON_PROPERTIES, WEAPONS, DATA_PREFIX);
  }

  /** Seeding in src/database fills empty tables with the same weapon rows
      and links, and creates property rows only for the tags the weapons
      use, each a fixture entry. */
  lemma LegacySeedFromEmpty()
    ensures LegacySeed(EMPTY).Success?
    ensures SeededFrom(WEAPON_PROPERTIES, EMPTY, WEAPONS, LegacySeed(EMPTY).value)
  {
    PropertyFixtureIsVocabulary();
    WeaponNamesDistinct();
    WeaponFixtureWellFormed();
    SeedFromEmpty(WEAPON_PROPERTIES, [], WEAPONS, LEGACY_PREFIX);
    assert EMPTY.(properties := []) == EMPTY;
  }

  /** The property rows seeding in src/database creates: one per tag, in
      the order the fixture weapons first use the tags, each with its
      fixture description. */
  lemma LegacySeedProperties()
    ensures LegacySeed(EMPTY).Success?
    ensures LegacySeed(EMPTY).value.properties == FixtureEntries(WEAPON_PROPERTIES, FirstAppearances(WEAPONS))
    ensures FirstAppearances(WEAPONS) == FIRST_USE_ORDER
  {
    PropertyFixtureIsVocabulary();
    WeaponNamesDistinct();
    WeaponFixtureWellFormed();
    LazySeedFromEmpty(WEAPON_PROPERTIES, WEAPONS, LEGACY_PREFIX);
    FirstUseOrder(WEAPONS);
  }

  /** What the store in src/database holds after seeding empty tables. */
  lemma LegacySeeded(t: Tables)
    requires Success(t) == LegacySeed(EMPTY)
    ensures SeededFrom(WEAPON_PROPERTIES, EMPTY, WEAPONS, t)
    ensures t.properties == FixtureEntries(WEAPON_PROPERTIES, FirstAppearances(WEAPONS))
    ensures FirstAppearances(WEAPONS) == FIRST_USE_ORDER
    ensures |t.properties| == 12
    ensures t.properties[4].name == "two-handed" && t.properties[10].name == "lance"
  {
    LegacySeedFromEmpty();
    LegacySeedProperties();
    FirstUseEntries(WEAPON_PROPERTIES);
  }

  /** Rows created for those tags are twelve, named in that order:
      `two-handed` under id 5 and `lance` under id 11. */
  lemma FirstUseEntries(fixture: seq<WeaponProperty>)
    ensures |FixtureEntries(fixture, FIRST_USE_ORDER)| == 12
    ensures forall k :: 0 <= k < 12 ==> FixtureEntries(fixture, FIRST_USE_ORDER)[k].name == FIRST_USE_ORDER[k]
    ensures FixtureEntries(fixture, FIRST_USE_ORDER)[4].name == "two-handed"
    ensures FixtureEntries(fixture, FIRST_USE_ORDER)[10].name == "lance"
  {
  }

  /** Seeding well-formed weapons with distinct names into empty tables,
      with no property list, creates one property row per tag, in the order
      the weapons first use the tags, each with its description. */
  lemma LazySeedFromEmpty(fixture: seq<WeaponProperty>, ws: seq<Weapon>, prefix: string)
    requires NamesVocabulary(fixture) && DistinctNames(ws)
    requires forall k :: 0 <= k < |ws| ==> WellFormedFixtureWeapon(ws[k])
    ensures SeedAll(fixture, EMPTY, [], ws, prefix).Success?
    ensures SeedAll(fixture, EMPTY, [], ws, prefix).value.properties == FixtureEntries(fixture, FirstAppearances(ws))
  {
    SeedAllWeaponsOnly(fixture, EMPTY, ws, prefix);
    WellFormedTagsKnown(fixture, ws, []);
    assert FixtureEntries(fixture, []) == [];
    SeedWeaponsEntries(fixture, EMPTY, [], ws, prefix);
  }

  /** The tags in the order the fixture weapons first use them. */
  const FIRST_USE_ORDER: seq<string> :=
    ["light", "finesse", "range", "thrown", "two-handed", "versatile",
     "ammunition", "loading", "heavy", "reach", "lance", "net"]

  // The order is followed weapon by weapon: the tags of the fixture
  // weapons are read off the fixture in small lemmas, what each weapon that
  // uses a new tag adds is computed on the lists alone, and the steps join
  // the two.

  /** The tags first used by the weapons up to the dagger, the greatclub,
      the quarterstaff, the light crossbow, the glaive and the lance. */
  const AFTER_DAGGER: seq<string> := ["light", "finesse", "range", "thrown"]
  const AFTER_GREATCLUB: seq<string> := ["light", "finesse", "range", "thrown", "two-handed"]
  const AFTER_QUARTERSTAFF: seq<string> := ["light", "finesse", "range", "thrown", "two-handed", "versatile"]
  const AFTER_LIGHT_CROSSBOW: seq<string> :=
    ["light", "finesse", "range", "thrown", "two-handed", "versatile", "ammunition", "loading"]
  const AFTER_GLAIVE: seq<string> :=
    ["light", "finesse", "range", "thrown", "two-handed", "versatile", "ammunition", "loading", "heavy", "reach"]
  const AFTER_LANCE: seq<string> :=
    ["light", "finesse", "range", "thrown", "two-handed", "versatile", "ammunition", "loading", "heavy", "reach", "lance"]

  /** The tags of the weapons that use a tag for the first time. */
  lemma FirstUsers(ws: seq<Weapon>)
    requires ws == WEAPONS
    ensures |ws| == 37
    ensures ws[0].properties == ["light"]
    ensures ws[1].properties == ["finesse", "light", "range", "thrown"]
  {
  }

  lemma FirstUsersFrom2(ws: seq<Weapon>)
    requires ws == WEAPONS
    ensures ws[2].properties == ["two-handed"]
    ensures ws[7].properties == ["versatile"]
  {
  }

  lemma FirstUsersFrom10(ws: seq<Weapon>)
    requires ws == WEAPONS
    ensures ws[10].properties == ["ammunition", "loading", "two-handed"]
    ensures ws[16].properties == ["heavy", "reach", "two-handed"]
  {
  }

  lemma FirstUsersFrom20(ws: seq<Weapon>)
    requires ws == WEAPONS
    ensures ws[20].properties == ["lance", "reach"]
    ensures ws[36].properties == ["net", "range", "thrown"]
  {
  }

  lemma KnownAfterGreatclub(ws: seq<Weapon>)
    requires ws == WEAPONS
    ensures TagsWithin(ws, 3, 7, AFTER_GREATCLUB)
  {
    KnownAfterGreatclubFrom5(ws);
    forall k, j | 3 <= k < 5 && 0 <= j < |ws[k].properties| ensures ws[k].properties[j] in AFTER_GREATCLUB {
      if k == 3 { assert ws[3].properties == ["light", "range", "thrown"]; }
      else if k == 4 { assert ws[4].properties == ["range", "thrown"]; }
    }
  }

  lemma KnownAfterGreatclubFrom5(ws: seq<Weapon>)
    requires ws == WEAPONS
    ensures TagsWithin(ws, 5, 7, AFTER_GREATCLUB)
  {
    forall k, j | 5 <= k < 7 && 0 <= j < |ws[k].properties| ensures ws[k].properties[j] in AFTER_GREATCLUB {
      if k == 5 { assert ws[5].properties == ["light", "range", "thrown"]; }
    }
  }

  lemma KnownAfterQuarterstaff(ws: seq<Weapon>)
    requires ws == WEAPONS
    ensures TagsWithin(ws, 8, 10, AFTER_QUARTERSTAFF)
  {
    forall k, j | 8 <= k < 10 && 0 <= j < |ws[k].properties| ensures ws[k].properties[j] in AFTER_QUARTERSTAFF {
      if k == 8 { assert ws[8].properties == ["light"]; }
      else if k == 9 { assert ws[9].properties == ["range", "thrown", "versatile"]; }
    }
  }

  lemma KnownAfterLightCrossbow(ws: seq<Weapon>)
    requires ws == WEAPONS
    ensures TagsWithin(ws, 11, 16, AFTER_LIGHT_CROSSBOW)
  {
    KnownAfterLightCrossbowFrom13(ws);
    forall k, j | 11 <= k < 13 && 0 <= j < |ws[k].properties| ensures ws[k].properties[j] in AFTER_LIGHT_CROSSBOW {
      if k == 11 { assert ws[11].properties == ["finesse", "range", "thrown"]; }
      else if k == 12 { assert ws[12].properties == ["ammunition", "range"]; }
    }
  }

  lemma KnownAfterLightCrossbowFrom13(ws: seq<Weapon>)
    requires ws == WEAPONS
    ensures TagsWithin(ws, 13, 16, AFTER_LIGHT_CROSSBOW)
  {
    forall k, j | 13 <= k < 16 && 0 <= j < |ws[k].properties| ensures ws[k].properties[j] in AFTER_LIGHT_CROSSBOW {
      if k == 13 { assert ws[13].properties == ["ammunition", "range"]; }
      else if k == 14 { assert ws[14].properties == ["versatile"]; }
    }
  }

  lemma KnownAfterGlaive(ws: seq<Weapon>)
    requires ws == WEAPONS
    ensures TagsWithin(ws, 17, 20, AFTER_GLAIVE)
  {
    forall k, j | 17 <= k < 20 && 0 <= j < |ws[k].properties| ensures ws[k].properties[j] in AFTER_GLAIVE {
      if k == 17 { assert ws[17].properties == ["heavy", "two-handed"]; }
      else if k == 18 { assert ws[18].properties == ["heavy", "two-handed"]; }
      else if k == 19 { assert ws[19].properties == ["heavy", "reach", "two-handed"]; }
    }
  }

  lemma KnownAfterLance(ws: seq<Weapon>)
    requires ws == WEAPONS
    ensures TagsWithin(ws, 21, 36, AFTER_LANCE)
  {
    KnownAfterLanceFrom21(ws);
    KnownAfterLanceFrom26(ws);
    KnownAfterLanceFrom31(ws);
  }

  lemma KnownAfterLanceFrom21(ws: seq<Weapon>)
    requires ws == WEAPONS
    ensures TagsWithin(ws, 21, 26, AFTER_LANCE)
  {
    forall k, j | 21 <= k < 26 && 0 <= j < |ws[k].properties| ensures ws[k].properties[j] in AFTER_LANCE {
      if k == 21 { assert ws[21].properties == ["versatile"]; }
      else if k == 22 { assert ws[22].properties == ["heavy", "two-handed"]; }
      else if k == 24 { assert ws[24].properties == ["heavy", "reach", "two-handed"]; }
      else if k == 25 { assert ws[25].properties == ["finesse"]; }
    }
  }

  lemma KnownAfterLanceFrom26(ws: seq<Weapon>)
    requires ws == WEAPONS
    ensures TagsWithin(ws, 26, 31, AFTER_LANCE)
  {
    forall k, j | 26 <= k < 31 && 0 <= j < |ws[k].properties| ensures ws[k].properties[j] in AFTER_LANCE {
      if k == 26 { assert ws[26].properties == ["finesse", "light"]; }
      else if k == 27 { assert ws[27].properties == ["finesse", "light"]; }
      else if k == 28 { assert ws[28].properties == ["range", "thrown", "versatile"]; }
      else if k == 30 { assert ws[30].properties == ["versatile"]; }
    }
  }

  lemma KnownAfterLanceFrom31(ws: seq<Weapon>)
    requires ws == WEAPONS
    ensures TagsWithin(ws, 31, 36, AFTER_LANCE)
  {
    forall k, j | 31 <= k < 36 && 0 <= j < |ws[k].properties| ensures ws[k].properties[j] in AFTER_LANCE {
      if k == 31 { assert ws[31].properties == ["finesse", "reach"]; }
      else if k == 32 { assert ws[32].properties == ["ammunition", "loading", "range"]; }
      else if k == 33 { assert ws[33].properties == ["ammunition", "light", "loading", "range"]; }
      else if k == 34 { assert ws[34].properties == ["ammunition", "heavy", "loading", "range", "two-handed"]; }
      else if k == 35 { assert ws[35].properties == ["ammunition", "heavy", "range", "two-handed"]; }
    }
  }

  /** What the dagger adds after the club. */
  lemma DaggerAdds()
    ensures AddNew(["light"], ["finesse", "light", "range", "thrown"]) == AFTER_DAGGER
  {
    assert ["finesse", "light", "range", "thrown"] == ["finesse"] + ["light"] + ["range", "thrown"];
    AddNewAppend(["light"], ["finesse"] + ["light"], ["range", "thrown"]);
    AddNewAppend(["light"], ["finesse"], ["light"]);
    AddNewFresh(["light"], ["finesse"]);
    AddNewKnown(["light", "finesse"], ["light"]);
    AddNewFresh(["light", "finesse"], ["range", "thrown"]);
  }

  /** What the light crossbow adds. */
  lemma LightCrossbowAdds()
    ensures AddNew(AFTER_QUARTERSTAFF, ["ammunition", "loading", "two-handed"]) == AFTER_LIGHT_CROSSBOW
  {
    assert ["ammunition", "loading", "two-handed"] == ["ammunition", "loading"] + ["two-handed"];
    AddNewAppend(AFTER_QUARTERSTAFF, ["ammunition", "loading"], ["two-handed"]);
    AddNewFresh(AFTER_QUARTERSTAFF, ["ammunition", "loading"]);
    AddNewKnown(AFTER_LIGHT_CROSSBOW, ["two-handed"]);
  }

  /** What the glaive adds. */
  lemma GlaiveAdds()
    ensures AddNew(AFTER_LIGHT_CROSSBOW, ["heavy", "reach", "two-handed"]) == AFTER_GLAIVE
  {
    assert ["heavy", "reach", "two-handed"] == ["heavy", "reach"] + ["two-handed"];
    AddNewAppend(AFTER_LIGHT_CROSSBOW, ["heavy", "reach"], ["two-handed"]);
    AddNewFresh(AFTER_LIGHT_CROSSBOW, ["heavy", "reach"]);
    AddNewKnown(AFTER_GLAIVE, ["two-handed"]);
  }

  /** What the lance adds. */
  lemma LanceAdds()
    ensures AddNew(AFTER_GLAIVE, ["lance", "reach"]) == AFTER_LANCE
  {
    assert ["lance", "reach"] == ["lance"] + ["reach"];
    AddNewAppend(AFTER_GLAIVE, ["lance"], ["reach"]);
    AddNewFresh(AFTER_GLAIVE, ["lance"]);
    AddNewKnown(AFTER_LANCE, ["reach"]);
  }

  /** What the net adds. */
  lemma NetAdds()
    ensures AddNew(AFTER_LANCE, ["net", "range", "thrown"]) == FIRST_USE_ORDER
  {
    assert ["net", "range", "thrown"] == ["net"] + ["range", "thrown"];
    AddNewAppend(AFTER_LANCE, ["net"], ["range", "thrown"]);
    AddNewFresh(AFTER_LANCE, ["net"]);
    AddNewKnown(FIRST_USE_ORDER, ["range", "thrown"]);
  }

  /** What the club, the greatclub and the quarterstaff add. */
  lemma EarlyAdds()
    ensures AddNew([], ["light"]) == ["light"]
    ensures AddNew(AFTER_DAGGER, ["two-handed"]) == AFTER_GREATCLUB
    ensures AddNew(AFTER_GREATCLUB, ["versatile"]) == AFTER_QUARTERSTAFF
  {
    AddNewFresh([], ["light"]);
    AddNewFresh(AFTER_DAGGER, ["two-handed"]);
    AddNewFresh(AFTER_GREATCLUB, ["versatile"]);
  }

  lemma FirstUseToQuarterstaff(ws: seq<Weapon>)
    requires ws == WEAPONS
    ensures FirstAppearances(ws[..10]) == AFTER_QUARTERSTAFF
  {
    FirstUsers(ws);
    FirstUsersFrom2(ws);
    assert ws[..0] == [];
    EarlyAdds();
    FirstAppearancesThrough(ws, 0, 1, [], ["light"]);
    DaggerAdds();
    FirstAppearancesThrough(ws, 1, 2, ["light"], AFTER_DAGGER);
    KnownAfterGreatclub(ws);
    FirstAppearancesThrough(ws, 2, 7, AFTER_DAGGER, AFTER_GREATCLUB);
    KnownAfterQuarterstaff(ws);
    FirstAppearancesThrough(ws, 7, 10, AFTER_GREATCLUB, AFTER_QUARTERSTAFF);
  }

  /** The fixture weapons first use their tags in `FIRST_USE_ORDER`; the
      net, the last weapon, is the first to use `net`. */
  lemma FirstUseOrder(ws: seq<Weapon>)
    requires ws == WEAPONS
    ensures FirstAppearances(ws) == FIRST_USE_ORDER
  {
    FirstUseToQuarterstaff(ws);
    FirstUsersFrom10(ws);
    FirstUsersFrom20(ws);
    LightCrossbowAdds();
    KnownAfterLightCrossbow(ws);
    FirstAppearancesThrough(ws, 10, 16, AFTER_QUARTERSTAFF, AFTER_LIGHT_CROSSBOW);
    GlaiveAdds();
    KnownAfterGlaive(ws);
    FirstAppearancesThrough(ws, 16, 20, AFTER_LIGHT_CROSSBOW, AFTER_GLAIVE);
    LanceAdds();
    KnownAfterLance(ws);
    FirstAppearancesThrough(ws, 20, 36, AFTER_GLAIVE, AFTER_LANCE);
    NetAdds();
    FirstAppearancesThrough(ws, 36, 37, AFTER_LANCE, FIRST_USE_ORDER);
    assert ws[..37] == ws;
  }
}

=== FILE: weapon_service.dfy ===
/** The weapon service of src/data/services/weapon.service.ts: projections
    of the weapon store's reads, and the grouping of the weapons by type,
    which the source builds with a `reduce` that pushes into an
    accumulator. */
module WeaponServices {
  import opened Wrappers
  import Text
  import opened Sequences
  import opened WeaponModel
  import opened WeaponEntities
  import opened WeaponTables
  import WeaponStore

  /** `({ id, ...weapon }) => weapon` */
  function WeaponOf(e: WeaponEntity): Weapon
  {
    e.weapon
  }

  /** `({ id, ...property }) => property` */
  function PropertyOf(e: WeaponPropertyEntity): WeaponProperty
  {
    e.property
  }

  /** `weapon.type`, the key the weapons are grouped under. */
  function TypeName(w: Weapon): string
  {
    w.weaponType.Name()
  }

  /** The test of `searchWeaponsByName`, on weapons. */
  function NameContains(query: string): Weapon -> bool
  {
    (w: Weapon) => Text.Contains(w.name, query)
  }

  /** `weapon => weapon.type.includes(part)` */
  function TypeContains(part: string): Weapon -> bool
  {
    (w: Weapon) => Text.Contains(w.weaponType.Name(), part)
  }

  /** `weapon => weapon.properties.includes(tag)` */
  function HasTag(tag: string): Weapon -> bool
  {
    (w: Weapon) => tag in w.properties
  }

  /** Which weapon types the four substring filters select. */
  lemma TypeNameParts(t: WeaponType)
    ensures Text.Contains(t.Name(), "Simple") <==> t == SimpleMelee || t == SimpleRanged
    ensures Text.Contains(t.Name(), "Martial") <==> t == MartialMelee || t == MartialRanged
    ensures Text.Contains(t.Name(), "Melee") <==> t == SimpleMelee || t == MartialMelee
    ensures Text.Contains(t.Name(), "Ranged") <==> t == SimpleRanged || t == MartialRanged
  {
    match t
    case SimpleMelee => SimpleMeleeParts();
    case SimpleRanged => SimpleRangedParts();
    case MartialMelee => MartialMeleeParts();
    case MartialRanged => MartialRangedParts();
  }

  lemma SimpleMeleeParts()
    ensures Text.Contains("Simple Melee", "Simple") && Text.Contains("Simple Melee", "Melee")
    ensures !Text.Contains("Simple Melee", "Martial") && !Text.Contains("Simple Melee", "Ranged")
  {
    var s := "Simple Melee";
    Text.ContainsAt(s, "Simple", 0);
    Text.ContainsAt(s, "Melee", 7);
    Text.NoCharNoMatch(s, "Martial", 2);
    Text.NoCharNoMatch(s, "Ranged", 0);
  }

  lemma SimpleRangedParts()
    ensures Text.Contains("Simple Ranged", "Simple") && Text.Contains("Simple Ranged", "Ranged")
    ensures !Text.Contains("Simple Ranged", "Martial") && !Text.Contains("Simple Ranged", "Melee")
  {
    var s := "Simple Ranged";
    Text.ContainsAt(s, "Simple", 0);
    Text.ContainsAt(s, "Ranged", 7);
    Text.NoCharNoMatch(s, "Martial", 2);
    Text.NoCharNoMatch(s, "Melee", 0);
  }

  lemma MartialMeleeParts()
    ensures Text.Contains("Martial Melee", "Martial") && Text.Contains("Martial Melee", "Melee")
    ensures !Text.Contains("Martial Melee", "Simple") && !Text.Contains("Martial Melee", "Ranged")
  {
    var s := "Martial Melee";
    Text.ContainsAt(s, "Martial", 0);
    Text.ContainsAt(s, "Melee", 8);
    Text.NoCharNoMatch(s, "Simple", 0);
    Text.NoCharNoMatch(s, "Ranged", 0);
  }

  lemma MartialRangedParts()
    ensures Text.Contains("Martial Ranged", "Martial") && Text.Contains("Martial Ranged", "Ranged")
    ensures !Text.Contains("Martial Ranged", "Simple") && !Text.Contains("Martial Ranged", "Melee")
  {
    var s := "Martial Ranged";
    Text.ContainsAt(s, "Martial", 0);
    Text.ContainsAt(s, "Ranged", 8);
    Text.NoCharNoMatch(s, "Simple", 0);
    NoMeleeInMartialRanged();
  }

  /** The one `M` of "Martial Ranged" is followed by an `a`, not an `e`. */
  lemma NoMeleeInMartialRanged()
    ensures !Text.Contains("Martial Ranged", "Melee")
  {
    var s := "Martial Ranged";
    assert forall j :: 0 <= j < |s| - 1 ==> s[j] != 'M' || s[j + 1] != 'e';
    forall i | 0 <= i <= |s| - 5 ensures !Text.OccursAt(s, "Melee", i) {
      var w := s[i..i + 5];
      assert w[0] == s[i] && w[1] == s[i + 1];
    }
  }

  /** The first property whose name contains the query, if any, read from
      the property table directly. */
  lemma FirstPropertyMatch(t: Tables, name: string)
    ensures ReadWeaponPropertiesByName(t, name) == [] <==>
      forall i :: 0 <= i < |t.properties| ==> !Text.Contains(t.properties[i].name, name)
    ensures ReadWeaponPropertiesByName(t, name) != [] ==> exists k :: (0 <= k < |t.properties| &&
      ReadWeaponPropertiesByName(t, name)[0].property == t.properties[k] &&
      Text.Contains(t.properties[k].name, name) &&
      forall j :: 0 <= j < k ==> !Text.Contains(t.properties[j].name, name))
  {
    var all := ReadAllWeaponProperties(t);
    assert forall i :: 0 <= i < |all| ==> all[i].property == t.properties[i];
    FilterHead(all, (e: WeaponPropertyEntity) => Text.Contains(e.property.name, name));
  }

  /** One step of the grouping loop: pushing the next weapon onto its
      group, creating the group first when its type is new. */
  lemma GroupStep(all: seq<Weapon>, i: nat, groups: map<string, seq<Weapon>>)
    requires i < |all| && groups == GroupBy(all[..i], TypeName)
    ensures var t := all[i].weaponType.Name();
      var created := if t !in groups then groups[t := []] else groups;
      created[t := created[t] + [all[i]]] == GroupBy(all[..i + 1], TypeName)
  {
    assert all[..i + 1][..i] == all[..i];
  }

  class WeaponService {
    const repository: WeaponStore.WeaponRepository

    /** The store seeds from the fixtures and holds what seeding empty
        tables in src/data gives: the property fixture, then one row per
        fixture weapon under its 1-based position, linked to exactly its
        tags. */
    ghost predicate Seeded()
      reads repository
    {
      repository.weaponFixture == WEAPONS && repository.properties == WEAPON_PROPERTIES &&
      SeededFrom(WEAPON_PROPERTIES, EMPTY.(properties := WEAPON_PROPERTIES), WEAPONS, repository.Snapshot())
    }

    /** The constructor opens a seeded weapon store. */
    constructor ()
      ensures fresh(repository) && repository.Valid()
      ensures Seeded()
    {
      repository := new WeaponStore.WeaponRepository();
    }

    /** `getAllWeapons`: every stored weapon without its id, in id order;
        the i-th is what `read(i + 1)` holds. */
    function GetAllWeapons(): (r: seq<Weapon>)
      reads repository
      requires repository.Valid()
      ensures |r| == |repository.weapons|
      ensures forall i :: 0 <= i < |r| ==> repository.Read(i + 1) == Some(WeaponEntity(i + 1, r[i]))
    {
      Map(repository.ReadAll(), WeaponOf)
    }

    /** `getAllWeaponsForTable`: one display row per stored weapon, in id
        order; the i-th is the row of the weapon `read(i + 1)` holds. */
    function GetAllWeaponsForTable(): (r: seq<WeaponTableRow>)
      reads repository
      requires repository.Valid()
      ensures |r| == |repository.weapons|
      ensures forall i, w :: 0 <= i < |r| && repository.Read(i + 1) == Some(WeaponEntity(i + 1, w)) ==>
        r[i] == TableRowOf(w)
    {
      Map(GetAllWeapons(), TableRowOf)
    }

    /** `getWeaponById`: null exactly when the store has no such id,
        otherwise the stored weapon without its id. */
    function GetWeaponById(id: nat): (r: Option<Weapon>)
      reads repository
      requires repository.Valid()
      ensures r.Some? <==> 1 <= id <= |repository.weapons|
      ensures r.None? <==> repository.Read(id).None?
      ensures r.Some? ==> repository.Read(id) == Some(WeaponEntity(id, r.value))
    {
      match repository.Read(id)
      case None => None
      case Some(e) => Some(e.weapon)
    }

    /** `searchWeaponsByName`: the weapons whose name contains the query,
        in the order `getAllWeapons` lists them. */
    function SearchWeaponsByName(name: string): (r: seq<Weapon>)
      reads repository
      requires repository.Valid()
      ensures r == Filter(GetAllWeapons(), NameContains(name))
      ensures forall w :: w in r <==> w in GetAllWeapons() && Text.Contains(w.name, name)
    {
      MapFilter(ReadAllWeapons(repository.Snapshot()), WeaponOf,
        (e: WeaponEntity) => Text.Contains(e.weapon.name, name), NameContains(name));
      Map(repository.ReadByName(name), WeaponOf)
    }

    /** `getAllWeaponProperties`: the property table in id order, without
        ids; the i-th is what `readWeaponProperty(i + 1)` holds. */
    function GetAllWeaponProperties(): (r: seq<WeaponProperty>)
      reads repository
      ensures r == repository.properties
      ensures forall i :: 0 <= i < |r| ==>
        repository.ReadWeaponProperty(i + 1) == Some(WeaponPropertyEntity(i + 1, r[i]))
    {
      Map(repository.ReadAllWeaponProperties(), PropertyOf)
    }

    /** `getWeaponPropertyByName`: null when no property name contains the
        query, otherwise the first one in id order that does. */
    function GetWeaponPropertyByName(name: string): (r: Option<WeaponProperty>)
      reads repository
      ensures r.None? <==> forall i :: 0 <= i < |repository.properties| ==>
        !Text.Contains(repository.properties[i].name, name)
      ensures r.Some? ==> exists k :: (0 <= k < |repository.properties| &&
        repository.properties[k] == r.value && Text.Contains(r.value.name, name) &&
        forall j :: 0 <= j < k ==> !Text.Contains(repository.properties[j].name, name))
    {
      var found := repository.ReadWeaponPropertyByName(name);
      FirstPropertyMatch(repository.Snapshot(), name);
      if |found| == 0 then None else Some(found[0].property)
    }

    /** `getSimpleWeapons`: the simple melee and simple ranged weapons,
        in the order `getAllWeapons` lists them. */
    function GetSimpleWeapons(): (r: seq<Weapon>)
      reads repository
      requires repository.Valid()
      ensures r == Filter(GetAllWeapons(), TypeContains("Simple"))
      ensures forall w :: w in r <==> w in GetAllWeapons() && (w.weaponType == SimpleMelee || w.weaponType == SimpleRanged)
    {
      assert forall t: WeaponType :: Text.Contains(t.Name(), "Simple") <==> t == SimpleMelee || t == SimpleRanged by {
        forall t: WeaponType { TypeNameParts(t); }
      }
      Filter(GetAllWeapons(), TypeContains("Simple"))
    }

    /** `getMartialWeapons`: the martial melee and martial ranged weapons,
        in the order `getAllWeapons` lists them. */
    function GetMartialWeapons(): (r: seq<Weapon>)
      reads repository
      requires repository.Valid()
      ensures r == Filter(GetAllWeapons(), TypeContains("Martial"))
      ensures forall w :: w in r <==> w in GetAllWeapons() && (w.weaponType == MartialMelee || w.weaponType == MartialRanged)
    {
      assert forall t: WeaponType :: Text.Contains(t.Name(), "Martial") <==> t == MartialMelee || t == MartialRanged by {
        forall t: WeaponType { TypeNameParts(t); }
      }
      Filter(GetAllWeapons(), TypeContains("Martial"))
    }

    /** `getMeleeWeapons`: the simple and martial melee weapons,
        in the order `getAllWeapons` lists them. */
    function GetMeleeWeapons(): (r: seq<Weapon>)
      reads repository
      requires repository.Valid()
      ensures r == Filter(GetAllWeapons(), TypeContains("Melee"))
      ensures forall w :: w in r <==> w in GetAllWeapons() && (w.weaponType == SimpleMelee || w.weaponType == MartialMelee)
    {
      assert forall t: WeaponType :: Text.Contains(t.Name(), "Melee") <==> t == SimpleMelee || t == MartialMelee by {
        forall t: WeaponType { TypeNameParts(t); }
      }
      Filter(GetAllWeapons(), TypeContains("Melee"))
    }

    /** `getRangedWeapons`: the simple and martial ranged weapons,
        in the order `getAllWeapons` lists them. */
    function GetRangedWeapons(): (r: seq<Weapon>)
      reads repository
      requires repository.Valid()
      ensures r == Filter(GetAllWeapons(), TypeContains("Ranged"))
      ensures forall w :: w in r <==> w in GetAllWeapons() && (w.weaponType == SimpleRanged || w.weaponType == MartialRanged)
    {
      assert forall t: WeaponType :: Text.Contains(t.Name(), "Ranged") <==> t == SimpleRanged || t == MartialRanged by {
        forall t: WeaponType { TypeNameParts(t); }
      }
      Filter(GetAllWeapons(), TypeContains("Ranged"))
    }

    /** `getWeaponsByProperty`: the weapons carrying that tag, in the order
        `getAllWeapons` lists them; a tag no weapon carries gives the empty
        list. */
    function GetWeaponsByProperty(propertyName: string): (r: seq<Weapon>)
      reads repository
      requires repository.Valid()
      ensures r == Filter(GetAllWeapons(), HasTag(propertyName))
      ensures forall w :: w in r <==> w in GetAllWeapons() && propertyName in w.properties
      ensures r == [] <==> forall i :: 0 <= i < |GetAllWeapons()| ==> propertyName !in GetAllWeapons()[i].properties
    {
      FilterHead(GetAllWeapons(), HasTag(propertyName));
      Filter(GetAllWeapons(), HasTag(propertyName))
    }

    /** `getWeaponsByType`: the weapons grouped under their type, built
        one weapon at a time as the `reduce` does. The keys are exactly the
        types that occur, and each group is the weapons of that type in
        their listed order. */
    method GetWeaponsByType() returns (groups: map<string, seq<Weapon>>)
      requires repository.Valid()
      ensures groups == GroupBy(GetAllWeapons(), TypeName)
      ensures forall k :: k in groups <==>
        exists i :: 0 <= i < |GetAllWeapons()| && GetAllWeapons()[i].weaponType.Name() == k
      ensures forall k :: k in groups ==> groups[k] == Filter(GetAllWeapons(), KeyIs(TypeName, k))
    {
      var all := GetAllWeapons();
      groups := map[];
      var i := 0;
      while i < |all|
        invariant i <= |all|
        invariant groups == GroupBy(all[..i], TypeName)
      {
        GroupStep(all, i, groups);
        var weapon := all[i];
        var t := weapon.weaponType.Name();
        if t !in groups {
          groups := groups[t := []];
        }
        groups := groups[t := groups[t] + [weapon]];
        i := i + 1;
      }
      assert all[..i] == all;
      GroupByIsFilter(all, TypeName);
    }
  }

  /** Every weapon is either simple or martial, and either melee or
      ranged: each pair of filters splits the weapons between them. */
  lemma KindsSplitWeapons(s: WeaponService)
    requires s.repository.Valid()
    ensures |s.GetSimpleWeapons()| + |s.GetMartialWeapons()| == |s.GetAllWeapons()|
    ensures |s.GetMeleeWeapons()| + |s.GetRangedWeapons()| == |s.GetAllWeapons()|
  {
    var all := s.GetAllWeapons();
    forall i | 0 <= i < |all|
      ensures TypeContains("Simple")(all[i]) != TypeContains("Martial")(all[i])
      ensures TypeContains("Melee")(all[i]) != TypeContains("Ranged")(all[i])
    {
      TypeNameParts(all[i].weaponType);
    }
    FilterComplement(all, TypeContains("Simple"), TypeContains("Martial"));
    FilterComplement(all, TypeContains("Melee"), TypeContains("Ranged"));
  }
}

=== FILE: weapon_store.dfy ===
/** The weapon store of src/data/repositories/weapon.repository.ts as an
    object over its three tables. Each method that writes is proved against
    the specification function of WeaponTables it implements (`Create`,
    `EnsureProperty`, `AddRelation`, `SeedAll`), so everything proved about
    those functions holds of the store. */
module WeaponStore {
  import opened Wrappers
  import opened Text
  import opened WeaponModel
  import opened WeaponEntities
  import opened WeaponTables
  import opened WeaponSeed
  import opened BaseEntity

  const UPDATE_MESSAGE: string := "Update operation not implemented for weapon entities"
  const DELETE_MESSAGE: string := "Delete operation not implemented for weapon entities"

  class WeaponRepository {
    /** The `weapons` table. */
    var weapons: seq<WeaponDatabaseRow>
    /** The `weapon_properties` table; a property's id is its position + 1. */
    var properties: seq<WeaponProperty>
    /** The `weapon_property_relations` table. */
    var relations: seq<Relation>
    /** The property fixture the store seeds from and takes descriptions
        from: `WEAPON_PROPERTIES`. */
    const propertyFixture: seq<WeaponProperty>
    /** The weapon fixture the store seeds from: `WEAPONS`. */
    const weaponFixture: seq<Weapon>

    /** The three tables as one value. */
    function Snapshot(): Tables
      reads this
    {
      Tables(weapons, properties, relations)
    }

    /** Primary keys, `UNIQUE(name)` and the foreign keys hold. */
    predicate Valid()
      reads this
    {
      TablesValid(Snapshot())
    }

    /** The constructor creates the tables and seeds them
        (`initDb`): the properties as the fixture lists them, then one row
        per fixture weapon under its 1-based position, linked to exactly
        its tags. */
    constructor ()
      ensures propertyFixture == WEAPON_PROPERTIES && weaponFixture == WEAPONS
      ensures Valid()
      ensures Success(Snapshot()) == DataSeed(EMPTY)
      ensures properties == WEAPON_PROPERTIES
      ensures SeededFrom(WEAPON_PROPERTIES, EMPTY.(properties := WEAPON_PROPERTIES), WEAPONS, Snapshot())
    {
      weapons, properties, relations := [], [], [];
      propertyFixture, weaponFixture := WEAPON_PROPERTIES, WEAPONS;
      new;
      var r := InsertInitialData();
      DataSeedFromEmpty();
    }

    /** `insertInitialData`: each fixture property whose name is not
        stored is inserted, then each fixture weapon whose name is not
        stored is created. A throw ends the seeding; what it leaves is not
        described, since the throw escapes the constructor. */
    method InsertInitialData() returns (r: Result<Tables, string>)
      modifies this
      ensures r == SeedAll(propertyFixture, old(Snapshot()), propertyFixture, weaponFixture, DATA_PREFIX)
      ensures r.Success? ==> Snapshot() == r.value
    {
      var i := 0;
      while i < |propertyFixture|
        invariant i <= |propertyFixture|
        invariant weapons == old(weapons) && relations == old(relations)
        invariant properties == SeedProperties(old(properties), propertyFixture[..i])
      {
        var p := propertyFixture[i];
        SeedPropertiesStep(old(properties), propertyFixture, i);
        if PropertyIndexByName(properties, p.name).None? {
          properties := properties + [p];
        }
        i := i + 1;
      }
      assert propertyFixture[..i] == propertyFixture;
      r := InsertFixtureWeapons();
    }

    /** The second half of `insertInitialData`: each fixture weapon whose
        name is not stored is created, in list order. */
    method InsertFixtureWeapons() returns (r: Result<Tables, string>)
      modifies this
      ensures r == SeedWeapons(propertyFixture, old(Snapshot()), weaponFixture, DATA_PREFIX)
      ensures r.Success? ==> Snapshot() == r.value
    {
      var start := Snapshot();
      var j := 0;
      while j < |weaponFixture|
        invariant j <= |weaponFixture|
        invariant SeedWeapons(propertyFixture, start, weaponFixture[..j], DATA_PREFIX) == Success(Snapshot())
      {
        var w := weaponFixture[j];
        SeedWeaponsStep(propertyFixture, start, weaponFixture, DATA_PREFIX, j, Snapshot());
        if WeaponIndexByName(weapons, w.name).None? {
          SeedWeaponIsCreate(propertyFixture, Snapshot(), w, DATA_PREFIX);
          var c := Create(w);
          if c.Failure? {
            SeedWeaponsStopsAtFailure(propertyFixture, start, weaponFixture, DATA_PREFIX, j + 1);
            return Failure(c.error);
          }
        }
        j := j + 1;
      }
      assert weaponFixture[..j] == weaponFixture;
      return Success(Snapshot());
    }

    /** `create`: a name already stored inserts nothing and gives 0;
        otherwise the row goes in under the next id and each tag is looked
        up (or inserted) and linked. A throw rolls the whole transaction
        back. */
    method Create(w: Weapon) returns (r: Result<nat, string>)
      modifies this
      ensures Outcome(Snapshot(), r) == WeaponTables.Create(propertyFixture, old(Snapshot()), w, DATA_PREFIX)
      ensures old(Valid()) ==> Valid()
    {
      if WeaponIndexByName(weapons, w.name).Some? {
        return Success(0);
      }
      var saved := Snapshot();
      var id := |weapons| + 1;
      weapons := weapons + [ToDatabaseRow(id, w)];
      var i := 0;
      while i < |w.properties|
        invariant i <= |w.properties|
        invariant weapons == saved.weapons + [ToDatabaseRow(id, w)]
        invariant LinkTags(propertyFixture, saved.properties, saved.relations, id, w.properties[..i], DATA_PREFIX)
          == Success(Links(properties, relations))
      {
        LinkTagsStep(propertyFixture, saved.properties, saved.relations, id, w.properties, DATA_PREFIX, i, Links(properties, relations));
        var found := EnsurePropertyExists(w.properties[i]);
        if found.Failure? {
          LinkTagsStopsAtFailure(propertyFixture, saved.properties, saved.relations, id, w.properties, DATA_PREFIX, i + 1);
          weapons, properties, relations := saved.weapons, saved.properties, saved.relations;
          return Failure(found.error);
        }
        CreateWeaponPropertyRelation(id, found.value);
        i := i + 1;
      }
      assert w.properties[..i] == w.properties;
      if TablesValid(saved) {
        InsertWeaponValid(propertyFixture, saved, w, DATA_PREFIX);
      }
      return Success(id);
    }

    /** `ensurePropertyExists`: the stored id without a write, or the
        fixture description inserted under a new id, or the throw. */
    method EnsurePropertyExists(name: string) returns (r: Result<nat, string>)
      modifies this
      ensures weapons == old(weapons) && relations == old(relations)
      ensures var e := EnsureProperty(propertyFixture, old(properties), name, DATA_PREFIX);
        (e.Success? ==> r == Success(e.value.id) && properties == e.value.properties) &&
        (e.Failure? ==> r == Failure(e.error) && properties == old(properties))
    {
      var stored := PropertyIndexByName(properties, name);
      if stored.Some? {
        return Success(stored.value + 1);
      }
      var description := Description(propertyFixture, name);
      if !Truthy(description) {
        return Failure(DATA_PREFIX + name);
      }
      properties := properties + [WeaponProperty(name, description.value)];
      return Success(|properties|);
    }

    /** `createWeaponPropertyRelation`: `INSERT OR IGNORE` of the pair. */
    method CreateWeaponPropertyRelation(weaponId: nat, propertyId: nat)
      modifies this
      ensures weapons == old(weapons) && properties == old(properties)
      ensures relations == AddRelation(old(relations), Relation(weaponId, propertyId))
    {
      if Relation(weaponId, propertyId) !in relations {
        relations := relations + [Relation(weaponId, propertyId)];
      }
    }

    /** `read`: the weapon with that id and its tags, or null; with ids as
        positions exactly the ids 1..n are found. */
    function Read(id: nat): (r: Option<WeaponEntity>)
      reads this
      requires Valid()
      ensures r.Some? <==> 1 <= id <= |weapons|
      ensures r.Some? ==> r.value.id == id && r.value == Entity(Snapshot(), weapons[id - 1])
    {
      ReadWeaponById(Snapshot(), id);
      ReadWeapon(Snapshot(), id)
    }

    /** `readAll`: one entity per row, the i-th being what `read(i + 1)`
        returns. */
    function ReadAll(): (r: seq<WeaponEntity>)
      reads this
      requires Valid()
      ensures |r| == |weapons|
      ensures forall i :: 0 <= i < |r| ==> Read(i + 1) == Some(r[i])
    {
      var all := ReadAllWeapons(Snapshot());
      assert forall i :: 0 <= i < |all| ==> Read(i + 1) == Some(all[i]) by {
        forall i | 0 <= i < |all| ensures Read(i + 1) == Some(all[i]) {
          ReadAllIsReadById(Snapshot(), i);
        }
      }
      all
    }

    /** `readByName`: the entities whose name contains the query. */
    function ReadByName(query: string): (r: seq<WeaponEntity>)
      reads this
      requires Valid()
      ensures forall e :: e in r <==> e in ReadAll() && Contains(e.weapon.name, query)
    {
      ReadWeaponsByName(Snapshot(), query)
    }

    /** `readWeaponProperty`: the property with that id, or null. */
    function ReadWeaponProperty(id: nat): (r: Option<WeaponPropertyEntity>)
      reads this
      ensures r.Some? <==> 1 <= id <= |properties|
      ensures r.Some? ==> r.value == WeaponPropertyEntity(id, properties[id - 1])
    {
      WeaponTables.ReadWeaponProperty(Snapshot(), id)
    }

    /** `readAllWeaponProperties`: every property under its id, in id
        order. */
    function ReadAllWeaponProperties(): (r: seq<WeaponPropertyEntity>)
      reads this
      ensures |r| == |properties|
      ensures forall i :: 0 <= i < |r| ==> ReadWeaponProperty(i + 1) == Some(r[i])
    {
      WeaponTables.ReadAllWeaponProperties(Snapshot())
    }

    /** `readWeaponPropertyByName`: the properties whose name contains the
        query. */
    function ReadWeaponPropertyByName(query: string): (r: seq<WeaponPropertyEntity>)
      reads this
      ensures forall e :: e in r <==> e in ReadAllWeaponProperties() && Contains(e.property.name, query)
    {
      ReadWeaponPropertiesByName(Snapshot(), query)
    }

    /** `update`: not implemented; it reports failure and writes nothing. */
    method Update(entity: WeaponEntity) returns (r: DbOperationResult)
      ensures !r.success && r.message == Some(UPDATE_MESSAGE)
      ensures r.id.None? && r.affectedRows.None?
    {
      r := DbOperationResult(false, Some(UPDATE_MESSAGE), None, None);
    }

    /** `delete`: not implemented; it reports failure and writes nothing. */
    method Delete(id: nat) returns (r: DbOperationResult)
      ensures !r.success && r.message == Some(DELETE_MESSAGE)
      ensures r.id.None? && r.affectedRows.None?
    {
      r := DbOperationResult(false, Some(DELETE_MESSAGE), None, None);
    }
  }
}

=== FILE: weapon_tables.dfy ===
/** The three weapon tables both weapon stores keep (`weapons`,
    `weapon_properties`, `weapon_property_relations`), the row mapping of
    `create` and `combineWeaponRowWithProperties`, the tag loop of `create`
    with its property lookup-or-insert, and the reads. The SQL is the same
    in src/data/repositories/weapon.repository.ts and
    src/database/weapon-repository/weapon-repository.ts; the stores differ
    only in seeding, in the duplicate-name guard and in one error text. */
module WeaponTables {
  import opened Wrappers
  import opened Text
  import opened Sequences
  import opened WeaponModel
  import opened WeaponEntities

  /** A stored weapon as the reads return it. */
  datatype WeaponEntity = WeaponEntity(id: nat, weapon: Weapon)

  /** A stored property as the reads return it. */
  datatype WeaponPropertyEntity = WeaponPropertyEntity(id: nat, property: WeaponProperty)

  /** A row of `weapon_property_relations`. */
  datatype Relation = Relation(weaponId: nat, propertyId: nat)

  /** The three tables. A weapon row carries its id; a property's id is its
      1-based position, since ids come from `AUTOINCREMENT` and no row is
      ever deleted. Read order is insertion order. */
  datatype Tables = Tables(
    weapons: seq<WeaponDatabaseRow>,
    properties: seq<WeaponProperty>,
    relations: seq<Relation>)

  const EMPTY: Tables := Tables([], [], [])

  // ---------------------------------------------------------------------
  // Table invariants: primary keys, UNIQUE(name), foreign keys
  // ---------------------------------------------------------------------

  predicate WeaponIdsArePositions(rows: seq<WeaponDatabaseRow>)
  {
    forall i :: 0 <= i < |rows| ==> rows[i].id == i + 1
  }

  predicate WeaponNamesUnique(rows: seq<WeaponDatabaseRow>)
  {
    forall i, j :: 0 <= i < j < |rows| ==> rows[i].name != rows[j].name
  }

  predicate PropertyNamesUnique(ps: seq<WeaponProperty>)
  {
    forall i, j :: 0 <= i < j < |ps| ==> ps[i].name != ps[j].name
  }

  /** Every relation points at a stored weapon and a stored property, and
      no pair is stored twice (the composite primary key). */
  predicate RelationsValid(rels: seq<Relation>, weaponCount: nat, propertyCount: nat)
  {
    (forall r :: r in rels ==> 1 <= r.weaponId <= weaponCount && 1 <= r.propertyId <= propertyCount) &&
    (forall i, j :: 0 <= i < j < |rels| ==> rels[i] != rels[j])
  }

  predicate TablesValid(t: Tables)
  {
    WeaponIdsArePositions(t.weapons) &&
    WeaponNamesUnique(t.weapons) &&
    PropertyNamesUnique(t.properties) &&
    RelationsValid(t.relations, |t.weapons|, |t.properties|)
  }

  // ---------------------------------------------------------------------
  // Flattening a weapon into a row and rebuilding it
  // ---------------------------------------------------------------------

  /** `n || null` on a range component: zero is falsy and becomes null. */
  function NonZeroOrNull(n: nat): Option<nat>
  {
    if n == 0 then None else Some(n)
  }

  /** The row `create` inserts for `w` under `id`: every optional text goes
      through `|| null`, and so does each range component. */
  function ToDatabaseRow(id: nat, w: Weapon): WeaponDatabaseRow
  {
    WeaponDatabaseRow(
      id, w.name, w.weaponType, w.cost,
      OrNull(w.damageDie), w.damageType, OrNull(w.weight),
      if w.range.Some? then NonZeroOrNull(w.range.value.normal) else None,
      if w.range.Some? then NonZeroOrNull(w.range.value.long) else None,
      OrNull(w.versatileDamageDie))
  }

  /** `combineWeaponRowWithProperties`: the columns as they are, the joined
      tag names, and a range only when both range columns are non-null. */
  function CombineWeaponRowWithProperties(row: WeaponDatabaseRow, names: seq<string>): WeaponEntity
  {
    WeaponEntity(row.id, Weapon(
      row.name, row.weaponType, row.cost, row.damageDie, row.damageType, row.weight,
      if row.rangeNormal.Some? && row.rangeLong.Some? then
        Some(WeaponRange(row.rangeNormal.value, row.rangeLong.value))
      else None,
      row.versatileDamageDie, names))
  }

  /** A weapon that `|| null` leaves alone: no empty optional text and no
      zero range component. */
  predicate Storable(w: Weapon)
  {
    OrNull(w.damageDie) == w.damageDie &&
    OrNull(w.weight) == w.weight &&
    OrNull(w.versatileDamageDie) == w.versatileDamageDie &&
    (w.range.Some? ==> w.range.value.normal != 0 && w.range.value.long != 0)
  }

  /** Writing a weapon and reading it back with its own tags gives it back
      exactly when it is storable. */
  lemma RowRoundTrip(id: nat, w: Weapon)
    ensures CombineWeaponRowWithProperties(ToDatabaseRow(id, w), w.properties) == WeaponEntity(id, w)
        <==> Storable(w)
  {
    var e := CombineWeaponRowWithProperties(ToDatabaseRow(id, w), w.properties);
    if e == WeaponEntity(id, w) && w.range.Some? {
      assert e.weapon.range == w.range;
    }
  }

  /** The range is rebuilt exactly when both components are non-zero, so a
      zero component loses the whole range. */
  lemma RangeSurvivesIffNonZero(id: nat, w: Weapon, names: seq<string>)
    ensures CombineWeaponRowWithProperties(ToDatabaseRow(id, w), names).weapon.range ==
      if w.range.Some? && w.range.value.normal != 0 && w.range.value.long != 0 then w.range else None
  {
  }

  // ---------------------------------------------------------------------
  // Lookups by name
  // ---------------------------------------------------------------------

  /** `SELECT ... FROM weapons WHERE name = $name`, first row. */
  function WeaponIndexByName(rows: seq<WeaponDatabaseRow>, name: string): Option<nat>
  {
    FirstIndex(rows, (row: WeaponDatabaseRow) => row.name == name, 0)
  }

  /** `SELECT id FROM weapon_properties WHERE name = $name`, as an index. */
  function PropertyIndexByName(ps: seq<WeaponProperty>, name: string): Option<nat>
  {
    FirstIndex(ps, (p: WeaponProperty) => p.name == name, 0)
  }

  /** `WEAPON_PROPERTIES.find(p => p.name === name)?.description`, with the
      fixture as a parameter: the stores pass `WEAPON_PROPERTIES`. */
  function Description(fixture: seq<WeaponProperty>, name: string): (d: Option<string>)
    ensures d.Some? ==> (exists i :: 0 <= i < |fixture| &&
                           fixture[i].name == name && fixture[i].description == d.value)
    ensures d.None? ==> forall i :: 0 <= i < |fixture| ==> fixture[i].name != name
  {
    match FirstIndex(fixture, (p: WeaponProperty) => p.name == name, 0)
    case Some(i) => Some(fixture[i].description)
    case None => None
  }

  /** A tag that is neither stored nor described by the fixture: the
      lookup-or-insert of a property throws on it. */
  predicate Unknown(fixture: seq<WeaponProperty>, ps: seq<WeaponProperty>, name: string)
  {
    PropertyIndexByName(ps, name).None? && !Truthy(Description(fixture, name))
  }

  // ---------------------------------------------------------------------
  // ensurePropertyExists and createWeaponPropertyRelation
  // ---------------------------------------------------------------------

  /** The property table after a lookup-or-insert, and the id found. */
  datatype PropertyLookup = PropertyLookup(properties: seq<WeaponProperty>, id: nat)

  /** `ensurePropertyExists`: the stored id if the name is stored; else the
      fixture description is inserted under a new id; with no (or an empty)
      description it throws `prefix + name`. */
  function EnsureProperty(fixture: seq<WeaponProperty>, ps: seq<WeaponProperty>, name: string, prefix: string): Result<PropertyLookup, string>
  {
    match PropertyIndexByName(ps, name)
    case Some(i) => Success(PropertyLookup(ps, i + 1))
    case None =>
      if Truthy(Description(fixture, name)) then
        Success(PropertyLookup(ps + [WeaponProperty(name, Description(fixture, name).value)], |ps| + 1))
      else Failure(prefix + name)
  }

  /** A lookup-or-insert fails exactly on an unknown tag, with the tag in
      the message. */
  lemma EnsurePropertyFails(fixture: seq<WeaponProperty>, ps: seq<WeaponProperty>, name: string, prefix: string)
    ensures EnsureProperty(fixture, ps, name, prefix).Failure? <==> Unknown(fixture, ps, name)
    ensures EnsureProperty(fixture, ps, name, prefix).Failure? ==>
      EnsureProperty(fixture, ps, name, prefix).error == prefix + name
  {
  }

  /** Otherwise it returns the id of a property with that name, writes
      nothing when the name is stored, and at most appends the fixture's
      entry, which keeps names unique. */
  lemma EnsurePropertyFinds(fixture: seq<WeaponProperty>, ps: seq<WeaponProperty>, name: string, prefix: string)
    requires PropertyNamesUnique(ps)
    ensures EnsureProperty(fixture, ps, name, prefix).Success? ==>
      var l := EnsureProperty(fixture, ps, name, prefix).value;
      1 <= l.id <= |l.properties| && l.properties[l.id - 1].name == name &&
      PropertiesExtend(fixture, ps, l.properties) && |l.properties| <= |ps| + 1 &&
      (PropertyIndexByName(ps, name).Some? ==> l.properties == ps)
  {
    var d := Description(fixture, name);
    match PropertyIndexByName(ps, name)
    case Some(i) =>
    case None =>
      if Truthy(d) {
        var ps' := ps + [WeaponProperty(name, d.value)];
        assert ps'[..|ps|] == ps;
        assert ps'[|ps|].name == name;
        forall i | |ps| <= i < |ps'|
          ensures Truthy(Description(fixture, ps'[i].name)) &&
                  Description(fixture, ps'[i].name) == Some(ps'[i].description)
        {
          assert i == |ps|;
        }
        forall i, j | 0 <= i < j < |ps'| ensures ps'[i].name != ps'[j].name {
          if j == |ps| {
            assert ps'[i] == ps[i];
          }
        }
      }
  }

  /** `INSERT OR IGNORE INTO weapon_property_relations`: a pair already
      stored is ignored. */
  function AddRelation(rels: seq<Relation>, r: Relation): seq<Relation>
  {
    if r in rels then rels else rels + [r]
  }

  lemma AddRelationValid(rels: seq<Relation>, r: Relation, weaponCount: nat, propertyCount: nat)
    requires RelationsValid(rels, weaponCount, propertyCount)
    requires 1 <= r.weaponId <= weaponCount && 1 <= r.propertyId <= propertyCount
    ensures RelationsValid(AddRelation(rels, r), weaponCount, propertyCount)
    ensures r in AddRelation(rels, r)
    ensures forall x :: x in AddRelation(rels, r) <==> x in rels || x == r
  {
  }

  // ---------------------------------------------------------------------
  // The tag loop of create, and the join that reads the tags back
  // ---------------------------------------------------------------------

  /** The property and relation tables the tag loop works on. */
  datatype Links = Links(properties: seq<WeaponProperty>, relations: seq<Relation>)

  /** One turn of the tag loop of `create` for weapon `wid`: look the tag
      up (or insert it), then link it. */
  function LinkTag(fixture: seq<WeaponProperty>, l: Links, wid: nat, tag: string, prefix: string): Result<Links, string>
  {
    match EnsureProperty(fixture, l.properties, tag, prefix)
    case Failure(e) => Failure(e)
    case Success(found) => Success(Links(found.properties, AddRelation(l.relations, Relation(wid, found.id))))
  }

  /** The tag loop of `create` for weapon `wid`: each tag in turn, the first
      failing lookup ending the loop with its error. */
  function LinkTags(fixture: seq<WeaponProperty>, ps: seq<WeaponProperty>, rels: seq<Relation>, wid: nat, tags: seq<string>, prefix: string): Result<Links, string>
    decreases |tags|
  {
    if |tags| == 0 then Success(Links(ps, rels))
    else
      match LinkTags(fixture, ps, rels, wid, tags[..|tags| - 1], prefix)
      case Failure(e) => Failure(e)
      case Success(l) => LinkTag(fixture, l, wid, tags[|tags| - 1], prefix)
  }

  /** The tag loop over one more tag is one more turn. */
  lemma LinkTagsStep(fixture: seq<WeaponProperty>, ps: seq<WeaponProperty>, rels: seq<Relation>,
                     wid: nat, tags: seq<string>, prefix: string, i: nat, l: Links)
    requires i < |tags| && LinkTags(fixture, ps, rels, wid, tags[..i], prefix) == Success(l)
    ensures LinkTags(fixture, ps, rels, wid, tags[..i + 1], prefix) == LinkTag(fixture, l, wid, tags[i], prefix)
  {
    assert tags[..i + 1][..i] == tags[..i];
  }

  /** A failure in the first `i` tags is the failure of the whole loop:
      the loop stops at the first throw. */
  lemma {:induction false} LinkTagsStopsAtFailure(fixture: seq<WeaponProperty>, ps: seq<WeaponProperty>, rels: seq<Relation>,
                                                  wid: nat, tags: seq<string>, prefix: string, i: nat)
    requires i <= |tags| && LinkTags(fixture, ps, rels, wid, tags[..i], prefix).Failure?
    ensures LinkTags(fixture, ps, rels, wid, tags, prefix) == LinkTags(fixture, ps, rels, wid, tags[..i], prefix)
    decreases |tags|
  {
    if i < |tags| {
      var init := tags[..|tags| - 1];
      assert init[..i] == tags[..i];
      LinkTagsStopsAtFailure(fixture, ps, rels, wid, init, prefix, i);
    } else {
      assert tags[..i] == tags;
    }
  }

  /** The names of the properties linked to weapon `wid`: the join of
      `getWeaponPropertiesForWeapon`. That join has no `ORDER BY`, so only
      which names it returns is determined; the model lists them in the
      order the links were inserted. */
  function LinkedNames(ps: seq<WeaponProperty>, rels: seq<Relation>, wid: nat): seq<string>
    decreases |rels|
  {
    if |rels| == 0 then []
    else
      var r := rels[|rels| - 1];
      LinkedNames(ps, rels[..|rels| - 1], wid) +
        (if r.weaponId == wid && 1 <= r.propertyId <= |ps| then [ps[r.propertyId - 1].name] else [])
  }

  /** A name is linked to `wid` exactly when some relation of `wid` points
      at a property of that name. */
  lemma {:induction false} LinkedNamesMembers(ps: seq<WeaponProperty>, rels: seq<Relation>, wid: nat, x: string)
    ensures x in LinkedNames(ps, rels, wid) <==>
      exists r :: r in rels && r.weaponId == wid && 1 <= r.propertyId <= |ps| && ps[r.propertyId - 1].name == x
    decreases |rels|
  {
    if |rels| > 0 {
      var init := rels[..|rels| - 1];
      LinkedNamesMembers(ps, init, wid, x);
      assert rels == init + [rels[|rels| - 1]];
    }
  }

  /** Appending properties does not change what the existing relations
      join to. */
  lemma {:induction false} LinkedNamesGrowProperties(ps: seq<WeaponProperty>, ps': seq<WeaponProperty>, rels: seq<Relation>, wid: nat)
    requires |ps| <= |ps'| && ps'[..|ps|] == ps
    requires forall r :: r in rels ==> r.propertyId <= |ps|
    ensures LinkedNames(ps', rels, wid) == LinkedNames(ps, rels, wid)
    decreases |rels|
  {
    if |rels| > 0 {
      var init := rels[..|rels| - 1];
      assert forall r :: r in init ==> r in rels;
      LinkedNamesGrowProperties(ps, ps', init, wid);
      var r := rels[|rels| - 1];
      if 1 <= r.propertyId <= |ps| {
        assert ps'[r.propertyId - 1] == ps'[..|ps|][r.propertyId - 1];
      }
    }
  }

  /** What one property table may become by the tag loop: the old rows
      stay, names stay unique, and each added row is a fixture property
      with a non-empty description. */
  predicate PropertiesExtend(fixture: seq<WeaponProperty>, ps: seq<WeaponProperty>, ps': seq<WeaponProperty>)
  {
    |ps| <= |ps'| && ps'[..|ps|] == ps && PropertyNamesUnique(ps') &&
    forall i :: |ps| <= i < |ps'| ==>
      Truthy(Description(fixture, ps'[i].name)) &&
      Description(fixture, ps'[i].name) == Some(ps'[i].description)
  }

  lemma PropertiesExtendTransitive(fixture: seq<WeaponProperty>, a: seq<WeaponProperty>, b: seq<WeaponProperty>, c: seq<WeaponProperty>)
    requires PropertiesExtend(fixture, a, b) && PropertiesExtend(fixture, b, c)
    ensures PropertiesExtend(fixture, a, c)
  {
    assert c[..|a|] == c[..|b|][..|a|];
    forall i | |a| <= i < |c|
      ensures Truthy(Description(fixture, c[i].name)) && Description(fixture, c[i].name) == Some(c[i].description)
    {
      if i < |b| {
        assert c[i] == c[..|b|][i];
      }
    }
  }

  /** Growing the property table that way changes no tag from known to
      unknown or back, and keeps every stored name findable. */
  lemma UnknownStable(fixture: seq<WeaponProperty>, ps: seq<WeaponProperty>, ps': seq<WeaponProperty>, name: string)
    requires PropertiesExtend(fixture, ps, ps')
    ensures Unknown(fixture, ps', name) <==> Unknown(fixture, ps, name)
    ensures PropertyIndexByName(ps, name).Some? ==> PropertyIndexByName(ps', name).Some?
  {
    var i := PropertyIndexByName(ps, name);
    var i' := PropertyIndexByName(ps', name);
    if i.Some? {
      assert ps'[i.value] == ps'[..|ps|][i.value];
    } else if i'.Some? {
      assert Truthy(Description(fixture, ps'[i'.value].name));
    }
  }

  /** The tag loop only grows the property table by fixture entries, and
      writes no property when every tag is already stored. */
  lemma {:induction false} LinkTagsProperties(fixture: seq<WeaponProperty>, ps: seq<WeaponProperty>, rels: seq<Relation>,
                                              wid: nat, tags: seq<string>, prefix: string)
    requires PropertyNamesUnique(ps)
    ensures LinkTags(fixture, ps, rels, wid, tags, prefix).Success? ==>
      var l := LinkTags(fixture, ps, rels, wid, tags, prefix).value;
      PropertiesExtend(fixture, ps, l.properties) &&
      ((forall k :: 0 <= k < |tags| ==> PropertyIndexByName(ps, tags[k]).Some?) ==> l.properties == ps)
    decreases |tags|
  {
    if |tags| == 0 {
      assert ps[..|ps|] == ps;
    } else {
      var init := tags[..|tags| - 1];
      var last := tags[|tags| - 1];
      LinkTagsProperties(fixture, ps, rels, wid, init, prefix);
      var r := LinkTags(fixture, ps, rels, wid, init, prefix);
      if r.Success? {
        var l := r.value;
        EnsurePropertyFinds(fixture, l.properties, last, prefix);
        var f := EnsureProperty(fixture, l.properties, last, prefix);
        if f.Success? {
          PropertiesExtendTransitive(fixture, ps, l.properties, f.value.properties);
          if forall k :: 0 <= k < |tags| ==> PropertyIndexByName(ps, tags[k]).Some? {
            assert forall k :: 0 <= k < |init| ==> init[k] == tags[k];
          }
        }
      }
    }
  }

  /** The tag loop keeps the relations valid, only appends to them, and
      every relation it appends belongs to weapon `wid`. */
  lemma {:induction false} LinkTagsRelations(fixture: seq<WeaponProperty>, ps: seq<WeaponProperty>, rels: seq<Relation>,
                                             wid: nat, tags: seq<string>, prefix: string, weaponCount: nat)
    requires PropertyNamesUnique(ps) && RelationsValid(rels, weaponCount, |ps|) && 1 <= wid <= weaponCount
    ensures LinkTags(fixture, ps, rels, wid, tags, prefix).Success? ==>
      var l := LinkTags(fixture, ps, rels, wid, tags, prefix).value;
      RelationsValid(l.relations, weaponCount, |l.properties|) &&
      |rels| <= |l.relations| && l.relations[..|rels|] == rels &&
      forall i :: |rels| <= i < |l.relations| ==> l.relations[i].weaponId == wid
    decreases |tags|
  {
    if |tags| == 0 {
      assert rels[..|rels|] == rels;
    } else {
      var init := tags[..|tags| - 1];
      var last := tags[|tags| - 1];
      LinkTagsRelations(fixture, ps, rels, wid, init, prefix, weaponCount);
      LinkTagsProperties(fixture, ps, rels, wid, init, prefix);
      var r := LinkTags(fixture, ps, rels, wid, init, prefix);
      if r.Success? {
        var l := r.value;
        EnsurePropertyFinds(fixture, l.properties, last, prefix);
        var f := EnsureProperty(fixture, l.properties, last, prefix);
        if f.Success? {
          AddRelationExtends(rels, l.relations, Relation(wid, f.value.id), weaponCount,
                             |l.properties|, |f.value.properties|);
        }
      }
    }
  }

  /** Linking one more pair of weapon `rel.weaponId` keeps what the tag loop
      promises about the relations. */
  lemma AddRelationExtends(rels0: seq<Relation>, rels: seq<Relation>, rel: Relation, weaponCount: nat,
                           propertyCount: nat, propertyCount': nat)
    requires RelationsValid(rels, weaponCount, propertyCount) && propertyCount <= propertyCount'
    requires 1 <= rel.weaponId <= weaponCount && 1 <= rel.propertyId <= propertyCount'
    requires |rels0| <= |rels| && rels[..|rels0|] == rels0
    requires forall i :: |rels0| <= i < |rels| ==> rels[i].weaponId == rel.weaponId
    ensures var rels' := AddRelation(rels, rel);
      RelationsValid(rels', weaponCount, propertyCount') &&
      |rels0| <= |rels'| && rels'[..|rels0|] == rels0 &&
      forall i :: |rels0| <= i < |rels'| ==> rels'[i].weaponId == rel.weaponId
  {
    AddRelationValid(rels, rel, weaponCount, propertyCount');
    if rel !in rels {
      var rels' := rels + [rel];
      assert rels'[..|rels0|] == rels[..|rels0|];
    }
  }

  /** Linking weapon `wid` to a property named `name` adds `name` to the
      names joined for `wid`, and nothing else. */
  lemma LinkedNamesAddRelation(ps: seq<WeaponProperty>, ps': seq<WeaponProperty>, rels: seq<Relation>,
                               rel: Relation, wid: nat, name: string, x: string)
    requires |ps| <= |ps'| && ps'[..|ps|] == ps
    requires forall r :: r in rels ==> r.propertyId <= |ps|
    requires rel.weaponId == wid && 1 <= rel.propertyId <= |ps'| && ps'[rel.propertyId - 1].name == name
    ensures x in LinkedNames(ps', AddRelation(rels, rel), wid) <==> x in LinkedNames(ps, rels, wid) || x == name
  {
    LinkedNamesGrowProperties(ps, ps', rels, wid);
    if rel in rels {
      LinkedNamesMembers(ps', rels, wid, name);
    } else {
      var rels' := rels + [rel];
      assert rels'[..|rels'| - 1] == rels;
      assert LinkedNames(ps', rels', wid) == LinkedNames(ps', rels, wid) + [name];
    }
  }

  /** After a successful tag loop the weapon is linked to exactly the
      names it was linked to before and its tags. */
  lemma {:induction false} LinkTagsNames(fixture: seq<WeaponProperty>, ps: seq<WeaponProperty>, rels: seq<Relation>,
                                         wid: nat, tags: seq<string>, prefix: string, weaponCount: nat, x: string)
    requires PropertyNamesUnique(ps) && RelationsValid(rels, weaponCount, |ps|) && 1 <= wid <= weaponCount
    ensures LinkTags(fixture, ps, rels, wid, tags, prefix).Success? ==>
      var l := LinkTags(fixture, ps, rels, wid, tags, prefix).value;
      x in LinkedNames(l.properties, l.relations, wid) <==> x in LinkedNames(ps, rels, wid) || x in tags
    decreases |tags|
  {
    if |tags| > 0 {
      var init := tags[..|tags| - 1];
      var last := tags[|tags| - 1];
      assert x in tags <==> x in init || x == last by {
        assert tags == init + [last];
      }
      LinkTagsNames(fixture, ps, rels, wid, init, prefix, weaponCount, x);
      LinkTagsRelations(fixture, ps, rels, wid, init, prefix, weaponCount);
      LinkTagsProperties(fixture, ps, rels, wid, init, prefix);
      var r := LinkTags(fixture, ps, rels, wid, init, prefix);
      if r.Success? {
        LinkTagNames(fixture, r.value, wid, last, prefix, x);
      }
    }
  }

  /** One turn of the loop adds its tag to the names joined for `wid`. */
  lemma LinkTagNames(fixture: seq<WeaponProperty>, l: Links, wid: nat, tag: string, prefix: string, x: string)
    requires PropertyNamesUnique(l.properties)
    requires forall r :: r in l.relations ==> r.propertyId <= |l.properties|
    ensures LinkTag(fixture, l, wid, tag, prefix).Success? ==>
      var l' := LinkTag(fixture, l, wid, tag, prefix).value;
      x in LinkedNames(l'.properties, l'.relations, wid) <==> x in LinkedNames(l.properties, l.relations, wid) || x == tag
  {
    EnsurePropertyFinds(fixture, l.properties, tag, prefix);
    var f := EnsureProperty(fixture, l.properties, tag, prefix);
    if f.Success? {
      LinkedNamesAddRelation(l.properties, f.value.properties, l.relations, Relation(wid, f.value.id), wid, tag, x);
    }
  }

  /** The tag loop fails exactly when some tag is unknown. */
  lemma {:induction false} LinkTagsFails(fixture: seq<WeaponProperty>, ps: seq<WeaponProperty>, rels: seq<Relation>,
                                         wid: nat, tags: seq<string>, prefix: string)
    requires PropertyNamesUnique(ps)
    ensures LinkTags(fixture, ps, rels, wid, tags, prefix).Failure? <==>
      exists k :: 0 <= k < |tags| && Unknown(fixture, ps, tags[k])
    decreases |tags|
  {
    if |tags| > 0 {
      var init := tags[..|tags| - 1];
      var last := tags[|tags| - 1];
      assert tags == init + [last];
      LinkTagsFails(fixture, ps, rels, wid, init, prefix);
      LinkTagsProperties(fixture, ps, rels, wid, init, prefix);
      var r := LinkTags(fixture, ps, rels, wid, init, prefix);
      if r.Success? {
        UnknownStable(fixture, ps, r.value.properties, last);
        EnsurePropertyFails(fixture, r.value.properties, last, prefix);
      }
    }
  }

  /** When it fails, the error names the first unknown tag. */
  lemma {:induction false} LinkTagsFirstError(fixture: seq<WeaponProperty>, ps: seq<WeaponProperty>, rels: seq<Relation>,
                                              wid: nat, tags: seq<string>, prefix: string)
    requires PropertyNamesUnique(ps)
    ensures LinkTags(fixture, ps, rels, wid, tags, prefix).Failure? ==>
      exists k :: 0 <= k < |tags| && Unknown(fixture, ps, tags[k]) &&
        (forall j :: 0 <= j < k ==> !Unknown(fixture, ps, tags[j])) &&
        LinkTags(fixture, ps, rels, wid, tags, prefix).error == prefix + tags[k]
    decreases |tags|
  {
    if |tags| > 0 {
      var init := tags[..|tags| - 1];
      var last := tags[|tags| - 1];
      LinkTagsFirstError(fixture, ps, rels, wid, init, prefix);
      var r := LinkTags(fixture, ps, rels, wid, init, prefix);
      if r.Failure? {
        var k :| 0 <= k < |init| && Unknown(fixture, ps, init[k]) &&
          (forall j :: 0 <= j < k ==> !Unknown(fixture, ps, init[j])) && r.error == prefix + init[k];
        assert tags[k] == init[k];
        assert forall j :: 0 <= j < k ==> tags[j] == init[j];
      } else {
        LinkTagsFails(fixture, ps, rels, wid, init, prefix);
        LinkTagsProperties(fixture, ps, rels, wid, init, prefix);
        UnknownStable(fixture, ps, r.value.properties, last);
        EnsurePropertyFails(fixture, r.value.properties, last, prefix);
        assert forall j :: 0 <= j < |init| ==> tags[j] == init[j];
        var k := |tags| - 1;
        if LinkTags(fixture, ps, rels, wid, tags, prefix).Failure? {
          assert Unknown(fixture, ps, tags[k]);
        }
      }
    }
  }

  /** The join is taken relation by relation. */
  lemma {:induction false} LinkedNamesAppend(ps: seq<WeaponProperty>, a: seq<Relation>, b: seq<Relation>, wid: nat)
    ensures LinkedNames(ps, a + b, wid) == LinkedNames(ps, a, wid) + LinkedNames(ps, b, wid)
    decreases |b|
  {
    if |b| == 0 {
      assert a + b == a;
    } else {
      var init := b[..|b| - 1];
      assert (a + b)[..|a + b| - 1] == a + init;
      assert (a + b)[|a + b| - 1] == b[|b| - 1];
      LinkedNamesAppend(ps, a, init, wid);
    }
  }

  /** A weapon no relation points at has no tags. */
  lemma {:induction false} LinkedNamesNone(ps: seq<WeaponProperty>, rels: seq<Relation>, wid: nat)
    requires forall r :: r in rels ==> r.weaponId != wid
    ensures LinkedNames(ps, rels, wid) == []
    decreases |rels|
  {
    if |rels| > 0 {
      var init := rels[..|rels| - 1];
      assert forall r :: r in init ==> r in rels;
      LinkedNamesNone(ps, init, wid);
    }
  }

  // ---------------------------------------------------------------------
  // create
  // ---------------------------------------------------------------------

  /** The insert of `create` for a name not yet stored: the row under the
      next id, then the tag loop. A failing tag rolls the transaction back,
      which the caller sees as `Failure` and the tables as they were. */
  function InsertWeapon(fixture: seq<WeaponProperty>, t: Tables, w: Weapon, prefix: string): Result<Tables, string>
  {
    var id := |t.weapons| + 1;
    match LinkTags(fixture, t.properties, t.relations, id, w.properties, prefix)
    case Failure(e) => Failure(e)
    case Success(l) => Success(Tables(t.weapons + [ToDatabaseRow(id, w)], l.properties, l.relations))
  }

  /** What `create` leaves: the tables, and the id it returns or the error
      it throws. */
  datatype Outcome = Outcome(tables: Tables, result: Result<nat, string>)

  /** `create` of the store in src/data: a name already stored makes the
      `INSERT OR IGNORE` write nothing, and `create` returns 0; otherwise the
      new id, or the tag loop's error with the tables rolled back. */
  function Create(fixture: seq<WeaponProperty>, t: Tables, w: Weapon, prefix: string): Outcome
  {
    if WeaponIndexByName(t.weapons, w.name).Some? then Outcome(t, Success(0))
    else
      match InsertWeapon(fixture, t, w, prefix)
      case Failure(e) => Outcome(t, Failure(e))
      case Success(t') => Outcome(t', Success(|t.weapons| + 1))
  }

  /** Inserting a fresh name keeps every table invariant: the row is
      appended under the next id, the property table only grows by fixture
      entries, and the relations only grow by pairs of the new weapon. */
  lemma InsertWeaponValid(fixture: seq<WeaponProperty>, t: Tables, w: Weapon, prefix: string)
    requires TablesValid(t) && WeaponIndexByName(t.weapons, w.name).None?
    ensures InsertWeapon(fixture, t, w, prefix).Success? ==>
      var t' := InsertWeapon(fixture, t, w, prefix).value;
      TablesValid(t') &&
      t'.weapons == t.weapons + [ToDatabaseRow(|t.weapons| + 1, w)] &&
      PropertiesExtend(fixture, t.properties, t'.properties) &&
      |t.relations| <= |t'.relations| && t'.relations[..|t.relations|] == t.relations &&
      forall i :: |t.relations| <= i < |t'.relations| ==> t'.relations[i].weaponId == |t.weapons| + 1
  {
    var id := |t.weapons| + 1;
    LinkTagsProperties(fixture, t.properties, t.relations, id, w.properties, prefix);
    LinkTagsRelations(fixture, t.properties, t.relations, id, w.properties, prefix, id);
  }

  /** Inserting fails exactly when a tag is unknown, naming the first. */
  lemma InsertWeaponFails(fixture: seq<WeaponProperty>, t: Tables, w: Weapon, prefix: string)
    requires PropertyNamesUnique(t.properties)
    ensures InsertWeapon(fixture, t, w, prefix).Failure? <==>
      exists k :: 0 <= k < |w.properties| && Unknown(fixture, t.properties, w.properties[k])
    ensures InsertWeapon(fixture, t, w, prefix).Failure? ==>
      exists k :: 0 <= k < |w.properties| && Unknown(fixture, t.properties, w.properties[k]) &&
        (forall j :: 0 <= j < k ==> !Unknown(fixture, t.properties, w.properties[j])) &&
        InsertWeapon(fixture, t, w, prefix).error == prefix + w.properties[k]
  {
    var id := |t.weapons| + 1;
    LinkTagsFails(fixture, t.properties, t.relations, id, w.properties, prefix);
    LinkTagsFirstError(fixture, t.properties, t.relations, id, w.properties, prefix);
  }

  /** The new weapon is linked to exactly its own tags, each once. */
  lemma InsertWeaponTags(fixture: seq<WeaponProperty>, t: Tables, w: Weapon, prefix: string, x: string)
    requires TablesValid(t)
    ensures InsertWeapon(fixture, t, w, prefix).Success? ==>
      var t' := InsertWeapon(fixture, t, w, prefix).value;
      x in LinkedNames(t'.properties, t'.relations, |t.weapons| + 1) <==> x in w.properties
  {
    var id := |t.weapons| + 1;
    LinkedNamesNone(t.properties, t.relations, id);
    LinkTagsNames(fixture, t.properties, t.relations, id, w.properties, prefix, id, x);
  }

  /** Inserting one weapon changes no other weapon's tags. */
  lemma InsertWeaponKeepsOthers(fixture: seq<WeaponProperty>, t: Tables, w: Weapon, prefix: string)
    requires TablesValid(t) && WeaponIndexByName(t.weapons, w.name).None?
    ensures InsertWeapon(fixture, t, w, prefix).Success? ==>
      var t' := InsertWeapon(fixture, t, w, prefix).value;
      forall wid :: wid != |t.weapons| + 1 ==>
        LinkedNames(t'.properties, t'.relations, wid) == LinkedNames(t.properties, t.relations, wid)
  {
    InsertWeaponValid(fixture, t, w, prefix);
    var r := InsertWeapon(fixture, t, w, prefix);
    if r.Success? {
      var t' := r.value;
      var added := t'.relations[|t.relations|..];
      assert t'.relations == t.relations + added;
      forall wid | wid != |t.weapons| + 1
        ensures LinkedNames(t'.properties, t'.relations, wid) == LinkedNames(t.properties, t.relations, wid)
      {
        LinkedNamesAppend(t'.properties, t.relations, added, wid);
        LinkedNamesNone(t'.properties, added, wid);
        LinkedNamesGrowProperties(t.properties, t'.properties, t.relations, wid);
      }
    }
  }

  // ---------------------------------------------------------------------
  // Reads
  // ---------------------------------------------------------------------

  /** A stored row with the names joined for its id. */
  function Entity(t: Tables, row: WeaponDatabaseRow): WeaponEntity
  {
    CombineWeaponRowWithProperties(row, LinkedNames(t.properties, t.relations, row.id))
  }

  /** `read`: the row with that id with its tags, or null. */
  function ReadWeapon(t: Tables, id: nat): Option<WeaponEntity>
  {
    match FirstIndex(t.weapons, (row: WeaponDatabaseRow) => row.id == id, 0)
    case None => None
    case Some(i) => Some(Entity(t, t.weapons[i]))
  }

  /** `readAll`: every row in insertion order, with its tags. */
  function ReadAllWeapons(t: Tables): seq<WeaponEntity>
  {
    seq(|t.weapons|, i requires 0 <= i < |t.weapons| => Entity(t, t.weapons[i]))
  }

  /** `readByName`: the rows whose name contains the query, in insertion
      order. */
  function ReadWeaponsByName(t: Tables, query: string): (r: seq<WeaponEntity>)
    ensures forall e :: e in r <==> e in ReadAllWeapons(t) && Contains(e.weapon.name, query)
  {
    Filter(ReadAllWeapons(t), (e: WeaponEntity) => Contains(e.weapon.name, query))
  }

  /** `readWeaponProperty`: the property with that id, or null. */
  function ReadWeaponProperty(t: Tables, id: nat): (r: Option<WeaponPropertyEntity>)
    ensures r.Some? <==> 1 <= id <= |t.properties|
    ensures r.Some? ==> r.value.id == id && r.value.property in t.properties
  {
    if 1 <= id <= |t.properties| then Some(WeaponPropertyEntity(id, t.properties[id - 1])) else None
  }

  /** `readAllWeaponProperties`: every property in insertion order. */
  function ReadAllWeaponProperties(t: Tables): seq<WeaponPropertyEntity>
  {
    seq(|t.properties|, i requires 0 <= i < |t.properties| => WeaponPropertyEntity(i + 1, t.properties[i]))
  }

  /** `readWeaponPropertyByName`: the properties whose name contains the
      query, in insertion order. */
  function ReadWeaponPropertiesByName(t: Tables, query: string): (r: seq<WeaponPropertyEntity>)
    ensures forall e :: e in r <==> e in ReadAllWeaponProperties(t) && Contains(e.property.name, query)
  {
    Filter(ReadAllWeaponProperties(t), (e: WeaponPropertyEntity) => Contains(e.property.name, query))
  }

  /** With ids as positions, `read` finds exactly the ids 1..n, each at its
      position; every other id reads as null. */
  lemma ReadWeaponById(t: Tables, id: nat)
    requires WeaponIdsArePositions(t.weapons)
    ensures ReadWeapon(t, id).Some? <==> 1 <= id <= |t.weapons|
    ensures ReadWeapon(t, id).Some? ==> ReadWeapon(t, id).value == Entity(t, t.weapons[id - 1])
  {
    if 1 <= id <= |t.weapons| {
      assert t.weapons[id - 1].id == id;
    }
  }

  /** `readAll` holds the entity of every stored id, in id order. */
  lemma ReadAllIsReadById(t: Tables, i: nat)
    requires WeaponIdsArePositions(t.weapons) && i < |t.weapons|
    ensures |ReadAllWeapons(t)| == |t.weapons|
    ensures ReadWeapon(t, i + 1) == Some(ReadAllWeapons(t)[i])
  {
    ReadWeaponById(t, i + 1);
  }

  // ---------------------------------------------------------------------
  // What create promises
  // ---------------------------------------------------------------------

  /** `create` with a fresh name and known tags returns the next id, which
      is positive; reading it back gives the weapon's fields as `|| null`
      stored them (all of them when the weapon is storable) and its tag
      set. */
  lemma CreateFresh(fixture: seq<WeaponProperty>, t: Tables, w: Weapon, prefix: string)
    requires TablesValid(t) && WeaponIndexByName(t.weapons, w.name).None?
    requires forall k :: 0 <= k < |w.properties| ==> !Unknown(fixture, t.properties, w.properties[k])
    ensures Create(fixture, t, w, prefix).result == Success(|t.weapons| + 1)
    ensures TablesValid(Create(fixture, t, w, prefix).tables)
    ensures var t' := Create(fixture, t, w, prefix).tables;
      ReadWeapon(t', |t.weapons| + 1).Some? &&
      var e := ReadWeapon(t', |t.weapons| + 1).value;
      e.id == |t.weapons| + 1 &&
      e == CombineWeaponRowWithProperties(ToDatabaseRow(e.id, w), e.weapon.properties) &&
      (Storable(w) ==> e.weapon == w.(properties := e.weapon.properties)) &&
      forall x :: x in e.weapon.properties <==> x in w.properties
  {
    var id := |t.weapons| + 1;
    InsertWeaponFails(fixture, t, w, prefix);
    InsertWeaponValid(fixture, t, w, prefix);
    var t' := InsertWeapon(fixture, t, w, prefix).value;
    ReadWeaponById(t', id);
    assert t'.weapons[id - 1] == ToDatabaseRow(id, w);
    forall x ensures x in LinkedNames(t'.properties, t'.relations, id) <==> x in w.properties {
      InsertWeaponTags(fixture, t, w, prefix, x);
    }
    var e := ReadWeapon(t', id).value;
    if Storable(w) {
      RowRoundTrip(id, w.(properties := e.weapon.properties));
    }
  }

  /** `create` with an unknown tag throws the error naming the first unknown
      tag and leaves every table as it was. */
  lemma CreateUnknownTag(fixture: seq<WeaponProperty>, t: Tables, w: Weapon, prefix: string, k: nat)
    requires PropertyNamesUnique(t.properties) && WeaponIndexByName(t.weapons, w.name).None?
    requires k < |w.properties| && Unknown(fixture, t.properties, w.properties[k])
    requires forall j :: 0 <= j < k ==> !Unknown(fixture, t.properties, w.properties[j])
    ensures Create(fixture, t, w, prefix) == Outcome(t, Failure(prefix + w.properties[k]))
  {
    InsertWeaponFails(fixture, t, w, prefix);
    var r := InsertWeapon(fixture, t, w, prefix);
    var k' :| 0 <= k' < |w.properties| && Unknown(fixture, t.properties, w.properties[k']) &&
      (forall j :: 0 <= j < k' ==> !Unknown(fixture, t.properties, w.properties[j])) &&
      r.error == prefix + w.properties[k'];
    assert k' == k;
  }

  // ---------------------------------------------------------------------
  // Seeding by name
  // ---------------------------------------------------------------------

  /** The property loop of `insertInitialData` in src/data: each listed
      property whose name is not stored is inserted, in list order. */
  function SeedProperties(ps: seq<WeaponProperty>, seed: seq<WeaponProperty>): seq<WeaponProperty>
    decreases |seed|
  {
    if |seed| == 0 then ps
    else
      var ps0 := SeedProperties(ps, seed[..|seed| - 1]);
      var p := seed[|seed| - 1];
      if PropertyIndexByName(ps0, p.name).Some? then ps0 else ps0 + [p]
  }

  /** The weapon loop of `insertInitialData` in both stores: each listed
      weapon whose name is not stored is created, in list order; a throw
      ends the seeding. */
  function SeedWeapons(fixture: seq<WeaponProperty>, t: Tables, ws: seq<Weapon>, prefix: string): Result<Tables, string>
    decreases |ws|
  {
    if |ws| == 0 then Success(t)
    else
      match SeedWeapons(fixture, t, ws[..|ws| - 1], prefix)
      case Failure(e) => Failure(e)
      case Success(t0) => SeedWeapon(fixture, t0, ws[|ws| - 1], prefix)
  }

  /** The property loop over one more entry is one more turn. */
  lemma SeedPropertiesStep(ps: seq<WeaponProperty>, seed: seq<WeaponProperty>, i: nat)
    requires i < |seed|
    ensures SeedProperties(ps, seed[..i + 1]) ==
      var ps0 := SeedProperties(ps, seed[..i]);
      if PropertyIndexByName(ps0, seed[i].name).Some? then ps0 else ps0 + [seed[i]]
  {
    assert seed[..i + 1][..i] == seed[..i];
  }

  /** The weapon loop over one more weapon is one more turn. */
  lemma SeedWeaponsStep(fixture: seq<WeaponProperty>, t: Tables, ws: seq<Weapon>, prefix: string, i: nat, t0: Tables)
    requires i < |ws| && SeedWeapons(fixture, t, ws[..i], prefix) == Success(t0)
    ensures SeedWeapons(fixture, t, ws[..i + 1], prefix) == SeedWeapon(fixture, t0, ws[i], prefix)
  {
    assert ws[..i + 1][..i] == ws[..i];
  }

  /** A failure among the first `i` weapons is the failure of the whole
      seeding. */
  lemma {:induction false} SeedWeaponsStopsAtFailure(fixture: seq<WeaponProperty>, t: Tables, ws: seq<Weapon>, prefix: string, i: nat)
    requires i <= |ws| && SeedWeapons(fixture, t, ws[..i], prefix).Failure?
    ensures SeedWeapons(fixture, t, ws, prefix) == SeedWeapons(fixture, t, ws[..i], prefix)
    decreases |ws|
  {
    if i < |ws| {
      var init := ws[..|ws| - 1];
      assert init[..i] == ws[..i];
      SeedWeaponsStopsAtFailure(fixture, t, init, prefix, i);
    } else {
      assert ws[..i] == ws;
    }
  }

  /** One turn of the weapon loop of `insertInitialData`. */
  function SeedWeapon(fixture: seq<WeaponProperty>, t: Tables, w: Weapon, prefix: string): Result<Tables, string>
  {
    if WeaponIndexByName(t.weapons, w.name).Some? then Success(t) else InsertWeapon(fixture, t, w, prefix)
  }

  /** A turn of the weapon loop is `create` of a name not stored. */
  lemma SeedWeaponIsCreate(fixture: seq<WeaponProperty>, t: Tables, w: Weapon, prefix: string)
    requires WeaponIndexByName(t.weapons, w.name).None?
    ensures Create(fixture, t, w, prefix).result.Failure? ==>
      SeedWeapon(fixture, t, w, prefix) == Failure(Create(fixture, t, w, prefix).result.error)
    ensures Create(fixture, t, w, prefix).result.Success? ==>
      SeedWeapon(fixture, t, w, prefix) == Success(Create(fixture, t, w, prefix).tables)
  {
  }

  /** One turn only appends, and stores the weapon's name. */
  lemma SeedWeaponStores(fixture: seq<WeaponProperty>, t: Tables, w: Weapon, prefix: string)
    ensures SeedWeapon(fixture, t, w, prefix).Success? ==>
      var t' := SeedWeapon(fixture, t, w, prefix).value;
      |t.weapons| <= |t'.weapons| && t'.weapons[..|t.weapons|] == t.weapons &&
      WeaponIndexByName(t'.weapons, w.name).Some?
  {
    InsertWeaponAppends(fixture, t, w, prefix);
    var r := SeedWeapon(fixture, t, w, prefix);
    if r.Success? && WeaponIndexByName(t.weapons, w.name).None? {
      assert r.value.weapons[..|t.weapons|] == t.weapons;
      assert r.value.weapons[|t.weapons|].name == w.name;
    }
  }

  /** A name stays stored when rows are appended. */
  lemma PropertyStaysStored(ps: seq<WeaponProperty>, ps': seq<WeaponProperty>, name: string)
    requires |ps| <= |ps'| && ps'[..|ps|] == ps && PropertyIndexByName(ps, name).Some?
    ensures PropertyIndexByName(ps', name).Some?
  {
    var i := PropertyIndexByName(ps, name).value;
    assert ps'[i] == ps'[..|ps|][i];
  }

  lemma WeaponStaysStored(rows: seq<WeaponDatabaseRow>, rows': seq<WeaponDatabaseRow>, name: string)
    requires |rows| <= |rows'| && rows'[..|rows|] == rows && WeaponIndexByName(rows, name).Some?
    ensures WeaponIndexByName(rows', name).Some?
  {
    var i := WeaponIndexByName(rows, name).value;
    assert rows'[i] == rows'[..|rows|][i];
  }

  /** Property seeding only appends, and afterwards every listed name is
      stored. */
  lemma {:induction false} SeedPropertiesStores(ps: seq<WeaponProperty>, seed: seq<WeaponProperty>)
    ensures |ps| <= |SeedProperties(ps, seed)| && SeedProperties(ps, seed)[..|ps|] == ps
    ensures forall k :: 0 <= k < |seed| ==> PropertyIndexByName(SeedProperties(ps, seed), seed[k].name).Some?
    decreases |seed|
  {
    if |seed| == 0 {
      assert ps[..|ps|] == ps;
    } else {
      var init := seed[..|seed| - 1];
      var p := seed[|seed| - 1];
      SeedPropertiesStores(ps, init);
      var ps0 := SeedProperties(ps, init);
      var ps1 := SeedProperties(ps, seed);
      assert ps1[..|ps0|] == ps0;
      assert ps1[..|ps|] == ps0[..|ps|];
      forall k | 0 <= k < |seed| ensures PropertyIndexByName(ps1, seed[k].name).Some? {
        if k < |init| {
          assert seed[k] == init[k];
          PropertyStaysStored(ps0, ps1, seed[k].name);
        } else if PropertyIndexByName(ps0, p.name).None? {
          assert ps1[|ps0|] == p;
        }
      }
    }
  }

  /** Property seeding with every listed name stored writes nothing. */
  lemma {:induction false} SeedPropertiesNoop(ps: seq<WeaponProperty>, seed: seq<WeaponProperty>)
    requires forall k :: 0 <= k < |seed| ==> PropertyIndexByName(ps, seed[k].name).Some?
    ensures SeedProperties(ps, seed) == ps
    decreases |seed|
  {
    if |seed| > 0 {
      SeedPropertiesNoop(ps, seed[..|seed| - 1]);
    }
  }

  /** Seeding properties twice is seeding them once. */
  lemma SeedPropertiesIdempotent(ps: seq<WeaponProperty>, seed: seq<WeaponProperty>)
    ensures SeedProperties(SeedProperties(ps, seed), seed) == SeedProperties(ps, seed)
  {
    SeedPropertiesStores(ps, seed);
    SeedPropertiesNoop(SeedProperties(ps, seed), seed);
  }

  /** With no listed name stored and the listed names distinct, property
      seeding appends the list as it is, so ids follow list order. */
  lemma {:induction false} SeedPropertiesFresh(ps: seq<WeaponProperty>, seed: seq<WeaponProperty>)
    requires PropertyNamesUnique(ps + seed)
    ensures SeedProperties(ps, seed) == ps + seed
    decreases |seed|
  {
    if |seed| == 0 {
      assert ps + seed == ps;
    } else {
      var init := seed[..|seed| - 1];
      var p := seed[|seed| - 1];
      assert ps + seed == (ps + init) + [p];
      assert PropertyNamesUnique(ps + init) by {
        forall i, j | 0 <= i < j < |ps + init| ensures (ps + init)[i].name != (ps + init)[j].name {
          assert (ps + init)[i] == (ps + seed)[i] && (ps + init)[j] == (ps + seed)[j];
        }
      }
      SeedPropertiesFresh(ps, init);
      var ps0 := ps + init;
      forall i | 0 <= i < |ps0| ensures ps0[i].name != p.name {
        assert ps0[i] == (ps + seed)[i] && p == (ps + seed)[|ps0|];
      }
    }
  }

  lemma InsertWeaponAppends(fixture: seq<WeaponProperty>, t: Tables, w: Weapon, prefix: string)
    ensures InsertWeapon(fixture, t, w, prefix).Success? ==>
      InsertWeapon(fixture, t, w, prefix).value.weapons == t.weapons + [ToDatabaseRow(|t.weapons| + 1, w)]
  {
  }

  /** Weapon seeding only appends rows. */
  lemma {:induction false} SeedWeaponsAppends(fixture: seq<WeaponProperty>, t: Tables, ws: seq<Weapon>, prefix: string)
    ensures SeedWeapons(fixture, t, ws, prefix).Success? ==>
      var t' := SeedWeapons(fixture, t, ws, prefix).value;
      |t.weapons| <= |t'.weapons| && t'.weapons[..|t.weapons|] == t.weapons
    decreases |ws|
  {
    if |ws| == 0 {
      assert t.weapons[..|t.weapons|] == t.weapons;
    } else {
      var init := ws[..|ws| - 1];
      SeedWeaponsAppends(fixture, t, init, prefix);
      var r0 := SeedWeapons(fixture, t, init, prefix);
      if r0.Success? {
        var t0 := r0.value;
        SeedWeaponStores(fixture, t0, ws[|ws| - 1], prefix);
        var r := SeedWeapons(fixture, t, ws, prefix);
        if r.Success? {
          assert r.value.weapons[..|t.weapons|] == t0.weapons[..|t.weapons|];
        }
      }
    }
  }

  /** On success every listed name is stored. */
  lemma {:induction false} SeedWeaponsStores(fixture: seq<WeaponProperty>, t: Tables, ws: seq<Weapon>, prefix: string)
    ensures SeedWeapons(fixture, t, ws, prefix).Success? ==>
      var t' := SeedWeapons(fixture, t, ws, prefix).value;
      forall k :: 0 <= k < |ws| ==> WeaponIndexByName(t'.weapons, ws[k].name).Some?
    decreases |ws|
  {
    if |ws| > 0 {
      var init := ws[..|ws| - 1];
      SeedWeaponsStores(fixture, t, init, prefix);
      var r0 := SeedWeapons(fixture, t, init, prefix);
      if r0.Success? {
        var t0 := r0.value;
        SeedWeaponStores(fixture, t0, ws[|ws| - 1], prefix);
        var r := SeedWeapon(fixture, t0, ws[|ws| - 1], prefix);
        if r.Success? {
          forall k | 0 <= k < |init| ensures WeaponIndexByName(r.value.weapons, ws[k].name).Some? {
            assert ws[k] == init[k];
            WeaponStaysStored(t0.weapons, r.value.weapons, ws[k].name);
          }
        }
      }
    }
  }

  /** Weapon seeding with every listed name stored writes nothing. */
  lemma {:induction false} SeedWeaponsNoop(fixture: seq<WeaponProperty>, t: Tables, ws: seq<Weapon>, prefix: string)
    requires forall k :: 0 <= k < |ws| ==> WeaponIndexByName(t.weapons, ws[k].name).Some?
    ensures SeedWeapons(fixture, t, ws, prefix) == Success(t)
    decreases |ws|
  {
    if |ws| > 0 {
      SeedWeaponsNoop(fixture, t, ws[..|ws| - 1], prefix);
    }
  }

  /** Re-seeding weapons after a successful seeding adds nothing. */
  lemma SeedWeaponsIdempotent(fixture: seq<WeaponProperty>, t: Tables, ws: seq<Weapon>, prefix: string)
    requires SeedWeapons(fixture, t, ws, prefix).Success?
    ensures var t' := SeedWeapons(fixture, t, ws, prefix).value;
      SeedWeapons(fixture, t', ws, prefix) == Success(t')
  {
    SeedWeaponsStores(fixture, t, ws, prefix);
    SeedWeaponsNoop(fixture, SeedWeapons(fixture, t, ws, prefix).value, ws, prefix);
  }

  /** Weapons whose names are pairwise distinct. */
  predicate DistinctNames(ws: seq<Weapon>)
  {
    forall i, j :: 0 <= i < j < |ws| ==> ws[i].name != ws[j].name
  }

  /** `t'` is `t` with the weapons `ws` created after it, in list order:
      valid tables, one row per weapon under the next ids, the property
      table grown only by fixture entries, and each new weapon linked to
      exactly its tags. */
  ghost predicate SeededFrom(fixture: seq<WeaponProperty>, t: Tables, ws: seq<Weapon>, t': Tables)
  {
    TablesValid(t') && PropertiesExtend(fixture, t.properties, t'.properties) &&
    |t'.weapons| == |t.weapons| + |ws| && t'.weapons[..|t.weapons|] == t.weapons &&
    (forall k :: 0 <= k < |ws| ==> t'.weapons[|t.weapons| + k] == ToDatabaseRow(|t.weapons| + k + 1, ws[k])) &&
    forall k :: 0 <= k < |ws| ==> TagsAre(t', |t.weapons| + k + 1, ws[k].properties)
  }

  /** Weapon `id` is linked to exactly the names in `tags`. */
  ghost predicate TagsAre(t: Tables, id: nat, tags: seq<string>)
  {
    forall x :: x in LinkedNames(t.properties, t.relations, id) <==> x in tags
  }

  /** A weapon fresh for `t` and for the seeded list is fresh for the
      seeded tables. */
  lemma SeededNameFresh(fixture: seq<WeaponProperty>, t: Tables, ws: seq<Weapon>, w: Weapon, t0: Tables)
    requires SeededFrom(fixture, t, ws, t0)
    requires WeaponIndexByName(t.weapons, w.name).None?
    requires forall k :: 0 <= k < |ws| ==> ws[k].name != w.name
    ensures WeaponIndexByName(t0.weapons, w.name).None?
  {
    var n := |t.weapons|;
    forall i | 0 <= i < |t0.weapons| ensures t0.weapons[i].name != w.name {
      if i < n {
        assert t0.weapons[i] == t0.weapons[..n][i];
      } else {
        assert t0.weapons[n + (i - n)] == ToDatabaseRow(n + (i - n) + 1, ws[i - n]);
      }
    }
  }

  /** The rows part of one more seeded weapon. */
  lemma SeededRows(t: Tables, ws: seq<Weapon>, w: Weapon, t0: Tables, t1: Tables)
    requires |t0.weapons| == |t.weapons| + |ws| && t0.weapons[..|t.weapons|] == t.weapons
    requires forall k :: 0 <= k < |ws| ==> t0.weapons[|t.weapons| + k] == ToDatabaseRow(|t.weapons| + k + 1, ws[k])
    requires t1.weapons == t0.weapons + [ToDatabaseRow(|t0.weapons| + 1, w)]
    ensures |t1.weapons| == |t.weapons| + |ws + [w]| && t1.weapons[..|t.weapons|] == t.weapons
    ensures forall k :: 0 <= k < |ws + [w]| ==>
      t1.weapons[|t.weapons| + k] == ToDatabaseRow(|t.weapons| + k + 1, (ws + [w])[k])
  {
    var n := |t.weapons|;
    assert t1.weapons[..n] == t0.weapons[..n];
  }

  /** The links part of one more seeded weapon. */
  lemma SeededLinks(t: Tables, ws: seq<Weapon>, w: Weapon, t0: Tables, t1: Tables)
    requires |t0.weapons| == |t.weapons| + |ws|
    requires forall k :: 0 <= k < |ws| ==> TagsAre(t0, |t.weapons| + k + 1, ws[k].properties)
    requires forall id :: id != |t0.weapons| + 1 ==>
      LinkedNames(t1.properties, t1.relations, id) == LinkedNames(t0.properties, t0.relations, id)
    requires TagsAre(t1, |t0.weapons| + 1, w.properties)
    ensures forall k :: 0 <= k < |ws + [w]| ==> TagsAre(t1, |t.weapons| + k + 1, (ws + [w])[k].properties)
  {
    var n := |t.weapons|;
    var ws' := ws + [w];
    forall k | 0 <= k < |ws'| ensures TagsAre(t1, n + k + 1, ws'[k].properties) {
      if k < |ws| {
        assert LinkedNames(t1.properties, t1.relations, n + k + 1) == LinkedNames(t0.properties, t0.relations, n + k + 1);
        assert TagsAre(t0, n + k + 1, ws[k].properties);
      }
    }
  }

  lemma InsertTagsAre(fixture: seq<WeaponProperty>, t: Tables, w: Weapon, prefix: string)
    requires TablesValid(t) && InsertWeapon(fixture, t, w, prefix).Success?
    ensures TagsAre(InsertWeapon(fixture, t, w, prefix).value, |t.weapons| + 1, w.properties)
  {
    var t1 := InsertWeapon(fixture, t, w, prefix).value;
    forall x ensures x in LinkedNames(t1.properties, t1.relations, |t.weapons| + 1) <==> x in w.properties {
      InsertWeaponTags(fixture, t, w, prefix, x);
    }
  }

  /** One more fresh weapon with known tags extends the seeding. */
  lemma SeedWeaponFresh(fixture: seq<WeaponProperty>, t: Tables, ws: seq<Weapon>, w: Weapon, t0: Tables, prefix: string)
    requires TablesValid(t) && SeededFrom(fixture, t, ws, t0)
    requires WeaponIndexByName(t.weapons, w.name).None?
    requires forall k :: 0 <= k < |ws| ==> ws[k].name != w.name
    requires forall j :: 0 <= j < |w.properties| ==> !Unknown(fixture, t.properties, w.properties[j])
    ensures SeedWeapon(fixture, t0, w, prefix).Success?
    ensures SeededFrom(fixture, t, ws + [w], SeedWeapon(fixture, t0, w, prefix).value)
  {
    SeededNameFresh(fixture, t, ws, w, t0);
    forall j | 0 <= j < |w.properties| ensures !Unknown(fixture, t0.properties, w.properties[j]) {
      UnknownStable(fixture, t.properties, t0.properties, w.properties[j]);
    }
    InsertWeaponFails(fixture, t0, w, prefix);
    InsertWeaponValid(fixture, t0, w, prefix);
    var t1 := InsertWeapon(fixture, t0, w, prefix).value;
    PropertiesExtendTransitive(fixture, t.properties, t0.properties, t1.properties);
    SeededRows(t, ws, w, t0, t1);
    InsertWeaponKeepsOthers(fixture, t0, w, prefix);
    InsertTagsAre(fixture, t0, w, prefix);
    SeededLinks(t, ws, w, t0, t1);
  }

  /** Seeding fresh weapons with distinct names and known tags succeeds and
      creates them all, in list order. */
  lemma {:induction false} SeedWeaponsFresh(fixture: seq<WeaponProperty>, t: Tables, ws: seq<Weapon>, prefix: string)
    requires TablesValid(t) && DistinctNames(ws)
    requires forall k :: 0 <= k < |ws| ==> WeaponIndexByName(t.weapons, ws[k].name).None?
    requires forall k, j :: 0 <= k < |ws| && 0 <= j < |ws[k].properties| ==>
      !Unknown(fixture, t.properties, ws[k].properties[j])
    ensures SeedWeapons(fixture, t, ws, prefix).Success?
    ensures SeededFrom(fixture, t, ws, SeedWeapons(fixture, t, ws, prefix).value)
    decreases |ws|
  {
    if |ws| == 0 {
      assert t.weapons[..|t.weapons|] == t.weapons;
      assert t.properties[..|t.properties|] == t.properties;
    } else {
      var init := ws[..|ws| - 1];
      var w := ws[|ws| - 1];
      assert ws == init + [w];
      SeedWeaponsFresh(fixture, t, init, prefix);
      var t0 := SeedWeapons(fixture, t, init, prefix).value;
      SeedWeaponFresh(fixture, t, init, w, t0, prefix);
    }
  }

  // ---------------------------------------------------------------------
  // Properties created on demand
  // ---------------------------------------------------------------------

  /** The tags of `ws`, weapon after weapon, each in its list order. */
  function AllTags(ws: seq<Weapon>): seq<string>
    decreases |ws|
  {
    if |ws| == 0 then [] else AllTags(ws[..|ws| - 1]) + ws[|ws| - 1].properties
  }

  /** The tags of `ws` in the order they first appear, each once. */
  function FirstAppearances(ws: seq<Weapon>): seq<string>
  {
    Distinct(AllTags(ws))
  }

  /** One more weapon adds its tags not seen before. */
  lemma FirstAppearancesStep(ws: seq<Weapon>, k: nat)
    requires k < |ws|
    ensures FirstAppearances(ws[..k + 1]) == AddNew(FirstAppearances(ws[..k]), ws[k].properties)
  {
    assert ws[..k + 1][..k] == ws[..k];
    AddNewAppend([], AllTags(ws[..k]), ws[k].properties);
  }

  /** Weapons `lo` to `hi - 1` use only tags in `d`. */
  predicate TagsWithin(ws: seq<Weapon>, lo: nat, hi: nat, d: seq<string>)
    requires lo <= hi <= |ws|
  {
    forall k, j :: lo <= k < hi && 0 <= j < |ws[k].properties| ==> ws[k].properties[j] in d
  }

  /** Weapon `k` turns the tags seen so far into `after`, and the weapons
      after it up to `hi` use no new tag. */
  lemma FirstAppearancesThrough(ws: seq<Weapon>, k: nat, hi: nat, before: seq<string>, after: seq<string>)
    requires k < hi <= |ws| && FirstAppearances(ws[..k]) == before
    requires AddNew(before, ws[k].properties) == after && TagsWithin(ws, k + 1, hi, after)
    ensures FirstAppearances(ws[..hi]) == after
  {
    FirstAppearancesStep(ws, k);
    FirstAppearancesKnown(ws, k + 1, hi);
  }

  /** Weapons that use only tags seen before add none. */
  lemma {:induction false} FirstAppearancesKnown(ws: seq<Weapon>, lo: nat, hi: nat)
    requires lo <= hi <= |ws|
    requires forall k, j :: lo <= k < hi && 0 <= j < |ws[k].properties| ==>
      ws[k].properties[j] in FirstAppearances(ws[..lo])
    ensures FirstAppearances(ws[..hi]) == FirstAppearances(ws[..lo])
    decreases hi
  {
    if lo < hi {
      FirstAppearancesKnown(ws, lo, hi - 1);
      FirstAppearancesStep(ws, hi - 1);
      AddNewKnown(FirstAppearances(ws[..lo]), ws[hi - 1].properties);
    }
  }

  /** The property row created for `name`: the name with its fixture
      description. */
  function FixtureEntry(fixture: seq<WeaponProperty>, name: string): WeaponProperty
  {
    WeaponProperty(name, match Description(fixture, name) case Some(d) => d case None => "")
  }

  /** The property rows created for `names`, in order. */
  function FixtureEntries(fixture: seq<WeaponProperty>, names: seq<string>): seq<WeaponProperty>
  {
    Map(names, (n: string) => FixtureEntry(fixture, n))
  }

  /** A name is stored among such rows exactly when it is listed. */
  lemma FixtureEntriesIndex(fixture: seq<WeaponProperty>, names: seq<string>, name: string)
    ensures PropertyIndexByName(FixtureEntries(fixture, names), name).Some? <==> name in names
  {
    var ps := FixtureEntries(fixture, names);
    if name in names {
      var i :| 0 <= i < |names| && names[i] == name;
      assert ps[i].name == name;
    }
  }

  /** A lookup-or-insert on rows created for `names` leaves the rows created
      for `names` with `name` added when missing. */
  lemma EnsurePropertyEntries(fixture: seq<WeaponProperty>, names: seq<string>, name: string, prefix: string)
    ensures EnsureProperty(fixture, FixtureEntries(fixture, names), name, prefix).Success? ==>
      EnsureProperty(fixture, FixtureEntries(fixture, names), name, prefix).value.properties ==
      FixtureEntries(fixture, AddNew(names, [name]))
  {
    FixtureEntriesIndex(fixture, names, name);
    assert [name][..0] == [];
    if name !in names {
      assert FixtureEntries(fixture, names + [name]) == FixtureEntries(fixture, names) + [FixtureEntry(fixture, name)];
    }
  }

  /** The tag loop on rows created for `names` leaves the rows created for
      `names` with the missing tags added, in tag order. */
  lemma {:induction false} LinkTagsEntries(fixture: seq<WeaponProperty>, names: seq<string>, rels: seq<Relation>,
                                           wid: nat, tags: seq<string>, prefix: string)
    ensures LinkTags(fixture, FixtureEntries(fixture, names), rels, wid, tags, prefix).Success? ==>
      LinkTags(fixture, FixtureEntries(fixture, names), rels, wid, tags, prefix).value.properties ==
      FixtureEntries(fixture, AddNew(names, tags))
    decreases |tags|
  {
    if |tags| > 0 {
      var init := tags[..|tags| - 1];
      var last := tags[|tags| - 1];
      assert tags == init + [last];
      LinkTagsEntries(fixture, names, rels, wid, init, prefix);
      var r0 := LinkTags(fixture, FixtureEntries(fixture, names), rels, wid, init, prefix);
      if r0.Success? {
        EnsurePropertyEntries(fixture, AddNew(names, init), last, prefix);
        AddNewAppend(names, init, [last]);
      }
    }
  }

  /** Seeding fresh weapons with distinct names and known tags into tables
      whose property rows were created for `names` leaves the rows created
      for `names` followed by the weapons' missing tags, in order of first
      appearance. */
  lemma {:induction false} SeedWeaponsEntries(fixture: seq<WeaponProperty>, t: Tables, names: seq<string>, ws: seq<Weapon>, prefix: string)
    requires TablesValid(t) && DistinctNames(ws) && t.properties == FixtureEntries(fixture, names)
    requires forall k :: 0 <= k < |ws| ==> WeaponIndexByName(t.weapons, ws[k].name).None?
    requires forall k, j :: 0 <= k < |ws| && 0 <= j < |ws[k].properties| ==>
      !Unknown(fixture, t.properties, ws[k].properties[j])
    ensures SeedWeapons(fixture, t, ws, prefix).Success?
    ensures SeedWeapons(fixture, t, ws, prefix).value.properties == FixtureEntries(fixture, AddNew(names, AllTags(ws)))
    decreases |ws|
  {
    SeedWeaponsFresh(fixture, t, ws, prefix);
    if |ws| > 0 {
      var init := ws[..|ws| - 1];
      var w := ws[|ws| - 1];
      SeedWeaponsEntries(fixture, t, names, init, prefix);
      var t0 := SeedWeapons(fixture, t, init, prefix).value;
      SeedWeaponsLastFresh(fixture, t, ws, prefix);
      SeedWeaponEntries(fixture, t0, AddNew(names, AllTags(init)), w, prefix);
      AddNewAppend(names, AllTags(init), w.properties);
    }
  }

  /** In such a seeding the last weapon is still fresh when its turn comes. */
  lemma SeedWeaponsLastFresh(fixture: seq<WeaponProperty>, t: Tables, ws: seq<Weapon>, prefix: string)
    requires |ws| > 0 && TablesValid(t) && DistinctNames(ws)
    requires forall k :: 0 <= k < |ws| ==> WeaponIndexByName(t.weapons, ws[k].name).None?
    requires forall k, j :: 0 <= k < |ws| && 0 <= j < |ws[k].properties| ==>
      !Unknown(fixture, t.properties, ws[k].properties[j])
    ensures SeedWeapons(fixture, t, ws[..|ws| - 1], prefix).Success?
    ensures WeaponIndexByName(SeedWeapons(fixture, t, ws[..|ws| - 1], prefix).value.weapons, ws[|ws| - 1].name).None?
  {
    var init := ws[..|ws| - 1];
    SeedWeaponsFresh(fixture, t, init, prefix);
    SeededNameFresh(fixture, t, init, ws[|ws| - 1], SeedWeapons(fixture, t, init, prefix).value);
  }

  /** One turn of that seeding: a fresh weapon adds its missing tags. */
  lemma SeedWeaponEntries(fixture: seq<WeaponProperty>, t: Tables, names: seq<string>, w: Weapon, prefix: string)
    requires t.properties == FixtureEntries(fixture, names) && WeaponIndexByName(t.weapons, w.name).None?
    ensures SeedWeapon(fixture, t, w, prefix).Success? ==>
      SeedWeapon(fixture, t, w, prefix).value.properties == FixtureEntries(fixture, AddNew(names, w.properties))
  {
    LinkTagsEntries(fixture, names, t.relations, |t.weapons| + 1, w.properties, prefix);
  }

  /** Property seeding keeps names unique. */
  lemma {:induction false} SeedPropertiesUnique(ps: seq<WeaponProperty>, seed: seq<WeaponProperty>)
    requires PropertyNamesUnique(ps)
    ensures PropertyNamesUnique(SeedProperties(ps, seed))
    decreases |seed|
  {
    if |seed| > 0 {
      var init := seed[..|seed| - 1];
      var p := seed[|seed| - 1];
      SeedPropertiesUnique(ps, init);
      var ps0 := SeedProperties(ps, init);
      if PropertyIndexByName(ps0, p.name).None? {
        var ps1 := ps0 + [p];
        forall i, j | 0 <= i < j < |ps1| ensures ps1[i].name != ps1[j].name {
          if j == |ps0| {
            assert ps1[i] == ps0[i];
          }
        }
      }
    }
  }

  /** Weapon seeding keeps the tables valid and only appends properties. */
  lemma {:induction false} SeedWeaponsValid(fixture: seq<WeaponProperty>, t: Tables, ws: seq<Weapon>, prefix: string)
    requires TablesValid(t)
    ensures SeedWeapons(fixture, t, ws, prefix).Success? ==>
      var t' := SeedWeapons(fixture, t, ws, prefix).value;
      TablesValid(t') && |t.properties| <= |t'.properties| && t'.properties[..|t.properties|] == t.properties
    decreases |ws|
  {
    if |ws| == 0 {
      assert t.properties[..|t.properties|] == t.properties;
    } else {
      var init := ws[..|ws| - 1];
      SeedWeaponsValid(fixture, t, init, prefix);
      var r0 := SeedWeapons(fixture, t, init, prefix);
      if r0.Success? {
        var t0 := r0.value;
        var w := ws[|ws| - 1];
        if WeaponIndexByName(t0.weapons, w.name).None? {
          InsertWeaponValid(fixture, t0, w, prefix);
          var r := InsertWeapon(fixture, t0, w, prefix);
          if r.Success? {
            assert r.value.properties[..|t.properties|] == t0.properties[..|t.properties|];
          }
        }
      }
    }
  }

  /** `insertInitialData`: the listed properties are seeded by name, then
      the listed weapons. The store in src/data seeds the whole property
      fixture; the one in src/database seeds none and creates properties as
      tags need them. */
  function SeedAll(fixture: seq<WeaponProperty>, t: Tables, seed: seq<WeaponProperty>, ws: seq<Weapon>, prefix: string): Result<Tables, string>
  {
    SeedWeapons(fixture, t.(properties := SeedProperties(t.properties, seed)), ws, prefix)
  }

  /** Seeding no property list is seeding the weapons alone. */
  lemma SeedAllWeaponsOnly(fixture: seq<WeaponProperty>, t: Tables, ws: seq<Weapon>, prefix: string)
    ensures SeedAll(fixture, t, [], ws, prefix) == SeedWeapons(fixture, t, ws, prefix)
  {
    assert t.(properties := SeedProperties(t.properties, [])) == t;
  }

  /** Seeding valid tables a second time adds nothing. */
  lemma SeedAllIdempotent(fixture: seq<WeaponProperty>, t: Tables, seed: seq<WeaponProperty>, ws: seq<Weapon>, prefix: string)
    requires TablesValid(t) && SeedAll(fixture, t, seed, ws, prefix).Success?
    ensures var t' := SeedAll(fixture, t, seed, ws, prefix).value;
      TablesValid(t') && SeedAll(fixture, t', seed, ws, prefix) == Success(t')
  {
    var t1 := t.(properties := SeedProperties(t.properties, seed));
    SeedPropertiesUnique(t.properties, seed);
    SeedPropertiesStores(t.properties, seed);
    assert TablesValid(t1);
    SeedWeaponsValid(fixture, t1, ws, prefix);
    SeedWeaponsStores(fixture, t1, ws, prefix);
    var t' := SeedAll(fixture, t, seed, ws, prefix).value;
    forall k | 0 <= k < |seed| ensures PropertyIndexByName(t'.properties, seed[k].name).Some? {
      PropertyStaysStored(t1.properties, t'.properties, seed[k].name);
    }
    SeedPropertiesNoop(t'.properties, seed);
    assert t'.(properties := SeedProperties(t'.properties, seed)) == t';
    SeedWeaponsNoop(fixture, t', ws, prefix);
  }

  /** When every tag is already stored, weapon seeding writes no property. */
  lemma {:induction false} SeedWeaponsKeepsProperties(fixture: seq<WeaponProperty>, t: Tables, ws: seq<Weapon>, prefix: string)
    requires PropertyNamesUnique(t.properties)
    requires forall k, j :: 0 <= k < |ws| && 0 <= j < |ws[k].properties| ==>
      PropertyIndexByName(t.properties, ws[k].properties[j]).Some?
    ensures SeedWeapons(fixture, t, ws, prefix).Success? ==>
      SeedWeapons(fixture, t, ws, prefix).value.properties == t.properties
    decreases |ws|
  {
    if |ws| > 0 {
      var init := ws[..|ws| - 1];
      var w := ws[|ws| - 1];
      assert forall k :: 0 <= k < |init| ==> init[k] == ws[k];
      SeedWeaponsKeepsProperties(fixture, t, init, prefix);
      var r0 := SeedWeapons(fixture, t, init, prefix);
      if r0.Success? {
        var t0 := r0.value;
        LinkTagsProperties(fixture, t0.properties, t0.relations, |t0.weapons| + 1, w.properties, prefix);
      }
    }
  }
}

=== FILE: wrappers.dfy ===
/** Optional values and results with an error, standing for the `null`
    returns and the thrown errors of the catalogue code. */
module Wrappers {

  datatype Option<+T> = None | Some(value: T)

  datatype Result<+T, +E> = Success(value: T) | Failure(error: E)
}
